=== FILE: README.md ===
# OpenFlights loaders and Asia reports, modelled in Dafny

The system loads four OpenFlights data files into PostgreSQL:

- routes, into `airline_routes`;
- airports, into `airports`;
- aircraft, into `aircraft`;
- airlines, into `airlines`.

It then works on the stored rows:

- flags the route ends that lie in Asia;
- counts and groups those routes;
- recounts the traffic of every airport;
- rebuilds the `operational_airlines` table;
- writes the spreadsheet reports, each with the airline names coloured by a fixed palette.

This project models that core as pure functions over immutable values:

- A CSV record is a `seq<string>`.
- A table is a `map` keyed by its primary key. Where a table has no such key, it is a `seq` of rows in insertion order.
- SQL NULL and Python `None` are `Option.None`.
- A load either returns its rows or fails with the reason the Python code would raise (`Result`).

Modules, in dependency order:

- `Base`: `Option` and `Result`, plus the load and store error kinds.
- `Text`: `str.strip` over Python's whitespace set, `lstrip`, ASCII `upper`, and the `int()` text grammar.
- `Fields`: `nullify` and the int, bool and float coercions.
- `Loader`: the shared record loop. It skips empty records, aborts on the first bad record and keeps the accepted rows in file order.
- `Upsert`:
  - `execute_values` paging;
  - `INSERT … ON CONFLICT … DO UPDATE`;
  - the PostgreSQL rule that one statement may not touch the same key twice;
  - the order in which a batch fails: page by page, and within a page a value that does not fit its column (found row by row while the statement is planned) before a repeated key.
- `Routes`: the routes loader, and `INSERT … ON CONFLICT ON CONSTRAINT airline_routes_uk DO NOTHING`.
- `RouteQuery`: `COUNT(*) FILTER (WHERE …)` with SQL's three-valued comparison on the nullable flags.
- `Airports`: the airports loader, its upsert, and `calculate_flights_per_airport`.
- `Aircraft`: the aircraft loader, including the in-memory de-duplication on ICAO code, and its upsert.
- `Airlines`: the airlines loader, its upsert, and `OperationalAirlines.create_table`.
- `Asia`: `map_asia_flags`, `count_asia_routes` and `report_asia_airline_frequencies`.
- `AsiaReport`: `create_asia_report_table`, which covers three things:
  - the choice of join column;
  - the aircraft `LEFT JOIN` and its fan-out;
  - the passenger sums.
- `Highlights`: `hex_to_argb` and `apply_airline_highlights` over a workbook modelled as rows of cells. It also covers the header rows the two usage reports export.
- `Usage`: `get_airlines_using_top10_airports` and `get_airlines_unique_airport_counts`.

Some behaviour comes from outside the Python code. The model takes each of these as a parameter or a value:

- Parsing a float (`float()`) is a parameter, `floatOf: string -> Option<real>`.
- The set of ten busiest airports is a parameter, `top`.
- The columns of `airline_routes` are a set of names handed to `ChooseJoin`.
- The aircraft join condition is a parameter, `on`, of `Report`.

## Model

| member | source | states |
|---|---|---|
| Text.Strip | src/methods/airline_routes.py:16 | The result carries no leading or trailing whitespace. It is obtained from the input by removing only whitespace at both ends. |
| Text.StripUnique | src/methods/airline_routes.py:16 | Any whitespace-free core that the input pads with whitespace is exactly `Strip` of the input. |
| Text.StripIdempotent | src/methods/airports.py:10 | Stripping twice is stripping once. |
| Text.ParseInt | src/methods/airline_routes.py:22 | `int()` of a string succeeds exactly when its stripped text is an optional sign followed by decimal digits. Single underscores may stand between two digits. The digit-count limit of newer Pythons is not modelled (see "Left out"). |
| Text.ParseIntSign | src/methods/airline_routes.py:22 | An unsigned digit text parses to its digit value. A leading `+` leaves the value unchanged, and a leading `-` negates it, so `-0` is 0. |
| Text.ParseIntLeadingZero | src/methods/airline_routes.py:22 | A leading `0` is accepted and changes nothing: `007` parses as `7`. |
| Text.ParseIntUnderscore | src/methods/airline_routes.py:22 | Removing an underscore separator leaves a valid digit text with the same value: `1_000` parses as `1000`. |
| Text.ParseShow | src/methods/airline_routes.py:22 | Parsing the decimal rendering of any integer gives that integer back. |
| Text.StripLeading | src/methods/report.py:130 | `lstrip('#')` removes exactly the leading `#` characters: the removed prefix is all `#` and the rest does not start with `#`. |
| Text.Upper | src/methods/report.py:130 | `upper()` keeps the length and maps every character through the ASCII upper-case map. |
| Text.UpperIdempotent | src/methods/report.py:130 | The result has no lower-case letter, and upper-casing twice is upper-casing once. |
| Fields.Nullify | src/methods/airline_routes.py:11-17 | A value is NULL exactly when its stripped text is empty or `\N`. Otherwise it is the stripped text. |
| Fields.NullifyUnpadded | src/methods/aircraft.py:11-17 | A non-NULL result is unpadded, is neither empty nor `\N`, and is the input's whitespace-padded core. |
| Fields.NullifyIdempotent | src/methods/airports.py:8-13 | Nullifying a value already nullified changes nothing. |
| Fields.NullifyIgnoresPadding | src/methods/airlines.py:10-16 | Surrounding a value with any whitespace does not change its nullified form. |
| Fields.ToIntOrNone | src/methods/airline_routes.py:19-22 | The result is NULL iff `nullify` gives NULL. It raises a `BadInteger` error carrying the stripped text iff that text is not an integer. Otherwise the integer is the one `int()` reads from the stripped text. |
| Fields.ToIntOrNoneDigits | src/methods/airline_routes.py:19-22 | Padded digits, with leading zeros or `_` separators, give their decimal value: `" 007 "` is 7 and `"1_000"` is 1000. |
| Fields.ToIntOrNoneSigned | src/methods/airline_routes.py:19-22 | A `+` or `-` before the digits gives their value or its negation. |
| Fields.ToIntOrNoneShow | src/methods/airports.py:20-23 | Any integer written in decimal, with any whitespace padding, parses back to itself. |
| Fields.IntCoercionsAgree | src/methods/aircraft.py:19-27 | The aircraft loader's `nullify_int` agrees with `to_int_or_none` wherever the latter succeeds. It gives NULL exactly where the latter would raise. |
| Fields.ToBoolCodeshare | src/methods/airline_routes.py:24-31 | The codeshare flag is true exactly when the stripped field is `Y`. |
| Fields.ToFloatOrNone | src/methods/airports.py:15-18 | The result is NULL iff `nullify` gives NULL. It raises `BadFloat` iff the float parser rejects the stripped text. |
| Fields.NullifyFloat | src/methods/aircraft.py:29-37 | It is the float coercion with the error turned into NULL. |
| Loader.LoadFromOk | src/methods/airline_routes.py:103-139 | A load succeeds exactly when every non-empty record is accepted. It then returns the kept rows of the records in file order. |
| Loader.LoadFromErr | src/methods/airline_routes.py:106-111 | A failed load reports the first rejected non-empty record and its 1-based line number. |
| Loader.LoadFieldCount | src/methods/airline_routes.py:110-111 | A field-count error carries the line and field count of the first rejected non-empty record. That record has the wrong arity, its length is not the expected field count, and every earlier record was accepted. |
| Loader.KeptOnePerRecord | src/methods/airline_routes.py:106-139 | When every non-empty record converts to a row, there is one row per non-empty record, in order. |
| Loader.KeptMembers | src/methods/airports.py:79-104 | A value is among the loaded rows exactly when some non-empty record converts to it. |
| Upsert.Pages | src/methods/airports.py:114 | `execute_values` splits a batch into non-empty pages of at most `page_size` rows whose concatenation is the batch. |
| Upsert.LastWith | src/methods/aircraft.py:128 | Finds the last row with a given key. The key is absent iff no row has it, and no later row has the key. |
| Upsert.ApplyFrame | src/methods/airports.py:53-74 | After an upsert the keys are the old keys plus the rows' keys. A key no row names keeps its stored value. |
| Upsert.ApplyLastWins | src/methods/airlines.py:42-54 | With `DO UPDATE SET` of every column, the stored value of a named key is built from its last row alone. |
| Upsert.PageOfBounds | src/methods/airports.py:114 | Row `a` goes in page `a / page_size`: that page's first row is at or before `a`, and the next page starts after it. |
| Upsert.FirstFault | src/methods/airports.py:114 | Finds the first row whose values do not fit their columns. It is absent iff every row fits, and otherwise it is that row's error with every earlier row fitting. |
| Upsert.RunPages | src/methods/airports.py:110-118 | One statement per page, run in order in one transaction. The batch succeeds iff no page has a row that does not fit or a key named twice. It then equals the row-by-row upsert of all the pages' rows. |
| Upsert.ApplyConcat | src/methods/airports.py:114 | Upserting two stretches of rows one after the other is upserting them joined. |
| Upsert.RunPagesFirstFailure | src/methods/airports.py:110-118 | A failed batch carries the error of a page before which every page succeeded. |
| Upsert.Batch | src/methods/airports.py:110-118 | A batch succeeds iff every row fits and no two rows with the same key fall in the same page. It is then the row-by-row upsert. A failure is the repeated-key error or the error of some row. When no page repeats a key, it is the error of the first row that does not fit. |
| Upsert.PagesRepeat | src/methods/airports.py:114 | Some page of `execute_values` repeats a key iff two rows with that key have the same page number. |
| Upsert.RepeatAcrossPages | src/methods/airports.py:114 | Two rows with one key fail when they share a page of 2. With pages of 1, the later row overwrites the earlier one. |
| Upsert.EarlierPageDecides | src/methods/airlines.py:87 | A page that repeats a key fails the batch with the repeated-key error, even when a later page holds a row that does not fit. |
| Upsert.EarlierFaultDecides | src/methods/airlines.py:87 | A page with a row that does not fit fails the batch with that row's error, even when a later page repeats a key. |
| Upsert.EarlierRowDecides | src/methods/airlines.py:42-54 | Within one statement the first row that does not fit decides the error, whatever the later rows are. |
| Upsert.DistinctPages | src/methods/airports.py:114 | Splitting rows with distinct keys into pages keeps each page's keys distinct. |
| Upsert.BatchDistinctOk | src/methods/airports.py:110-118 | A batch whose rows fit and whose keys are distinct succeeds. Its effect is the row-by-row upsert. |
| Upsert.KeysByLast | src/methods/aircraft.py:128 | A key is among the rows' keys exactly when it has a last row. |
| Upsert.ApplyDependsOnLast | src/methods/aircraft.py:69-85 | Two batches with the same last row for every key upsert to the same table. |
| Routes.ConvertRouteMeaning | src/methods/airline_routes.py:110-139 | A route record is accepted iff it has 9 fields and its integer fields parse. The row is then exactly the nullified and coerced fields. |
| Routes.LoadRoutesOk | src/methods/airline_routes.py:103-139 | The routes load succeeds iff every non-empty record has 9 fields with parsable integers. Row k then denotes the k-th non-empty record. |
| Routes.LoadRoutesFieldCount | src/methods/airline_routes.py:110-111 | A field-count error names the line and the field count of a non-empty record whose count is not 9. Every earlier record was accepted. |
| Routes.InsertRoutes | src/methods/airline_routes.py:87-100 | Inserting never changes or removes stored rows. It appends at most one row per input row, with both Asia flags NULL. |
| Routes.InsertRoutesUnique | src/methods/airline_routes.py:73-83 | If the table satisfies the unique constraint before the insert, it still does afterwards. |
| Routes.InsertPresent | src/methods/airline_routes.py:100 | A row already present under the constraint is skipped (`DO NOTHING`). |
| Routes.InsertIncompleteAppends | src/methods/airline_routes.py:73-83 | A row with a NULL in its natural key is always appended, because NULLs are distinct. |
| Routes.PresentGrows | src/methods/airline_routes.py:87-100 | A row present before an insert is still present after it. |
| Routes.InsertRoutesCovers | src/methods/airline_routes.py:87-100 | After the insert, every input row that can conflict with itself is present. |
| Routes.InsertAllPresent | src/methods/airline_routes.py:100 | A batch whose rows are all present leaves the table unchanged. |
| Routes.InsertRoutesIdempotent | src/methods/airline_routes.py:87-100 | For rows whose keys are complete, inserting the batch a second time changes nothing. |
| Routes.InsertIdempotentNullsNotDistinct | src/methods/airline_routes.py:73-83 | With `NULLS NOT DISTINCT` on the constraint, reloading any batch changes nothing. |
| Routes.ReloadDuplicatesNullKey | src/methods/airline_routes.py:73-83 | Under the constraint as declared, loading the same route with a `\N` airline id twice stores it twice. |
| Routes.StoreRoutes | src/methods/airline_routes.py:141-149 | The batch fails with `IntegerOutOfRange` iff some value overflows an INTEGER column. On success the table is the `ON CONFLICT DO NOTHING` insert of the rows under the declared constraint, with the old rows kept as a prefix. |
| Routes.StoreRoutesCovers | src/methods/airline_routes.py:96-100 | After a successful store every route with a complete key is present, and every added row is one of the batch's routes with NULL Asia flags. |
| Routes.StoreRoutesReload | src/methods/airline_routes.py:96-100 | Storing the same routes again changes nothing when every route has a complete key. |
| Routes.StoreRoutesReloadNullKey | src/methods/airline_routes.py:73-83 | Storing the same file twice through the loader's store keeps a route with airline id `\N` twice. |
| RouteQuery.Count | src/methods/airline_routes.py:215-225 | `COUNT(*) FILTER` is at most the number of rows. |
| RouteQuery.CountAppend | src/methods/airline_routes.py:215-225 | The filtered count of two tables appended is the sum of their counts. |
| RouteQuery.CountInclusionExclusion | src/methods/airline_routes.py:219-224 | `count(a OR b) + count(a AND b) == count(a) + count(b)`. |
| RouteQuery.CountMonotone | src/methods/airline_routes.py:215-225 | A condition implying another never counts more. |
| RouteQuery.CountPositive | src/methods/airline_routes.py:261 | A filtered count is positive exactly when some row satisfies the filter. |
| Airports.ConvertAirportMeaning | src/methods/airports.py:79-104 | A record is kept iff it has 14 fields whose coercions succeed. A NULL id skips it, and a kept row denotes the record's nullified and coerced fields. |
| Airports.AirportOfMeaning | src/methods/airports.py:89-104 | Converting the fields succeeds iff every integer and float field parses. A failure is a `BadInteger` or `BadFloat` error. |
| Airports.LoadAirportsRows | src/methods/airports.py:76-104 | A successful airports load contains exactly the airports of the non-empty records that convert to a row. |
| Airports.LoadAirportsFieldCount | src/methods/airports.py:82-83 | A field-count error names a non-empty record whose field count is not 14. |
| Airports.AirportFault | src/methods/airports.py:36-58 | A row fails exactly when its id or altitude does not fit INTEGER, and the error is `IntegerOutOfRange`. |
| Airports.StoreAirportsLastWins | src/methods/airports.py:53-74 | After a store, an airport id named by some row holds that id's last row, with its traffic counts kept. Other ids are unchanged. |
| Airports.StoreAirportsDistinct | src/methods/airports.py:110-118 | Rows that fit their columns and have distinct ids are always stored. |
| Airports.StoreAirportsRepeatedId | src/methods/airports.py:110-118 | For rows that fit their columns, the store fails iff two rows with the same id fall in the same page of 10000. The error is `KeyRepeatedInStatement`. |
| Airports.Recount | src/methods/airports.py:139-186 | The recount keeps every airport and its data, and sets the total to inbound plus outbound. |
| Airports.RecountMeaning | src/methods/airports.py:152-175 | Outbound and inbound are the numbers of routes leaving and reaching the airport. |
| Airports.RecountUntouched | src/methods/airports.py:143-149 | An airport no route touches has all three counts reset to 0. |
| Airports.RecountIdempotent | src/methods/airports.py:139-186 | Recounting twice is recounting once. |
| Airports.RecountAddRoute | src/methods/airports.py:152-175 | One more route adds one to the outbound count of its source and one to the inbound count of its destination. |
| Aircraft.ConvertAircraftMeaning | src/methods/aircraft.py:93-128 | A record of neither 6 nor 7 fields is rejected, and no record raises a coercion error. A NULL ICAO code skips the record. A kept row takes seats and cargo from the positions that match its field count. |
| Aircraft.FindIcao | src/methods/aircraft.py:128 | Finds the position of an ICAO code among the rows kept so far, or reports that no row has it. |
| Aircraft.PlaceMeaning | src/methods/aircraft.py:128 | Storing a row under its ICAO code keeps the codes distinct and adds the row's code. It replaces an earlier row with that code in place. |
| Aircraft.DedupMeaning | src/methods/aircraft.py:87-130 | The de-duplicated rows have distinct ICAO codes and the same codes as the input. Each is the last input row with its code. |
| Aircraft.LastWithDedup | src/methods/aircraft.py:128-130 | Every code's last row is the same before and after de-duplication. |
| Aircraft.DedupUpsertSame | src/methods/aircraft.py:128-141 | Upserting the de-duplicated rows gives the same table as upserting all the rows one after another. |
| Aircraft.StoreDedupedAircraft | src/methods/aircraft.py:136-143 | The de-duplicated batch never hits the repeated-key error. Each code then holds its last row, and other codes are unchanged. |
| Aircraft.AircraftFault | src/methods/aircraft.py:53-61 | A row fails exactly when its seat capacity does not fit INTEGER, and the error is `IntegerOutOfRange`. |
| Aircraft.StoreAircraftOutOfRange | src/methods/aircraft.py:141-147 | A row that does not fit its INTEGER column fails the store, and the rollback leaves the table as it was. With distinct ICAO codes the error is `IntegerOutOfRange`. |
| Airlines.ConvertAirlineMeaning | src/methods/airlines.py:56-78 | An airline record is rejected iff it does not have 8 fields. A NULL id skips it, and a malformed id raises `BadInteger`. Otherwise every column is the nullified field. |
| Airlines.LoadAirlinesRows | src/methods/airlines.py:56-78 | A successful airlines load contains exactly the airlines of the non-empty records that convert to a row. |
| Airlines.LoadAirlinesBadId | src/methods/airlines.py:65-70 | A record with a malformed id makes the whole load fail. |
| Airlines.AirlineFault | src/methods/airlines.py:29-44 | A row's error follows the column order of the INSERT: `IntegerOutOfRange` iff the id does not fit, and otherwise `ValueTooLong` iff `active` is longer than one character. |
| Airlines.StoreAirlines | src/methods/airlines.py:29-87 | A `ValueTooLong` failure comes from an `active` value longer than `CHAR(1)` allows. Such a value always fails the store. When every id fits and no page of 5000 repeats an id, the error is `ValueTooLong`. |
| Airlines.StoreAirlinesLastWins | src/methods/airlines.py:42-54 | After a store, an airline id holds its last row, and ids no row names are unchanged. |
| Airlines.StoreAirlinesDistinct | src/methods/airlines.py:84-88 | Rows that fit and have distinct ids are stored as their row-by-row upsert. |
| Airlines.StoreAirlinesRepeatedId | src/methods/airlines.py:84-88 | For rows that fit, the store fails iff two rows with the same id fall in the same page of 5000. The error is `KeyRepeatedInStatement`. |
| Airlines.Operational | src/methods/operational_airlines.py:16-23 | `operational_airlines` holds exactly the airlines whose `active` is `Y`, with their rows unchanged. |
| Airlines.OperationalIdempotent | src/methods/operational_airlines.py:16-23 | The operational airlines are a subset of the airlines. Rebuilding from them changes nothing. |
| Airlines.OperationalAfterUpsert | src/methods/operational_airlines.py:19-22 | After an upsert, an airline is operational iff its last upserted row has `active` equal to `Y`. |
| Asia.MapAsiaFlags | src/methods/airline_routes.py:175-200 | Flagging keeps every route and its data, and leaves both flags of every route non-NULL. |
| Asia.MapAsiaFlagsMeaning | src/methods/airline_routes.py:181-199 | An end at a known airport is in Asia iff the airport's country is on the Asian list. An end at an unknown airport keeps a TRUE it had. |
| Asia.MapAsiaFlagsIdempotent | src/methods/airline_routes.py:175-200 | Running the job twice is running it once. |
| Asia.MapAsiaFlagsFresh | src/methods/airline_routes.py:181-195 | On a freshly inserted route, the source flag is TRUE iff the source airport is known and in an Asian country. |
| Asia.HoldsAsia | src/methods/airline_routes.py:251-254 | The within, out-of, into and touches filters mean flag comparisons that are TRUE under three-valued logic. |
| Asia.CountAsiaRoutes | src/methods/airline_routes.py:212-241 | `both` is at most each one-end count, and `touches + both == source + dest`. Every count is bounded by the table. |
| Asia.TouchesPartition | src/methods/airline_routes.py:251-254 | Once the flags are set, the routes touching Asia split exactly into within, out-of and into, per group. |
| Asia.CountAsiaAfterFlags | src/methods/airline_routes.py:192-199 | After `map_asia_flags`, touches equals within plus out-of plus into. |
| Asia.FlaggedSplit | src/methods/airline_routes.py:219-224 | On any table whose flags are all set, the routes touching Asia are exactly the within, out-of and into routes. |
| Asia.GroupCounts | src/methods/airline_routes.py:251-254 | Within one group, within + out + into never exceeds touches, with equality once the flags are set. |
| Asia.Frequencies | src/methods/airline_routes.py:245-264 | Each group's name is the joined airline name, or `(unknown)` when there is none. |
| Asia.FrequenciesHaving | src/methods/airline_routes.py:261 | A group is reported iff one of its routes has both ends flagged in Asia. |
| Asia.FrequenciesCounts | src/methods/airline_routes.py:251-254 | A reported group has within > 0, and within + out + into never exceeds its touches. They are equal once the flags are set, and within never exceeds the table-wide both-ends count. |
| AsiaReport.ChooseJoin | src/methods/report.py:26-42 | The chosen link column is present, and no higher-priority one is. There is no join iff none of the four columns is present. |
| AsiaReport.LoaderSchemaJoinsOnEquipment | src/methods/report.py:29-36 | On the table the routes loader creates, the join is on `equipment`. |
| AsiaReport.MatchesOf | src/methods/report.py:36 | The aircraft rows joined to a route are exactly those meeting the join condition. |
| AsiaReport.JoinRoute | src/methods/report.py:38-41 | The `LEFT JOIN` yields at least one row per route, each carrying that route. |
| AsiaReport.JoinedCount | src/methods/report.py:54-71 | A count over the joined rows counts each route once per aircraft row it joins, and once when it joins none. |
| AsiaReport.FanoutAtLeast | src/methods/report.py:92-95 | Join counts are never below route counts, and are zero exactly when the route count is. |
| AsiaReport.FanoutSingle | src/methods/report.py:92-95 | When every route joins at most one aircraft row, join counts equal route counts. |
| AsiaReport.JoinedFrom | src/methods/report.py:92-95 | Every joined row carries one of the routes. |
| AsiaReport.Pax | src/methods/report.py:73-90 | A passenger sum is NULL exactly when no joined row passes its filter. |
| AsiaReport.SeatSumPartition | src/methods/report.py:87-90 | Once the flags are set, the seats of touching rows split into within, out-of and into. |
| AsiaReport.NothingJoinsNoSeats | src/methods/report.py:38-42 | With `ON 1=0`, no joined row carries a seat capacity. |
| AsiaReport.Report | src/methods/report.py:46-103 | Each row's name is the joined airline name, or `(unknown)`. The `HAVING` clause keeps only groups with at least one Asia route, so every row's total is positive. |
| AsiaReport.ReportHaving | src/methods/report.py:97-102 | A group is in the report iff one of its routes touches Asia. |
| AsiaReport.ReportTotals | src/methods/report.py:68-71 | With the flags set, the total is out + in + within. The passenger total is likewise the sum of the three passenger sums, each taken as 0 when NULL. |
| AsiaReport.ReportWithoutJoin | src/methods/report.py:109-110 | Without a link column, the passenger total is 0. Every other passenger column is NULL or 0. |
| AsiaReport.ReportByRoute | src/methods/report.py:46-103 | The corrected report keeps the same name column, counting routes instead of joined rows. |
| AsiaReport.ReportByRouteAgrees | src/methods/report.py:54-71 | The corrected report has the same groups as the report. Its counts equal the frequency report's, and its total is out + in + within once the flags are set. |
| AsiaReport.ReportSingleMatch | src/methods/report.py:92-95 | When no route joins two aircraft rows, the report and the corrected report coincide. |
| AsiaReport.ExampleAircraftStored | src/methods/aircraft.py:128-130 | The example's two aircraft rows have different ICAO codes, so the loader's de-duplication keeps both and they can stand in the aircraft table together. |
| AsiaReport.ReportCountsJoinedRows | src/methods/report.py:54-71 | A single Frankfurt–Tokyo route whose equipment `738` matches two aircraft rows is reported with `flghts_in_asia == 2`. The corrected report gives 1. |
| Highlights.HexToArgb | src/methods/report.py:128-131 | The result is `FF` followed by the colour with every leading `#` removed, each remaining character upper-cased in place. The removed prefix is all `#`, and what follows it does not start with `#`. |
| Highlights.HexToArgbRoundTrip | src/methods/report.py:128-131 | A `#rrggbb` colour becomes an 8-digit upper-case ARGB string. Lower-casing it and restoring the `#` gives the colour back. |
| Highlights.PaletteIsArgb | src/methods/report.py:135-146 | Every colour of the airline palette converts to a valid ARGB string. |
| Highlights.HeaderColumnMeaning | src/methods/report.py:151-160 | The `airline_name` column is the last header cell whose stripped text is `airline_name`. It is missing iff there is no such cell. |
| Highlights.LastIndex | src/methods/report.py:153-156 | Finds the last position of a key. The key is missing iff no position has it, and no later position has it. |
| Highlights.Highlight | src/methods/report.py:133-172 | The highlight fails iff the sheet has no `airline_name` header. Otherwise it keeps the sheet's shape, header row and every value. |
| Highlights.HighlightFills | src/methods/report.py:164-169 | A cell's fill changes iff it is below the header, in the `airline_name` column, and a palette name. The new fill is a valid ARGB colour. |
| Highlights.HighlightIdempotent | src/methods/report.py:164-169 | Highlighting a highlighted sheet changes nothing. |
| Highlights.Export | src/methods/report.py:228-229 | The exported sheet is a header row of the column names followed by one row per result row, with no fills. |
| Highlights.ExportHighlights | src/methods/report.py:227-231 | An exported sheet with an `airline_name` column highlights without error, on that column. |
| Highlights.TopAirportsHighlight | src/methods/report.py:228-231 | The top-ten workbook has its `airline_name` header at column 5, so highlighting it never raises. |
| Highlights.UniqueAirportsHighlight | src/methods/report.py:281-284 | The unique-airports workbook has its `airline_name` header at column 1, so highlighting it never raises. |
| Usage.AirlineOf | src/methods/report.py:217 | The `LEFT JOIN airlines` gives the airline row exactly when its id is known. |
| Usage.TopUsage | src/methods/report.py:178-223 | Every reported pair is a top airport and an airline some route names, with that airport's row and the joined airline. Its record count is between 1 and twice the number of routes. |
| Usage.TopUsageRecords | src/methods/report.py:185-204 | A pair's record count is the `UNION ALL` count: the airline's routes leaving the airport plus its routes reaching it. |
| Usage.TopUsageKeys | src/methods/report.py:185-204 | A pair is reported iff the airport is a top airport and some route of that airline leaves or reaches it. |
| Usage.UsageCountAppend | src/methods/report.py:185-195 | One more route adds one record per end at the airport (`UNION ALL`). A round trip at the airport adds two, and a NULL airline adds none. |
| Usage.UsageCountBound | src/methods/report.py:196-204 | A pair's record count is at most twice the number of routes of its airline. |
| Usage.UniqueAirports | src/methods/report.py:239-276 | There is one row per airline id that some route names, with the joined airline. |
| Usage.UniqueAirportsCount | src/methods/report.py:240-264 | An airline's count is the number of distinct ids in the `UNION` of its routes' source and destination airports. |
| Usage.TouchedMeaning | src/methods/report.py:240-257 | An airport is counted for an airline iff one of the airline's routes leaves or reaches it. |
| Usage.RepeatedRouteAddsNothing | src/methods/report.py:249 | `UNION` removes duplicates, so repeating a route adds no airport. |
| Usage.TouchedBound | src/methods/report.py:259-265 | An airline's distinct airports are at most twice its routes. |
| Usage.TopUsageCounted | src/methods/report.py:259-265 | An airline listed for a top airport has that airport among its distinct airports, so its count is at least 1. |

## Left out

- File reading and CSV parsing are not modelled. A record is the list of fields `csv.reader` returns, and the model starts from it.
- Parsing floats is a parameter (`floatOf`) rather than Python's `float()` grammar, which the model does not restate.
- Text.ParseInt: does not model the limit of 4300 digits that `int()` enforces since Python 3.11 (`sys.get_int_max_str_digits()`). For longer digit text the model returns an integer where Python raises `ValueError`. `Fields.ToIntOrNone` then gives an integer instead of a load error, and `Fields.NullifyInt` an integer instead of NULL, which the store then rejects as out of range.
- `str.upper` is modelled on ASCII letters only. `int()` accepts ASCII digits only, not other Unicode decimal digits. Its `_` separators are modelled.
- `ORDER BY`, `LIMIT 10` and the frequency report's `LIMIT %s` are not modelled. The reports are stated as unordered maps, and the top-ten set is a parameter because ties at the cut are broken in no stated order.
- The BIGSERIAL `route_id` of `airline_routes` is not modelled. Stored routes are identified by their position.
- The BIGSERIAL `aircraft_id` of `aircraft` (src/methods/aircraft.py:54) is not modelled. The aircraft table is a map keyed by its unique ICAO code, the conflict target of the upsert.
- Printed messages, the commits and the connections are not modelled. The exception handlers are modelled only as the `Err` results that abort a load or store.
- Outside this model: `main.py`, `database.py`, `plot.py`, the workbook loading and saving, and the `print` of each report.
- AsiaReport.Report: takes the join condition as a parameter. The `aircraft_id`, `iata_code` and `icao_code` ON clauses compare route columns that the routes table as created never has, so only the `equipment` clause and `ON 1=0` are spelled out.
- Asia.Frequencies: groups by airline id and airline code. The third key, `a.name`, is determined by the airline id through the join, so it adds no groups.
- Airports.Recount: counts are unbounded integers, whereas the `INTEGER` count columns would overflow above 2^31 - 1 routes.
- Aircraft.StoreAircraftOutOfRange: promises `IntegerOutOfRange` only for rows with distinct ICAO codes, which the deduplicated rows the loader sends always have. For other rows, an earlier page that repeats a code fails the batch first with `KeyRepeatedInStatement`.
- Fields.Nullify: takes a string. The Python helpers also accept `None` and return `None`, which never happens on CSV fields.

## Notes on the source

- The aircraft loader's docstring (src/methods/aircraft.py:41-50) describes a 7-field layout that the code does not read. The model follows the code: for a 7-field record, seats come from field 5 and the cargo column is NULL (lines 122-126).
- When there is no link column, `create_asia_report_table` warns that the `pax_*` columns "will be 0" (src/methods/report.py:110). As the code computes them, `pax_total_to_asia` is 0 but the other three are NULL for a group with no route in that category. `AsiaReport.ReportWithoutJoin` states what the code does.

## Findings

| source | as written | input that shows it | evidently intended | confidence | as-written member | corrected member |
|---|---|---|---|---|---|---|
| src/methods/airline_routes.py:73-83 | The unique constraint `airline_routes_uk` covers nullable columns and uses the default NULLS DISTINCT, so `ON CONFLICT DO NOTHING` never fires for a row with a NULL in its key. | Load the same file twice with the route `AA,\N,JFK,3797,LAX,3484,,0,321`. The table then holds that route twice. | Reloading a routes file adds nothing (`NULLS NOT DISTINCT`) | not executed | Routes.ReloadDuplicatesNullKey | Routes.InsertIdempotentNullsNotDistinct |
| src/methods/report.py:54-71 | The route counts are `COUNT(*)` over the rows of the aircraft `LEFT JOIN`, so a route whose equipment matches k aircraft rows is counted k times. Its seats are summed k times too. | One route FRA→NRT (source flagged not in Asia, destination in Asia) with equipment `738`, and two aircraft rows with IATA code `738`. `flghts_in_asia` is then 2 for one route. | The flight counts count routes: 1 here | not executed | AsiaReport.ExampleAircraftStored | src/methods/aircraft.py:128-130 | The example's two aircraft rows have different ICAO codes, so the loader's de-duplication keeps both and they can stand in the aircraft table together. |
| AsiaReport.ReportCountsJoinedRows | AsiaReport.ReportByRouteAgrees |

=== FILE: aircraft.dfy ===
/** `Aircraft.load_aircraft_to_db`: aircraft records of six or seven fields,
    keyed by ICAO code, deduplicated in a dictionary (the last record for a
    code wins) and upserted into `aircraft` on the unique ICAO index. */
module Aircraft {

  import opened Base
  import opened Fields
  import opened Loader
  import opened Upsert

  /** One aircraft row; `icao` is never null (records without one are
      dropped), the other columns may be. */
  datatype AircraftRow = AircraftRow(
    name: Option<string>,
    iata: Option<string>,
    icao: string,
    seats: Option<int>,
    cargo: Option<real>,
    source: Option<string>)

  /** The stored table, keyed by the unique ICAO column. */
  type AircraftTable = map<string, AircraftRow>

  const AircraftPageSize: nat := 10000

  /** The loop body.  Six fields: name, iata, icao, seats, cargo, source.
      Seven fields: seats is the sixth field, source the seventh, and cargo
      is null.  The numeric conversions are the lenient ones: text that does
      not parse becomes null instead of raising. */
  function ConvertAircraft(floatOf: FloatParser, rec: Record): Step<AircraftRow> {
    if |rec| != 6 && |rec| != 7 then WrongArity
    else
      var icao := Nullify(rec[2]);
      if icao.None? then Skip
      else if |rec| == 6 then
        Keep(AircraftRow(Nullify(rec[0]), Nullify(rec[1]), icao.value, NullifyInt(rec[3]), NullifyFloat(floatOf, rec[4]), Nullify(rec[5])))
      else
        Keep(AircraftRow(Nullify(rec[0]), Nullify(rec[1]), icao.value, NullifyInt(rec[5]), None, Nullify(rec[6])))
  }

  function AircraftStep(floatOf: FloatParser): Record -> Step<AircraftRow> {
    rec => ConvertAircraft(floatOf, rec)
  }

  /** What happens to one record: only a field count other than six or
      seven raises; a null ICAO code drops the record; otherwise it is kept
      with its ICAO code as key. */
  lemma ConvertAircraftMeaning(floatOf: FloatParser, rec: Record)
    ensures ConvertAircraft(floatOf, rec).WrongArity? <==> |rec| != 6 && |rec| != 7
    ensures !ConvertAircraft(floatOf, rec).Fail?
    ensures ConvertAircraft(floatOf, rec).Skip? <==> (|rec| == 6 || |rec| == 7) && Nullify(rec[2]).None?
    ensures ConvertAircraft(floatOf, rec).Keep? ==>
      var a := ConvertAircraft(floatOf, rec).value;
      && Nullify(rec[2]) == Some(a.icao)
      && a.name == Nullify(rec[0]) && a.iata == Nullify(rec[1])
      && (|rec| == 6 ==> a.seats == NullifyInt(rec[3]) && a.cargo == NullifyFloat(floatOf, rec[4]) && a.source == Nullify(rec[5]))
      && (|rec| == 7 ==> a.seats == NullifyInt(rec[5]) && a.cargo.None? && a.source == Nullify(rec[6]))
  {
  }

  function IcaoKey(a: AircraftRow): string {
    a.icao
  }

  /** The position of the row with ICAO code `k` in `d`, or -1. */
  function FindIcao(d: seq<AircraftRow>, k: string): (i: int)
    ensures -1 <= i < |d|
    ensures i >= 0 ==> d[i].icao == k
    ensures i == -1 <==> forall j :: 0 <= j < |d| ==> d[j].icao != k
    decreases |d|
  {
    if |d| == 0 then -1
    else if d[|d| - 1].icao == k then |d| - 1
    else FindIcao(d[..|d| - 1], k)
  }

  /** `rows_by_icao[icao] = row`: a new code is appended; an existing one
      keeps its place and takes the new row. */
  function Place(d: seq<AircraftRow>, r: AircraftRow): seq<AircraftRow> {
    var i := FindIcao(d, r.icao);
    if i >= 0 then d[i := r] else d + [r]
  }

  /** `list(rows_by_icao.values())` after feeding the rows in order. */
  function Dedup(rows: seq<AircraftRow>): seq<AircraftRow>
    decreases |rows|
  {
    if |rows| == 0 then [] else Place(Dedup(rows[..|rows| - 1]), rows[|rows| - 1])
  }

  /** One dictionary assignment on rows with distinct codes: the codes stay
      distinct, the new code joins them, the row under the new code is the
      new row and every other row stays in its place. */
  lemma PlaceMeaning(d: seq<AircraftRow>, r: AircraftRow)
    requires DistinctKeys(d, IcaoKey)
    ensures DistinctKeys(Place(d, r), IcaoKey)
    ensures KeysOf(Place(d, r), IcaoKey) == KeysOf(d, IcaoKey) + {r.icao}
    ensures forall i :: 0 <= i < |Place(d, r)| ==>
      if Place(d, r)[i].icao == r.icao then Place(d, r)[i] == r else i < |d| && Place(d, r)[i] == d[i]
  {
    var i := FindIcao(d, r.icao);
    var p := Place(d, r);
    if i >= 0 {
      assert KeysOf(p, IcaoKey) == KeysOf(d, IcaoKey) by {
        forall x | x in KeysOf(d, IcaoKey) ensures x in KeysOf(p, IcaoKey) {
          var j :| 0 <= j < |d| && d[j].icao == x;
          assert p[j] in p && IcaoKey(p[j]) == x;
        }
        forall x | x in KeysOf(p, IcaoKey) ensures x in KeysOf(d, IcaoKey) {
          var j :| 0 <= j < |p| && p[j].icao == x;
          assert d[j] in d && IcaoKey(d[j]) == x;
        }
      }
      assert d[i] in d && IcaoKey(d[i]) == r.icao;
    } else {
      KeysOfSnoc(d, r, IcaoKey);
    }
  }

  /** The dictionary holds one row per ICAO code of the input, no more and
      no fewer, and each is the last input row with that code. */
  lemma {:induction false} DedupMeaning(rows: seq<AircraftRow>)
    ensures DistinctKeys(Dedup(rows), IcaoKey)
    ensures KeysOf(Dedup(rows), IcaoKey) == KeysOf(rows, IcaoKey)
    ensures forall i :: 0 <= i < |Dedup(rows)| ==> LastWith(rows, IcaoKey, Dedup(rows)[i].icao) == Some(Dedup(rows)[i])
    decreases |rows|
  {
    if |rows| > 0 {
      var init, r := rows[..|rows| - 1], rows[|rows| - 1];
      assert rows == init + [r];
      DedupMeaning(init);
      var d := Dedup(init);
      PlaceMeaning(d, r);
      KeysOfSnoc(init, r, IcaoKey);
      var p := Place(d, r);
      forall i | 0 <= i < |p| ensures LastWith(rows, IcaoKey, p[i].icao) == Some(p[i]) {
        LastWithSnoc(init, r, IcaoKey, p[i].icao);
      }
    }
  }

  /** The last row with a key, after one more row. */
  lemma LastWithSnoc<K, R>(rows: seq<R>, r: R, key: R -> K, k: K)
    ensures LastWith(rows + [r], key, k) == if key(r) == k then Some(r) else LastWith(rows, key, k)
  {
    var all := rows + [r];
    var got := LastWith(all, key, k);
    if got.Some? {
      var i :| 0 <= i < |all| && all[i] == got.value && key(all[i]) == k &&
        forall j :: i < j < |all| ==> key(all[j]) != k;
      if key(r) != k {
        assert i < |rows| && all[i] == rows[i];
        var want := LastWith(rows, key, k);
        assert want.Some? by { assert key(rows[i]) == k; }
        var i' :| 0 <= i' < |rows| && rows[i'] == want.value && key(rows[i']) == k &&
          forall j :: i' < j < |rows| ==> key(rows[j]) != k;
        assert all[i'] == rows[i'];
        assert i == i';
      } else {
        assert all[|rows|] == r;
        assert i == |rows|;
      }
    } else {
      assert key(all[|rows|]) != k;
      assert forall j :: 0 <= j < |rows| ==> all[j] == rows[j];
    }
  }

  /** In a sequence with distinct keys, the last row with a key is the only
      one. */
  lemma LastWithDistinct<K, R>(rows: seq<R>, key: R -> K, i: int)
    requires DistinctKeys(rows, key) && 0 <= i < |rows|
    ensures LastWith(rows, key, key(rows[i])) == Some(rows[i])
  {
  }

  /** Deduplication keeps the last row of every code. */
  lemma LastWithDedup(rows: seq<AircraftRow>, k: string)
    ensures LastWith(Dedup(rows), IcaoKey, k) == LastWith(rows, IcaoKey, k)
  {
    var d := Dedup(rows);
    DedupMeaning(rows);
    if LastWith(d, IcaoKey, k).Some? {
      var i :| 0 <= i < |d| && d[i] == LastWith(d, IcaoKey, k).value && IcaoKey(d[i]) == k;
      LastWithDistinct(d, IcaoKey, i);
    } else {
      KeysByLast(d, IcaoKey, k);
      KeysByLast(rows, IcaoKey, k);
    }
  }

  /** The aircraft upsert overwrites every non-key column, and the ICAO key
      itself is the row's own; so the stored row is the row. */
  function NewAircraft(a: AircraftRow): AircraftRow {
    a
  }

  function UpdateAircraft(stored: AircraftRow, a: AircraftRow): AircraftRow {
    a
  }

  /** Upserting the deduplicated rows leaves the table exactly as upserting
      every record in order would: the dictionary changes nothing but the
      number of rows sent. */
  lemma DedupUpsertSame(table: AircraftTable, rows: seq<AircraftRow>)
    ensures Apply(table, Dedup(rows), IcaoKey, NewAircraft, UpdateAircraft) == Apply(table, rows, IcaoKey, NewAircraft, UpdateAircraft)
  {
    forall k ensures LastWith(Dedup(rows), IcaoKey, k) == LastWith(rows, IcaoKey, k) {
      LastWithDedup(rows, k);
    }
    ApplyDependsOnLast(table, Dedup(rows), rows, IcaoKey, NewAircraft, UpdateAircraft);
  }

  /** Everything before the database: the records loaded, then deduplicated. */
  function LoadAircraft(floatOf: FloatParser, records: seq<Record>): Result<seq<AircraftRow>, LoadError> {
    var rows :- Load(records, AircraftStep(floatOf));
    Ok(Dedup(rows))
  }

  predicate AircraftFits(a: AircraftRow) {
    FitsInteger(a.seats)
  }

  /** The coercion error of one row: `seat_capacity` is the only INTEGER
      column the loader fills. */
  function AircraftFault(a: AircraftRow): (e: Option<StoreError>)
    ensures e.None? <==> AircraftFits(a)
    ensures e.Some? ==> e.value == IntegerOutOfRange
  {
    if FitsInteger(a.seats) then None else Some(IntegerOutOfRange)
  }

  /** The database step: pages of 10000 rows sent in order, the first page
      with a seat capacity that does not fit the INTEGER column, or with an
      ICAO code named twice, rejecting the batch; otherwise every row is
      upserted in order. */
  function StoreAircraft(table: AircraftTable, rows: seq<AircraftRow>): Result<AircraftTable, StoreError> {
    Batch(table, rows, AircraftPageSize, IcaoKey, AircraftFault, NewAircraft, UpdateAircraft)
  }

  /** The loader catches and prints a database error, and the uncommitted
      transaction leaves the table as it was. */
  function AircraftAfterStore(table: AircraftTable, rows: seq<AircraftRow>): AircraftTable {
    match StoreAircraft(table, rows)
    case Ok(t) => t
    case Err(_) => table
  }

  /** After deduplication a page never repeats an ICAO code: when the seat
      capacities fit, the store succeeds and its effect is that of
      upserting every loaded record in order, the last one for a code
      winning. */
  lemma StoreDedupedAircraft(table: AircraftTable, rows: seq<AircraftRow>, k: string)
    requires forall i :: 0 <= i < |rows| ==> AircraftFits(rows[i])
    ensures StoreAircraft(table, Dedup(rows)).Ok?
    ensures StoreAircraft(table, Dedup(rows)).value == Apply(table, rows, IcaoKey, NewAircraft, UpdateAircraft)
    ensures var t := StoreAircraft(table, Dedup(rows)).value;
      && t.Keys == table.Keys + KeysOf(rows, IcaoKey)
      && (LastWith(rows, IcaoKey, k).Some? ==> t[k] == LastWith(rows, IcaoKey, k).value)
      && (LastWith(rows, IcaoKey, k).None? && k in table ==> t[k] == table[k])
  {
    DedupMeaning(rows);
    var d := Dedup(rows);
    forall i | 0 <= i < |d| ensures AircraftFits(d[i]) {
      assert d[i].icao in KeysOf(d, IcaoKey);
      var w := LastWith(rows, IcaoKey, d[i].icao);
      var j :| 0 <= j < |rows| && rows[j] == w.value && IcaoKey(rows[j]) == d[i].icao &&
        forall m :: j < m < |rows| ==> IcaoKey(rows[m]) != d[i].icao;
    }
    BatchDistinctOk(table, d, AircraftPageSize, IcaoKey, AircraftFault, NewAircraft, UpdateAircraft);
    DedupUpsertSame(table, rows);
    ApplyFrame(table, rows, IcaoKey, NewAircraft, UpdateAircraft);
    if LastWith(rows, IcaoKey, k).Some? {
      ApplyLastWins(table, rows, IcaoKey, NewAircraft, UpdateAircraft, k);
    }
  }

  /** A seat capacity outside INTEGER aborts the load and the table keeps
      every row it had.  The error is the out-of-range one unless an earlier
      page already repeated an ICAO code, which rows with distinct codes, as
      the deduplicated rows the loader sends, never do. */
  lemma StoreAircraftOutOfRange(table: AircraftTable, rows: seq<AircraftRow>, i: int)
    requires 0 <= i < |rows| && !AircraftFits(rows[i])
    ensures StoreAircraft(table, rows).Err?
    ensures DistinctKeys(rows, IcaoKey) ==> StoreAircraft(table, rows) == Err(IntegerOutOfRange)
    ensures AircraftAfterStore(table, rows) == table
  {
  }
}

=== FILE: airlines.dfy ===
/** `Airlines.load_airlines_to_db` (8-field records upserted into `airlines`
    on `airline_id`) and `OperationalAirlines.create_table`, which rebuilds
    `operational_airlines` from the airlines marked active. */
module Airlines {

  import opened Base
  import opened Text
  import opened Fields
  import opened Loader
  import opened Upsert

  datatype Airline = Airline(
    id: int,
    name: Option<string>,
    alias: Option<string>,
    iata: Option<string>,
    icao: Option<string>,
    callsign: Option<string>,
    country: Option<string>,
    active: Option<string>)

  type AirlineTable = map<int, Airline>

  const AirlineFields: nat := 8
  const AirlinePageSize: nat := 5000

  /** The loop body: field-count check; a null id drops the record; an id
      that `int()` rejects raises; the other seven columns are nullified. */
  function ConvertAirline(rec: Record): Step<Airline> {
    if |rec| != AirlineFields then WrongArity
    else match ToIntOrNone(rec[0])
      case Err(e) => Fail(e)
      case Ok(None) => Skip
      case Ok(Some(id)) =>
        Keep(Airline(id, Nullify(rec[1]), Nullify(rec[2]), Nullify(rec[3]), Nullify(rec[4]),
                     Nullify(rec[5]), Nullify(rec[6]), Nullify(rec[7])))
  }

  function LoadAirlines(records: seq<Record>): Result<seq<Airline>, LoadError> {
    Load(records, ConvertAirline)
  }

  /** What happens to one record: a wrong field count or a malformed id
      raises, a null id drops the record, and any other record is kept with
      its parsed id and its seven text columns. */
  lemma ConvertAirlineMeaning(rec: Record)
    ensures ConvertAirline(rec).WrongArity? <==> |rec| != AirlineFields
    ensures ConvertAirline(rec).Skip? <==> |rec| == AirlineFields && Nullify(rec[0]).None?
    ensures ConvertAirline(rec).Fail? <==> |rec| == AirlineFields && Nullify(rec[0]).Some? && !IntText(Strip(rec[0]))
    ensures ConvertAirline(rec).Fail? ==> ConvertAirline(rec).error == BadInteger(Strip(rec[0]))
    ensures ConvertAirline(rec).Keep? ==>
      var a := ConvertAirline(rec).value;
      && ToIntOrNone(rec[0]) == Ok(Some(a.id))
      && a.name == Nullify(rec[1]) && a.alias == Nullify(rec[2]) && a.iata == Nullify(rec[3])
      && a.icao == Nullify(rec[4]) && a.callsign == Nullify(rec[5]) && a.country == Nullify(rec[6])
      && a.active == Nullify(rec[7])
  {
    if |rec| == AirlineFields {
      var t := ToIntOrNone(rec[0]);
      if t.Ok? && t.value.Some? {
        assert ConvertAirline(rec).Keep? && ConvertAirline(rec).value.id == t.value.value;
      }
    }
  }

  /** A load that succeeds yields exactly the airlines of the non-empty
      records whose id is not null. */
  lemma LoadAirlinesRows(records: seq<Record>, a: Airline)
    requires LoadAirlines(records).Ok?
    ensures a in LoadAirlines(records).value <==>
      exists j :: 0 <= j < |records| && !Blank(records[j]) && ConvertAirline(records[j]) == Keep(a)
  {
    LoadFromOk(records, ConvertAirline, 0);
    assert records[0..] == records;
    KeptMembers(records, ConvertAirline, a);
  }

  /** A record with a malformed id aborts the load (unless an earlier record
      already did): the load never silently drops it. */
  lemma LoadAirlinesBadId(records: seq<Record>, j: int)
    requires 0 <= j < |records| && |records[j]| == AirlineFields
    requires Nullify(records[j][0]).Some? && !IntText(Strip(records[j][0]))
    ensures LoadAirlines(records).Err?
  {
    ConvertAirlineMeaning(records[j]);
    assert !Blank(records[j]) && !Accepted(ConvertAirline(records[j]));
    assert !AcceptedFrom(records, ConvertAirline, 0);
    LoadFromOk(records, ConvertAirline, 0);
  }

  // ---------------------------------------------------------------------
  // INSERT … ON CONFLICT (airline_id) DO UPDATE SET <the 7 other columns>

  function AirlineKey(a: Airline): int {
    a.id
  }

  /** Every non-key column comes from the new row, and the key is the row's
      own: the stored row is the row. */
  function NewAirline(a: Airline): Airline {
    a
  }

  function UpdateAirline(stored: Airline, a: Airline): Airline {
    a
  }

  /** The row fits its columns: `airline_id INTEGER`, `active CHAR(1)`.
      Nullified text has no trailing blanks, so a longer `active` value is
      always an error rather than a silent truncation. */
  predicate AirlineFits(a: Airline) {
    FitsInteger(Some(a.id)) && (a.active.None? || |a.active.value| <= 1)
  }

  /** The coercion error of one row, columns taken in the order of the
      INSERT: `airline_id` first, `active` last. */
  function AirlineFault(a: Airline): (e: Option<StoreError>)
    ensures e.None? <==> AirlineFits(a)
    ensures e == Some(IntegerOutOfRange) <==> !FitsInteger(Some(a.id))
    ensures e == Some(ValueTooLong) <==> FitsInteger(Some(a.id)) && a.active.Some? && |a.active.value| > 1
  {
    if !FitsInteger(Some(a.id)) then Some(IntegerOutOfRange)
    else if a.active.Some? && |a.active.value| > 1 then Some(ValueTooLong)
    else None
  }

  /** The database step: pages of 5000 rows sent in order, the first page
      holding an id outside INTEGER, an `active` value longer than one
      character or an id named twice rejecting the batch; otherwise every
      row is upserted in order. */
  function StoreAirlines(table: AirlineTable, rows: seq<Airline>): (r: Result<AirlineTable, StoreError>)
    ensures r.Err? && r.error == ValueTooLong ==>
      exists i :: 0 <= i < |rows| && rows[i].active.Some? && |rows[i].active.value| > 1
    ensures (exists i :: 0 <= i < |rows| && !AirlineFits(rows[i])) ==> r.Err?
    ensures ((forall i :: 0 <= i < |rows| ==> FitsInteger(Some(rows[i].id))) &&
             (exists i :: 0 <= i < |rows| && rows[i].active.Some? && |rows[i].active.value| > 1) &&
             !RepeatsInPage(rows, AirlinePageSize, AirlineKey)) ==> r == Err(ValueTooLong)
  {
    Batch(table, rows, AirlinePageSize, AirlineKey, AirlineFault, NewAirline, UpdateAirline)
  }

  /** After a successful store, an airline named by some row is that id's
      last row; every other airline is unchanged. */
  lemma StoreAirlinesLastWins(table: AirlineTable, rows: seq<Airline>, id: int)
    requires StoreAirlines(table, rows).Ok?
    ensures var t := StoreAirlines(table, rows).value;
      && t.Keys == table.Keys + KeysOf(rows, AirlineKey)
      && (LastWith(rows, AirlineKey, id).Some? ==> t[id] == LastWith(rows, AirlineKey, id).value)
      && (LastWith(rows, AirlineKey, id).None? && id in table ==> t[id] == table[id])
  {
    ApplyFrame(table, rows, AirlineKey, NewAirline, UpdateAirline);
    if LastWith(rows, AirlineKey, id).Some? {
      ApplyLastWins(table, rows, AirlineKey, NewAirline, UpdateAirline, id);
    }
  }

  /** Rows that fit and have distinct ids are always stored. */
  lemma StoreAirlinesDistinct(table: AirlineTable, rows: seq<Airline>)
    requires forall i :: 0 <= i < |rows| ==> AirlineFits(rows[i])
    requires DistinctKeys(rows, AirlineKey)
    ensures StoreAirlines(table, rows) == Ok(Apply(table, rows, AirlineKey, NewAirline, UpdateAirline))
  {
    BatchDistinctOk(table, rows, AirlinePageSize, AirlineKey, AirlineFault, NewAirline, UpdateAirline);
  }

  /** Among rows that fit, the batch is rejected exactly when two rows with
      the same id fall in the same page of 5000. */
  lemma StoreAirlinesRepeatedId(table: AirlineTable, rows: seq<Airline>)
    requires forall i :: 0 <= i < |rows| ==> AirlineFits(rows[i])
    ensures StoreAirlines(table, rows).Err? <==>
      exists a, b :: 0 <= a < b < |rows| && PageOf(a, AirlinePageSize) == PageOf(b, AirlinePageSize) && rows[a].id == rows[b].id
    ensures StoreAirlines(table, rows).Err? ==> StoreAirlines(table, rows).error == KeyRepeatedInStatement
  {
  }

  // ---------------------------------------------------------------------
  // OperationalAirlines.create_table

  /** `DROP TABLE …; CREATE TABLE operational_airlines AS SELECT * FROM
      airlines WHERE active = 'Y'`: rebuilt from scratch, so whatever the
      previous table held plays no part. */
  function Operational(airlines: AirlineTable): (ops: AirlineTable)
    ensures forall id :: id in ops <==> id in airlines && airlines[id].active == Some("Y")
    ensures forall id :: id in ops ==> ops[id] == airlines[id]
  {
    map id | id in airlines && airlines[id].active == Some("Y") :: airlines[id]
  }

  /** The operational airlines are a subset of the airlines, and filtering
      again changes nothing. */
  lemma OperationalIdempotent(airlines: AirlineTable)
    ensures Operational(airlines).Keys <= airlines.Keys
    ensures Operational(Operational(airlines)) == Operational(airlines)
  {
  }

  /** An airline with a null or any other `active` value is excluded
      (`NULL = 'Y'` is not TRUE), and upserting a row whose `active` is not
      `Y` removes that airline from the next rebuild. */
  lemma OperationalAfterUpsert(table: AirlineTable, rows: seq<Airline>, id: int)
    requires StoreAirlines(table, rows).Ok?
    requires LastWith(rows, AirlineKey, id).Some?
    ensures id in Operational(StoreAirlines(table, rows).value) <==> LastWith(rows, AirlineKey, id).value.active == Some("Y")
  {
    StoreAirlinesLastWins(table, rows, id);
  }
}

=== FILE: airports.dfy ===
/** `Airports`: the loader of OpenFlights `airports.dat` into `airports`
    (upsert keyed on `airport_id`) and `calculate_flights_per_airport`, which
    recounts each airport's inbound, outbound and total routes. */
module Airports {

  import opened Base
  import opened Text
  import opened Fields
  import opened Loader
  import opened Upsert
  import opened Routes
  import opened RouteQuery

  /** One airport row, the 14 columns in file order. */
  datatype Airport = Airport(
    id: int,
    name: Option<string>,
    city: Option<string>,
    country: Option<string>,
    iata: Option<string>,
    icao: Option<string>,
    latitude: Option<real>,
    longitude: Option<real>,
    altitude: Option<int>,
    timezone: Option<real>,
    dst: Option<string>,
    tzDatabase: Option<string>,
    kind: Option<string>,
    source: Option<string>)

  /** A stored airport: its row plus the three count columns `add_columns`
      creates with `DEFAULT 0`. */
  datatype AirportEntry = AirportEntry(airport: Airport, inbound: int, outbound: int, total: int)

  type AirportTable = map<int, AirportEntry>

  const AirportFields: nat := 14
  const AirportPageSize: nat := 10000

  /** The 13 columns after the id, converted left to right. */
  function AirportOf(floatOf: FloatParser, id: int, rec: Record): Result<Airport, LoadError>
    requires |rec| == AirportFields
  {
    var latitude :- ToFloatOrNone(floatOf, rec[6]);
    var longitude :- ToFloatOrNone(floatOf, rec[7]);
    var altitude :- ToIntOrNone(rec[8]);
    var timezone :- ToFloatOrNone(floatOf, rec[9]);
    Ok(Airport(id, Nullify(rec[1]), Nullify(rec[2]), Nullify(rec[3]), Nullify(rec[4]), Nullify(rec[5]),
               latitude, longitude, altitude, timezone,
               Nullify(rec[10]), Nullify(rec[11]), Nullify(rec[12]), Nullify(rec[13])))
  }

  /** The loop body: field-count check; a null airport id drops the record;
      a bad id, float or altitude raises. */
  function ConvertAirport(floatOf: FloatParser, rec: Record): Step<Airport> {
    if |rec| != AirportFields then WrongArity
    else match ToIntOrNone(rec[0])
      case Err(e) => Fail(e)
      case Ok(None) => Skip
      case Ok(Some(id)) =>
        match AirportOf(floatOf, id, rec)
        case Ok(a) => Keep(a)
        case Err(e) => Fail(e)
  }

  function AirportStep(floatOf: FloatParser): Record -> Step<Airport> {
    rec => ConvertAirport(floatOf, rec)
  }

  function LoadAirports(floatOf: FloatParser, records: seq<Record>): Result<seq<Airport>, LoadError> {
    Load(records, AirportStep(floatOf))
  }

  /** The id column is an integer and not null, and the four numeric
      columns after it are null or parse. */
  predicate AirportFieldsOk(floatOf: FloatParser, rec: Record)
    requires |rec| == AirportFields
  {
    && ToIntOrNone(rec[0]).Ok? && ToIntOrNone(rec[0]).value.Some?
    && ToFloatOrNone(floatOf, rec[6]).Ok? && ToFloatOrNone(floatOf, rec[7]).Ok?
    && ToIntOrNone(rec[8]).Ok? && ToFloatOrNone(floatOf, rec[9]).Ok?
  }

  /** The airport a well-formed record denotes, column by column. */
  predicate Denotes(floatOf: FloatParser, rec: Record, a: Airport)
    requires |rec| == AirportFields && AirportFieldsOk(floatOf, rec)
  {
    && a.id == ToIntOrNone(rec[0]).value.value
    && a.name == Nullify(rec[1]) && a.city == Nullify(rec[2]) && a.country == Nullify(rec[3])
    && a.iata == Nullify(rec[4]) && a.icao == Nullify(rec[5])
    && a.latitude == ToFloatOrNone(floatOf, rec[6]).value
    && a.longitude == ToFloatOrNone(floatOf, rec[7]).value
    && a.altitude == ToIntOrNone(rec[8]).value
    && a.timezone == ToFloatOrNone(floatOf, rec[9]).value
    && a.dst == Nullify(rec[10]) && a.tzDatabase == Nullify(rec[11])
    && a.kind == Nullify(rec[12]) && a.source == Nullify(rec[13])
  }

  /** What happens to one record: a wrong field count is an arity error; a
      null id (and only that) drops the record; a record is kept exactly when
      its numeric columns parse, and then as the airport it denotes. */
  lemma ConvertAirportMeaning(floatOf: FloatParser, rec: Record)
    ensures ConvertAirport(floatOf, rec).WrongArity? <==> |rec| != AirportFields
    ensures ConvertAirport(floatOf, rec).Skip? <==> |rec| == AirportFields && ToIntOrNone(rec[0]) == Ok(None)
    ensures ConvertAirport(floatOf, rec).Keep? <==> |rec| == AirportFields && AirportFieldsOk(floatOf, rec)
    ensures ConvertAirport(floatOf, rec).Keep? ==> Denotes(floatOf, rec, ConvertAirport(floatOf, rec).value)
  {
    if |rec| == AirportFields {
      var idOf := ToIntOrNone(rec[0]);
      if idOf.Ok? && idOf.value.Some? {
        AirportOfMeaning(floatOf, idOf.value.value, rec);
      }
    }
  }

  /** The column conversions succeed exactly when the four numeric columns
      parse, and then give those values. */
  lemma AirportOfMeaning(floatOf: FloatParser, id: int, rec: Record)
    requires |rec| == AirportFields
    ensures AirportOf(floatOf, id, rec).Ok? <==>
      && ToFloatOrNone(floatOf, rec[6]).Ok? && ToFloatOrNone(floatOf, rec[7]).Ok?
      && ToIntOrNone(rec[8]).Ok? && ToFloatOrNone(floatOf, rec[9]).Ok?
    ensures AirportOf(floatOf, id, rec).Err? ==> AirportOf(floatOf, id, rec).error.BadInteger? || AirportOf(floatOf, id, rec).error.BadFloat?
    ensures AirportOf(floatOf, id, rec).Ok? ==>
      var a := AirportOf(floatOf, id, rec).value;
      && a.id == id
      && a.latitude == ToFloatOrNone(floatOf, rec[6]).value
      && a.longitude == ToFloatOrNone(floatOf, rec[7]).value
      && a.altitude == ToIntOrNone(rec[8]).value
      && a.timezone == ToFloatOrNone(floatOf, rec[9]).value
      && a.name == Nullify(rec[1]) && a.city == Nullify(rec[2]) && a.country == Nullify(rec[3])
      && a.iata == Nullify(rec[4]) && a.icao == Nullify(rec[5])
      && a.dst == Nullify(rec[10]) && a.tzDatabase == Nullify(rec[11])
      && a.kind == Nullify(rec[12]) && a.source == Nullify(rec[13])
  {
  }

  /** A load that succeeds yields exactly the airports of the non-empty
      records whose id is not null; records with a null id leave no trace. */
  lemma LoadAirportsRows(floatOf: FloatParser, records: seq<Record>, a: Airport)
    requires LoadAirports(floatOf, records).Ok?
    ensures a in LoadAirports(floatOf, records).value <==>
      exists j :: 0 <= j < |records| && !Blank(records[j]) && ConvertAirport(floatOf, records[j]) == Keep(a)
  {
    LoadFromOk(records, AirportStep(floatOf), 0);
    assert records[0..] == records;
    KeptMembers(records, AirportStep(floatOf), a);
  }

  /** A load fails on a record with the wrong number of fields; the error
      carries that record's 1-based number and field count. */
  lemma LoadAirportsFieldCount(floatOf: FloatParser, records: seq<Record>)
    ensures LoadAirports(floatOf, records).Err? && LoadAirports(floatOf, records).error.FieldCount? ==>
      var line := LoadAirports(floatOf, records).error.line;
      && 1 <= line <= |records|
      && LoadAirports(floatOf, records).error.got == |records[line - 1]|
      && |records[line - 1]| != 0 && |records[line - 1]| != AirportFields
  {
    AirportStepErrors(floatOf);
    LoadFieldCountArity(records, AirportStep(floatOf), AirportFields, LoadAirports(floatOf, records));
  }

  /** The conversion's only field-count failure is a record of the wrong
      length. */
  lemma AirportStepErrors(floatOf: FloatParser)
    ensures forall rec :: AirportStep(floatOf)(rec).Fail? ==> !AirportStep(floatOf)(rec).error.FieldCount?
    ensures forall rec :: AirportStep(floatOf)(rec).WrongArity? ==> |rec| != AirportFields
  {
    forall rec | AirportStep(floatOf)(rec).Fail? ensures !AirportStep(floatOf)(rec).error.FieldCount? {
      AirportError(floatOf, rec);
    }
  }

  /** The conversions raise only `int()`'s and `float()`'s errors. */
  lemma AirportError(floatOf: FloatParser, rec: Record)
    ensures ConvertAirport(floatOf, rec).Fail? ==>
      ConvertAirport(floatOf, rec).error.BadInteger? || ConvertAirport(floatOf, rec).error.BadFloat?
  {
    if |rec| == AirportFields && ToIntOrNone(rec[0]).Ok? && ToIntOrNone(rec[0]).value.Some? {
      AirportOfMeaning(floatOf, ToIntOrNone(rec[0]).value.value, rec);
    }
  }

  // ---------------------------------------------------------------------
  // INSERT … ON CONFLICT (airport_id) DO UPDATE SET <the 13 other columns>

  function AirportKey(a: Airport): int {
    a.id
  }

  /** A new airport gets the column defaults for its counts. */
  function NewAirport(a: Airport): AirportEntry {
    AirportEntry(a, 0, 0, 0)
  }

  /** `DO UPDATE SET name = EXCLUDED.name, …, source = EXCLUDED.source`: all
      thirteen non-key columns come from the new row; the counts stay. */
  function UpdateAirport(e: AirportEntry, a: Airport): AirportEntry {
    e.(airport := a)
  }

  predicate AirportFits(a: Airport) {
    FitsInteger(Some(a.id)) && FitsInteger(a.altitude)
  }

  /** The coercion error of one row: both `airport_id` and `altitude_ft`
      are INTEGER columns. */
  function AirportFault(a: Airport): (e: Option<StoreError>)
    ensures e.None? <==> AirportFits(a)
    ensures e.Some? ==> e.value == IntegerOutOfRange
  {
    if FitsInteger(Some(a.id)) && FitsInteger(a.altitude) then None else Some(IntegerOutOfRange)
  }

  /** The database step of the loader: pages of 10000 rows sent in order,
      the first page with an id or altitude that does not fit INTEGER, or
      with an id named twice, rejecting the batch; otherwise every row is
      upserted in order. */
  function StoreAirports(table: AirportTable, rows: seq<Airport>): Result<AirportTable, StoreError> {
    Batch(table, rows, AirportPageSize, AirportKey, AirportFault, NewAirport, UpdateAirport)
  }

  /** After a successful store, an airport named by some row holds the last
      such row's thirteen columns, keeps its counts if it existed and starts
      at zero otherwise; every other airport is unchanged. */
  lemma StoreAirportsLastWins(table: AirportTable, rows: seq<Airport>, id: int)
    requires StoreAirports(table, rows).Ok?
    ensures var t := StoreAirports(table, rows).value;
      var last := LastWith(rows, AirportKey, id);
      && t.Keys == table.Keys + KeysOf(rows, AirportKey)
      && (last.Some? ==>
            && t[id].airport == last.value
            && (if id in table then t[id].inbound == table[id].inbound && t[id].outbound == table[id].outbound
                                    && t[id].total == table[id].total
                else t[id].inbound == 0 && t[id].outbound == 0 && t[id].total == 0))
      && (last.None? && id in table ==> t[id] == table[id])
  {
    ApplyFrame(table, rows, AirportKey, NewAirport, UpdateAirport);
    if LastWith(rows, AirportKey, id).Some? {
      ApplyLastWins(table, rows, AirportKey, NewAirport, UpdateAirport, id);
    }
  }

  /** Rows with distinct ids are never rejected for a repeated key. */
  lemma StoreAirportsDistinct(table: AirportTable, rows: seq<Airport>)
    requires forall i :: 0 <= i < |rows| ==> AirportFits(rows[i])
    requires DistinctKeys(rows, AirportKey)
    ensures StoreAirports(table, rows).Ok?
  {
    BatchDistinctOk(table, rows, AirportPageSize, AirportKey, AirportFault, NewAirport, UpdateAirport);
  }

  /** Among rows that fit, the batch is rejected exactly when two rows with
      the same id fall in the same page of 10000; the same id in two
      different pages is stored, the later row winning. */
  lemma StoreAirportsRepeatedId(table: AirportTable, rows: seq<Airport>)
    requires forall i :: 0 <= i < |rows| ==> AirportFits(rows[i])
    ensures StoreAirports(table, rows).Err? <==>
      exists a, b :: 0 <= a < b < |rows| && PageOf(a, AirportPageSize) == PageOf(b, AirportPageSize) && rows[a].id == rows[b].id
    ensures StoreAirports(table, rows).Err? ==> StoreAirports(table, rows).error == KeyRepeatedInStatement
  {
  }

  // ---------------------------------------------------------------------
  // calculate_flights_per_airport

  /** Reset every count to 0, set `outbound_count` and `inbound_count` from
      the routes grouped by source and destination id, then
      `total_in_out = inbound_count + outbound_count`. */
  function Recount(table: AirportTable, routes: seq<StoredRoute>): (t: AirportTable)
    ensures t.Keys == table.Keys
    ensures forall a :: a in t ==> t[a].airport == table[a].airport
    ensures forall a :: a in t ==> t[a].total == t[a].inbound + t[a].outbound
  {
    map a | a in table ::
      var inbound := Count(routes, DestIs(a));
      var outbound := Count(routes, SourceIs(a));
      AirportEntry(table[a].airport, inbound, outbound, inbound + outbound)
  }

  /** The counts mean what their names say: the number of routes leaving and
      reaching the airport, routes with a null id counting for none. */
  lemma RecountMeaning(table: AirportTable, routes: seq<StoredRoute>, a: int)
    requires a in table
    ensures Recount(table, routes)[a].outbound == |set i | 0 <= i < |routes| && routes[i].route.sourceId == Some(a)|
    ensures Recount(table, routes)[a].inbound == |set i | 0 <= i < |routes| && routes[i].route.destId == Some(a)|
  {
    assert Selected(routes, SourceIs(a)) == set i | 0 <= i < |routes| && routes[i].route.sourceId == Some(a);
    assert Selected(routes, DestIs(a)) == set i | 0 <= i < |routes| && routes[i].route.destId == Some(a);
  }

  /** An airport no route touches ends with all three counts 0. */
  lemma RecountUntouched(table: AirportTable, routes: seq<StoredRoute>, a: int)
    requires a in table
    requires forall i :: 0 <= i < |routes| ==> routes[i].route.sourceId != Some(a) && routes[i].route.destId != Some(a)
    ensures Recount(table, routes)[a].inbound == 0
    ensures Recount(table, routes)[a].outbound == 0
    ensures Recount(table, routes)[a].total == 0
  {
    CountNone(routes, SourceIs(a));
    CountNone(routes, DestIs(a));
  }

  /** Because every count is recomputed from the routes, recounting twice is
      recounting once, whatever the counts were before. */
  lemma RecountIdempotent(table: AirportTable, routes: seq<StoredRoute>)
    ensures Recount(Recount(table, routes), routes) == Recount(table, routes)
  {
  }

  /** One more route adds one to its source's outbound and its destination's
      inbound count (both, for a route that returns to its own airport). */
  lemma RecountAddRoute(table: AirportTable, routes: seq<StoredRoute>, r: StoredRoute, a: int)
    requires a in table
    ensures Recount(table, routes + [r])[a].outbound ==
      Recount(table, routes)[a].outbound + (if r.route.sourceId == Some(a) then 1 else 0)
    ensures Recount(table, routes + [r])[a].inbound ==
      Recount(table, routes)[a].inbound + (if r.route.destId == Some(a) then 1 else 0)
  {
    RecountAt(table, routes, a);
    RecountAt(table, routes + [r], a);
    CountAppend(routes, [r], SourceIs(a));
    CountAppend(routes, [r], DestIs(a));
    CountOne(r, SourceIs(a));
    CountOne(r, DestIs(a));
  }

  /** The counts recomputed for one airport. */
  lemma RecountAt(table: AirportTable, routes: seq<StoredRoute>, a: int)
    requires a in table
    ensures Recount(table, routes)[a].outbound == Count(routes, SourceIs(a))
    ensures Recount(table, routes)[a].inbound == Count(routes, DestIs(a))
  {
  }
}

=== FILE: asia.dfy ===
/** The Asia analysis of `AirlineRoutes`: `map_asia_flags` marks each route's
    ends as in or out of Asia from the airports' countries,
    `count_asia_routes` counts the flagged routes, and
    `report_asia_airline_frequencies` breaks the counts down per airline. */
module Asia {

  import opened Base
  import opened Routes
  import opened RouteQuery
  import opened Airports
  import opened Airlines

  /** The countries `map_asia_flags` treats as Asian, in its order. */
  const AsiaCountries: seq<string> := [
    "Afghanistan", "Armenia", "Azerbaijan", "Bahrain", "Bangladesh", "Bhutan", "Brunei",
    "Cambodia", "China", "Cyprus", "Georgia", "India", "Indonesia", "Iran", "Iraq", "Israel",
    "Japan", "Jordan", "Kazakhstan", "Kuwait", "Kyrgyzstan", "Laos", "Lebanon", "Malaysia",
    "Maldives", "Mongolia", "Myanmar", "Nepal", "North Korea", "Oman", "Pakistan",
    "Palestine", "Philippines", "Qatar", "Saudi Arabia", "Singapore", "South Korea",
    "Sri Lanka", "Syria", "Taiwan", "Tajikistan", "Thailand", "Timor-Leste", "Turkey",
    "Turkmenistan", "United Arab Emirates", "Uzbekistan", "Vietnam", "Yemen", "Hong Kong", "Macau"]

  /** `a.country IN (…)` for an airport whose country is not NULL. */
  predicate InAsia(country: string) {
    country in AsiaCountries
  }

  /** The airport a route end's id joins to (`WHERE r.x_airport_id =
      a.airport_id`); a NULL id joins to none. */
  predicate Joined(airports: AirportTable, id: Option<int>) {
    id.Some? && id.value in airports
  }

  /** One end's flag after the four statements: a joined airport sets it to
      `country IN (…)`, which is NULL for a NULL country; an unjoined end
      keeps its flag; and a NULL flag finally becomes FALSE. */
  function EndFlag(airports: AirportTable, id: Option<int>, previous: Option<bool>): bool {
    if Joined(airports, id) then
      var country := airports[id.value].airport.country;
      country.Some? && InAsia(country.value)
    else previous == Some(true)
  }

  function FlagRoute(airports: AirportTable, r: StoredRoute): StoredRoute {
    StoredRoute(r.route,
      Some(EndFlag(airports, r.route.sourceId, r.sourceInAsia)),
      Some(EndFlag(airports, r.route.destId, r.destInAsia)))
  }

  /** Both flags of every route are set (never NULL). */
  predicate Flagged(routes: seq<StoredRoute>) {
    forall i :: 0 <= i < |routes| ==> routes[i].sourceInAsia.Some? && routes[i].destInAsia.Some?
  }

  /** `map_asia_flags`: every route keeps its row and gets both flags set. */
  function MapAsiaFlags(routes: seq<StoredRoute>, airports: AirportTable): (out: seq<StoredRoute>)
    ensures |out| == |routes|
    ensures Flagged(out)
    ensures forall i :: 0 <= i < |out| ==> out[i].route == routes[i].route
  {
    seq(|routes|, i requires 0 <= i < |routes| => FlagRoute(airports, routes[i]))
  }

  /** What a flag means afterwards: a route end at a known airport is in Asia
      exactly when that airport's country is on the list (a NULL country is
      not); an end at an unknown airport keeps a flag it had, and is not in
      Asia if it had none. */
  lemma MapAsiaFlagsMeaning(routes: seq<StoredRoute>, airports: AirportTable, i: int)
    requires 0 <= i < |routes|
    ensures var r, f := routes[i], MapAsiaFlags(routes, airports)[i];
      var src := r.route.sourceId;
      && (Joined(airports, src) ==>
            (f.sourceInAsia == Some(true) <==> airports[src.value].airport.country.Some? && InAsia(airports[src.value].airport.country.value)))
      && (!Joined(airports, src) ==> (f.sourceInAsia == Some(true) <==> r.sourceInAsia == Some(true)))
    ensures var r, f := routes[i], MapAsiaFlags(routes, airports)[i];
      var dst := r.route.destId;
      && (Joined(airports, dst) ==>
            (f.destInAsia == Some(true) <==> airports[dst.value].airport.country.Some? && InAsia(airports[dst.value].airport.country.value)))
      && (!Joined(airports, dst) ==> (f.destInAsia == Some(true) <==> r.destInAsia == Some(true)))
  {
  }

  /** Running the job twice is running it once. */
  lemma MapAsiaFlagsIdempotent(routes: seq<StoredRoute>, airports: AirportTable)
    ensures MapAsiaFlags(MapAsiaFlags(routes, airports), airports) == MapAsiaFlags(routes, airports)
  {
  }

  /** On freshly loaded routes (flags NULL), a route leaves Asia exactly when
      its source airport is known and in an Asian country. */
  lemma MapAsiaFlagsFresh(routes: seq<StoredRoute>, airports: AirportTable, i: int)
    requires 0 <= i < |routes| && routes[i].sourceInAsia.None?
    ensures var src := routes[i].route.sourceId;
      MapAsiaFlags(routes, airports)[i].sourceInAsia == Some(true) <==>
        Joined(airports, src) && airports[src.value].airport.country.Some? && InAsia(airports[src.value].airport.country.value)
  {
  }

  // ---------------------------------------------------------------------
  // count_asia_routes

  const Touches: Cond := Or(SourceAsia(true), DestAsia(true))
  const Within: Cond := And(SourceAsia(true), DestAsia(true))
  const OutOf: Cond := And(SourceAsia(true), DestAsia(false))
  const Into: Cond := And(SourceAsia(false), DestAsia(true))

  /** The four conditions in terms of the two flags. */
  lemma HoldsAsia(r: StoredRoute)
    ensures Holds(Touches, r) <==> r.sourceInAsia == Some(true) || r.destInAsia == Some(true)
    ensures Holds(Within, r) <==> r.sourceInAsia == Some(true) && r.destInAsia == Some(true)
    ensures Holds(OutOf, r) <==> r.sourceInAsia == Some(true) && r.destInAsia == Some(false)
    ensures Holds(Into, r) <==> r.sourceInAsia == Some(false) && r.destInAsia == Some(true)
  {
  }

  datatype AsiaCounts = AsiaCounts(source: nat, dest: nat, both: nat, touches: nat)

  /** The four counts of `count_asia_routes`. */
  function CountAsiaRoutes(routes: seq<StoredRoute>): (c: AsiaCounts)
    ensures c.both <= c.source && c.both <= c.dest
    ensures c.touches + c.both == c.source + c.dest
    ensures c.source <= c.touches <= |routes| && c.dest <= c.touches
  {
    CountMonotone(routes, Within, SourceAsia(true));
    CountMonotone(routes, Within, DestAsia(true));
    CountMonotone(routes, SourceAsia(true), Touches);
    CountMonotone(routes, DestAsia(true), Touches);
    CountInclusionExclusion(routes, SourceAsia(true), DestAsia(true));
    AsiaCounts(Count(routes, SourceAsia(true)), Count(routes, DestAsia(true)), Count(routes, Within), Count(routes, Touches))
  }

  /** Among rows of one group `g` whose flags are set, a route touching Asia
      is exactly one of within, out of, or into Asia. */
  lemma {:induction false} TouchesPartition(routes: seq<StoredRoute>, g: Cond)
    requires Flagged(routes)
    ensures Count(routes, And(g, Touches)) ==
      Count(routes, And(g, Within)) + Count(routes, And(g, OutOf)) + Count(routes, And(g, Into))
    decreases |routes|
  {
    if |routes| > 0 {
      var init := routes[..|routes| - 1];
      assert forall i :: 0 <= i < |init| ==> init[i] == routes[i];
      TouchesPartition(init, g);
      var r := routes[|routes| - 1];
      assert r.sourceInAsia.Some? && r.destInAsia.Some?;
      var sv, dv := r.sourceInAsia.value, r.destInAsia.value;
      assert r.sourceInAsia == Some(sv) && r.destInAsia == Some(dv);
      HoldsAsia(r);
      assert Holds(And(g, Touches), r) <==> Holds(g, r) && Holds(Touches, r);
      assert Holds(And(g, Within), r) <==> Holds(g, r) && Holds(Within, r);
      assert Holds(And(g, OutOf), r) <==> Holds(g, r) && Holds(OutOf, r);
      assert Holds(And(g, Into), r) <==> Holds(g, r) && Holds(Into, r);
      assert Count(routes, And(g, Touches)) == Count(init, And(g, Touches)) + (if Holds(And(g, Touches), r) then 1 else 0);
      assert Count(routes, And(g, Within)) == Count(init, And(g, Within)) + (if Holds(And(g, Within), r) then 1 else 0);
      assert Count(routes, And(g, OutOf)) == Count(init, And(g, OutOf)) + (if Holds(And(g, OutOf), r) then 1 else 0);
      assert Count(routes, And(g, Into)) == Count(init, And(g, Into)) + (if Holds(And(g, Into), r) then 1 else 0);
    }
  }

  /** After `map_asia_flags`, the routes touching Asia are the within, out of
      and into routes together. */
  lemma CountAsiaAfterFlags(routes: seq<StoredRoute>, airports: AirportTable)
    ensures var flagged := MapAsiaFlags(routes, airports);
      Count(flagged, Touches) == Count(flagged, Within) + Count(flagged, OutOf) + Count(flagged, Into)
  {
    FlaggedSplit(MapAsiaFlags(routes, airports));
  }

  /** Once the flags are set, the routes touching Asia are the within, out
      of and into routes together. */
  lemma FlaggedSplit(routes: seq<StoredRoute>)
    requires Flagged(routes)
    ensures Count(routes, Touches) == Count(routes, Within) + Count(routes, OutOf) + Count(routes, Into)
  {
    TouchesPartition(routes, Touches);
    forall i | 0 <= i < |routes|
      ensures Holds(And(Touches, Touches), routes[i]) <==> Holds(Touches, routes[i])
      ensures Holds(And(Touches, Within), routes[i]) <==> Holds(Within, routes[i])
      ensures Holds(And(Touches, OutOf), routes[i]) <==> Holds(OutOf, routes[i])
      ensures Holds(And(Touches, Into), routes[i]) <==> Holds(Into, routes[i])
    {
      HoldsAsia(routes[i]);
    }
    CountSame(routes, And(Touches, Touches), Touches);
    CountSame(routes, And(Touches, Within), Within);
    CountSame(routes, And(Touches, OutOf), OutOf);
    CountSame(routes, And(Touches, Into), Into);
  }

  // ---------------------------------------------------------------------
  // report_asia_airline_frequencies

  /** A `GROUP BY r.airline_id, r.airline_code, a.name` group.  The joined
      airline name is determined by the airline id (`airline_id` is the
      airlines' primary key), so the id and the code identify the group. */
  datatype GroupKey = GroupKey(airlineId: Option<int>, code: Option<string>)

  function KeyOf(r: StoredRoute): GroupKey {
    GroupKey(r.route.airlineId, r.route.airlineCode)
  }

  /** Membership of a group; NULL ids and codes group together. */
  function InGroup(g: GroupKey): Cond {
    And(AirlineIs(g.airlineId), CodeIs(g.code))
  }

  /** `a.name` of the `LEFT JOIN airlines a ON a.airline_id = r.airline_id`:
      NULL when the id is NULL or matches no airline. */
  function JoinedName(airlines: AirlineTable, id: Option<int>): Option<string> {
    if id.Some? && id.value in airlines then airlines[id.value].name else None
  }

  const Unknown: string := "(unknown)"

  datatype FrequencyRow = FrequencyRow(name: string, within: nat, outOf: nat, into: nat, touches: nat)

  function Groups(routes: seq<StoredRoute>): set<GroupKey> {
    set i | 0 <= i < |routes| :: KeyOf(routes[i])
  }

  /** The result rows of `report_asia_airline_frequencies` before `ORDER BY`
      and `LIMIT`: one per group with a route inside Asia. */
  function Frequencies(routes: seq<StoredRoute>, airlines: AirlineTable): (m: map<GroupKey, FrequencyRow>)
    ensures forall g :: g in m ==> m[g].name == JoinedName(airlines, g.airlineId).GetOr(Unknown)
  {
    map g | g in Groups(routes) && Count(routes, And(InGroup(g), Within)) > 0 ::
      FrequencyRow(JoinedName(airlines, g.airlineId).GetOr(Unknown),
                   Count(routes, And(InGroup(g), Within)),
                   Count(routes, And(InGroup(g), OutOf)),
                   Count(routes, And(InGroup(g), Into)),
                   Count(routes, And(InGroup(g), Touches)))
  }

  /** `HAVING within_asia > 0`: a group is reported exactly when one of its
      routes has both ends flagged in Asia. */
  lemma FrequenciesHaving(routes: seq<StoredRoute>, airlines: AirlineTable, g: GroupKey)
    ensures g in Frequencies(routes, airlines) <==>
      exists i :: 0 <= i < |routes| && KeyOf(routes[i]) == g &&
        routes[i].sourceInAsia == Some(true) && routes[i].destInAsia == Some(true)
  {
    var c := And(InGroup(g), Within);
    CountPositive(routes, c);
    forall i | 0 <= i < |routes|
      ensures Holds(c, routes[i]) <==>
        KeyOf(routes[i]) == g && routes[i].sourceInAsia == Some(true) && routes[i].destInAsia == Some(true)
    {
      HoldsAsia(routes[i]);
      assert Holds(InGroup(g), routes[i]) <==> KeyOf(routes[i]) == g;
    }
    if Count(routes, c) > 0 {
      var i :| 0 <= i < |routes| && Holds(c, routes[i]);
      assert KeyOf(routes[i]) in Groups(routes);
    }
  }

  /** The counts of a reported group: its touches are at least its
      within, out-of and into routes together, with equality once the flags
      are set; and no group has more routes within Asia than the whole
      table. */
  lemma FrequenciesCounts(routes: seq<StoredRoute>, airlines: AirlineTable, g: GroupKey)
    requires g in Frequencies(routes, airlines)
    ensures var f := Frequencies(routes, airlines)[g];
      && f.within > 0
      && f.within + f.outOf + f.into <= f.touches
      && (Flagged(routes) ==> f.touches == f.within + f.outOf + f.into)
      && f.within <= CountAsiaRoutes(routes).both
      && f.touches <= CountAsiaRoutes(routes).touches
  {
    var h := InGroup(g);
    FrequencyRowOf(routes, airlines, g);
    GroupCounts(routes, h);
    CountMonotone(routes, And(h, Within), Within);
    CountMonotone(routes, And(h, Touches), Touches);
  }

  /** A reported group's row: its name and its four counts. */
  lemma FrequencyRowOf(routes: seq<StoredRoute>, airlines: AirlineTable, g: GroupKey)
    requires g in Frequencies(routes, airlines)
    ensures Count(routes, And(InGroup(g), Within)) > 0
    ensures Frequencies(routes, airlines)[g] ==
      FrequencyRow(JoinedName(airlines, g.airlineId).GetOr(Unknown), Count(routes, And(InGroup(g), Within)),
        Count(routes, And(InGroup(g), OutOf)), Count(routes, And(InGroup(g), Into)), Count(routes, And(InGroup(g), Touches)))
  {
  }

  /** Within one group, the within, out-of and into routes are disjoint and
      all touch Asia; once the flags are set they are all its touching
      routes. */
  lemma GroupCounts(routes: seq<StoredRoute>, h: Cond)
    ensures Count(routes, And(h, Within)) + Count(routes, And(h, OutOf)) + Count(routes, And(h, Into)) <= Count(routes, And(h, Touches))
    ensures Flagged(routes) ==>
      Count(routes, And(h, Touches)) == Count(routes, And(h, Within)) + Count(routes, And(h, OutOf)) + Count(routes, And(h, Into))
  {
    var parts := Or(Or(And(h, Within), And(h, OutOf)), And(h, Into));
    forall i | 0 <= i < |routes|
      ensures !(Holds(And(h, Within), routes[i]) && Holds(And(h, OutOf), routes[i]))
      ensures !(Holds(Or(And(h, Within), And(h, OutOf)), routes[i]) && Holds(And(h, Into), routes[i]))
      ensures Holds(parts, routes[i]) ==> Holds(And(h, Touches), routes[i])
    {
      var r := routes[i];
      HoldsAsia(r);
      assert Holds(And(h, Touches), r) <==> Holds(h, r) && Holds(Touches, r);
      assert Holds(And(h, Within), r) <==> Holds(h, r) && Holds(Within, r);
      assert Holds(And(h, OutOf), r) <==> Holds(h, r) && Holds(OutOf, r);
      assert Holds(And(h, Into), r) <==> Holds(h, r) && Holds(Into, r);
      assert Holds(Or(And(h, Within), And(h, OutOf)), r) <==> Holds(And(h, Within), r) || Holds(And(h, OutOf), r);
      assert Holds(parts, r) <==> Holds(Or(And(h, Within), And(h, OutOf)), r) || Holds(And(h, Into), r);
    }
    CountDisjoint(routes, And(h, Within), And(h, OutOf));
    CountDisjoint(routes, Or(And(h, Within), And(h, OutOf)), And(h, Into));
    CountMonotone(routes, parts, And(h, Touches));
    if Flagged(routes) {
      TouchesPartition(routes, h);
    }
  }
}

=== FILE: asia_report.dfy ===
/** `Report.create_asia_report_table`: per airline group, the routes out of,
    into and within Asia and their total, with passenger-capacity sums taken
    from a LEFT JOIN of the routes to `aircraft`.  The join column is chosen
    from the columns `airline_routes` actually has. */
module AsiaReport {

  import opened Base
  import opened Routes
  import opened RouteQuery
  import opened Airlines
  import opened Aircraft
  import opened Asia

  // ---------------------------------------------------------------------
  // Choosing the join

  /** The link columns the report looks for, in order of preference. */
  datatype JoinOn = OnAircraftId | OnIataCode | OnIcaoCode | OnEquipment

  function LinkColumn(j: JoinOn): string {
    match j
    case OnAircraftId => "aircraft_id"
    case OnIataCode => "iata_code"
    case OnIcaoCode => "icao_code"
    case OnEquipment => "equipment"
  }

  function Rank(j: JoinOn): nat {
    match j
    case OnAircraftId => 0
    case OnIataCode => 1
    case OnIcaoCode => 2
    case OnEquipment => 3
  }

  /** The join the report uses for a table with columns `cols`: the most
      preferred link column present; none means `ON 1=0`. */
  function ChooseJoin(cols: set<string>): (j: Option<JoinOn>)
    ensures j.Some? ==> LinkColumn(j.value) in cols
    ensures j.Some? ==> forall k: JoinOn :: Rank(k) < Rank(j.value) ==> LinkColumn(k) !in cols
    ensures j.None? ==> forall k: JoinOn :: LinkColumn(k) !in cols
  {
    if "aircraft_id" in cols then Some(OnAircraftId)
    else if "iata_code" in cols then Some(OnIataCode)
    else if "icao_code" in cols then Some(OnIcaoCode)
    else if "equipment" in cols then Some(OnEquipment)
    else None
  }

  /** The columns of `airline_routes` once the loader and `map_asia_flags`
      have run. */
  const RouteColumns: set<string> := {
    "route_id", "airline_code", "airline_id", "source_airport_code", "source_airport_id",
    "dest_airport_code", "dest_airport_id", "codeshare", "stops", "equipment",
    "source_in_asia", "dest_in_asia"}

  /** On the table this program builds, the report joins on `equipment`. */
  lemma LoaderSchemaJoinsOnEquipment()
    ensures ChooseJoin(RouteColumns) == Some(OnEquipment)
  {
  }

  /** `ON (ac.iata_code = r.equipment OR ac.icao_code = r.equipment)`: TRUE
      only for a non-NULL equipment equal to one of the codes. */
  predicate EquipmentOn(r: StoredRoute, ac: AircraftRow) {
    r.route.equipment.Some? && (ac.iata == r.route.equipment || ac.icao == r.route.equipment.value)
  }

  /** `ON 1=0`. */
  predicate NothingOn(r: StoredRoute, ac: AircraftRow) {
    false
  }

  // ---------------------------------------------------------------------
  // The LEFT JOIN

  /** One row of the joined relation: a route and the seat capacity of the
      aircraft row it joined (NULL when it joined none). */
  datatype JoinedRow = JoinedRow(route: StoredRoute, seats: Option<int>)

  /** The aircraft rows a route joins, in table order. */
  function MatchesOf(r: StoredRoute, aircraft: seq<AircraftRow>, on: (StoredRoute, AircraftRow) -> bool): (ms: seq<AircraftRow>)
    ensures |ms| <= |aircraft|
    ensures forall k :: 0 <= k < |ms| ==> ms[k] in aircraft && on(r, ms[k])
    ensures forall a :: a in aircraft && on(r, a) ==> a in ms
    decreases |aircraft|
  {
    if |aircraft| == 0 then []
    else
      var rest := MatchesOf(r, aircraft[1..], on);
      assert forall a :: a in aircraft ==> a == aircraft[0] || a in aircraft[1..];
      (if on(r, aircraft[0]) then [aircraft[0]] else []) + rest
  }

  /** A LEFT JOIN keeps a route that joins nothing as one row of NULLs, and
      repeats a route once per aircraft row it joins. */
  function JoinRoute(r: StoredRoute, aircraft: seq<AircraftRow>, on: (StoredRoute, AircraftRow) -> bool): (rows: seq<JoinedRow>)
    ensures |rows| >= 1
    ensures forall k :: 0 <= k < |rows| ==> rows[k].route == r
  {
    var ms := MatchesOf(r, aircraft, on);
    if |ms| == 0 then [JoinedRow(r, None)]
    else seq(|ms|, k requires 0 <= k < |ms| => JoinedRow(r, ms[k].seats))
  }

  /** The rows a route contributes to the join. */
  function Fanout(r: StoredRoute, aircraft: seq<AircraftRow>, on: (StoredRoute, AircraftRow) -> bool): nat {
    |JoinRoute(r, aircraft, on)|
  }

  function Join(routes: seq<StoredRoute>, aircraft: seq<AircraftRow>, on: (StoredRoute, AircraftRow) -> bool): seq<JoinedRow>
    decreases |routes|
  {
    if |routes| == 0 then []
    else Join(routes[..|routes| - 1], aircraft, on) + JoinRoute(routes[|routes| - 1], aircraft, on)
  }

  function RoutesOf(joined: seq<JoinedRow>): (rs: seq<StoredRoute>)
    ensures |rs| == |joined|
    ensures forall k :: 0 <= k < |joined| ==> rs[k] == joined[k].route
  {
    seq(|joined|, k requires 0 <= k < |joined| => joined[k].route)
  }

  /** The number of joined rows of the routes satisfying `c`: each such
      route counts once per row it contributes. */
  function FanoutCount(routes: seq<StoredRoute>, aircraft: seq<AircraftRow>, on: (StoredRoute, AircraftRow) -> bool, c: Cond): nat
    decreases |routes|
  {
    if |routes| == 0 then 0
    else
      var last := routes[|routes| - 1];
      FanoutCount(routes[..|routes| - 1], aircraft, on, c) + (if Holds(c, last) then Fanout(last, aircraft, on) else 0)
  }

  lemma RoutesOfAppend(a: seq<JoinedRow>, b: seq<JoinedRow>)
    ensures RoutesOf(a + b) == RoutesOf(a) + RoutesOf(b)
  {
  }

  /** A run of one route counts that route's condition once per copy. */
  lemma {:induction false} CountCopies(rows: seq<JoinedRow>, r: StoredRoute, c: Cond)
    requires forall k :: 0 <= k < |rows| ==> rows[k].route == r
    ensures Count(RoutesOf(rows), c) == if Holds(c, r) then |rows| else 0
    decreases |rows|
  {
    if |rows| > 0 {
      var init := rows[..|rows| - 1];
      CountCopies(init, r, c);
      assert RoutesOf(rows)[..|rows| - 1] == RoutesOf(init);
    }
  }

  /** `COUNT(*)` over the join counts every route once per joined row. */
  lemma {:induction false} JoinedCount(routes: seq<StoredRoute>, aircraft: seq<AircraftRow>, on: (StoredRoute, AircraftRow) -> bool, c: Cond)
    ensures Count(RoutesOf(Join(routes, aircraft, on)), c) == FanoutCount(routes, aircraft, on, c)
    decreases |routes|
  {
    if |routes| > 0 {
      var init, last := routes[..|routes| - 1], routes[|routes| - 1];
      JoinedCount(init, aircraft, on, c);
      RoutesOfAppend(Join(init, aircraft, on), JoinRoute(last, aircraft, on));
      CountAppend(RoutesOf(Join(init, aircraft, on)), RoutesOf(JoinRoute(last, aircraft, on)), c);
      CountCopies(JoinRoute(last, aircraft, on), last, c);
    }
  }

  /** Each route contributes at least one row, so the join has a row
      satisfying `c` exactly when the routes do, and never fewer rows. */
  lemma {:induction false} FanoutAtLeast(routes: seq<StoredRoute>, aircraft: seq<AircraftRow>, on: (StoredRoute, AircraftRow) -> bool, c: Cond)
    ensures Count(routes, c) <= FanoutCount(routes, aircraft, on, c)
    ensures FanoutCount(routes, aircraft, on, c) == 0 <==> Count(routes, c) == 0
    decreases |routes|
  {
    if |routes| > 0 {
      FanoutAtLeast(routes[..|routes| - 1], aircraft, on, c);
    }
  }

  /** When no route joins more than one aircraft row, the join counts every
      route exactly once. */
  lemma {:induction false} FanoutSingle(routes: seq<StoredRoute>, aircraft: seq<AircraftRow>, on: (StoredRoute, AircraftRow) -> bool, c: Cond)
    requires forall i :: 0 <= i < |routes| ==> |MatchesOf(routes[i], aircraft, on)| <= 1
    ensures FanoutCount(routes, aircraft, on, c) == Count(routes, c)
    decreases |routes|
  {
    if |routes| > 0 {
      var init := routes[..|routes| - 1];
      assert forall i :: 0 <= i < |init| ==> init[i] == routes[i];
      FanoutSingle(init, aircraft, on, c);
    }
  }

  /** Every joined row carries one of the routes. */
  lemma {:induction false} JoinedFrom(routes: seq<StoredRoute>, aircraft: seq<AircraftRow>, on: (StoredRoute, AircraftRow) -> bool)
    ensures forall k :: 0 <= k < |Join(routes, aircraft, on)| ==> Join(routes, aircraft, on)[k].route in routes
    decreases |routes|
  {
    if |routes| > 0 {
      var init, last := routes[..|routes| - 1], routes[|routes| - 1];
      JoinedFrom(init, aircraft, on);
      var a: seq<JoinedRow> := Join(init, aircraft, on);
      var b: seq<JoinedRow> := JoinRoute(last, aircraft, on);
      forall k | 0 <= k < |a + b| ensures (a + b)[k].route in routes {
        if k < |a| {
          assert a[k].route in init;
        } else {
          assert b[k - |a|].route == last;
        }
      }
    }
  }

  // ---------------------------------------------------------------------
  // Passenger sums

  /** `SUM(COALESCE(ac.seat_capacity, 0))` over the joined rows satisfying
      `c`, as a number. */
  function SeatSum(joined: seq<JoinedRow>, c: Cond): int
    decreases |joined|
  {
    if |joined| == 0 then 0
    else
      var last := joined[|joined| - 1];
      SeatSum(joined[..|joined| - 1], c) + (if Holds(c, last.route) then last.seats.GetOr(0) else 0)
  }

  /** The SQL value of that `SUM … FILTER`: NULL when no row satisfies `c`. */
  function Pax(joined: seq<JoinedRow>, c: Cond): (p: Option<int>)
    ensures p.None? <==> Count(RoutesOf(joined), c) == 0
  {
    if Count(RoutesOf(joined), c) == 0 then None else Some(SeatSum(joined, c))
  }

  /** Among rows of one group whose flags are set, the seats of the rows
      touching Asia are those within, out of and into Asia together. */
  lemma {:induction false} SeatSumPartition(joined: seq<JoinedRow>, g: Cond)
    requires Flagged(RoutesOf(joined))
    ensures SeatSum(joined, And(g, Touches)) ==
      SeatSum(joined, And(g, Within)) + SeatSum(joined, And(g, OutOf)) + SeatSum(joined, And(g, Into))
    decreases |joined|
  {
    if |joined| > 0 {
      var init := joined[..|joined| - 1];
      assert RoutesOf(joined)[..|joined| - 1] == RoutesOf(init);
      SeatSumPartition(init, g);
      var r := joined[|joined| - 1].route;
      assert r == RoutesOf(joined)[|joined| - 1];
      assert r.sourceInAsia.Some? && r.destInAsia.Some?;
      var sv, dv := r.sourceInAsia.value, r.destInAsia.value;
      assert r.sourceInAsia == Some(sv) && r.destInAsia == Some(dv);
      HoldsAsia(r);
      assert Holds(And(g, Touches), r) <==> Holds(g, r) && Holds(Touches, r);
      assert Holds(And(g, Within), r) <==> Holds(g, r) && Holds(Within, r);
      assert Holds(And(g, OutOf), r) <==> Holds(g, r) && Holds(OutOf, r);
      assert Holds(And(g, Into), r) <==> Holds(g, r) && Holds(Into, r);
    }
  }

  /** Rows that joined no aircraft add nothing to any sum. */
  lemma {:induction false} SeatSumNoSeats(joined: seq<JoinedRow>, c: Cond)
    requires forall k :: 0 <= k < |joined| ==> joined[k].seats.None?
    ensures SeatSum(joined, c) == 0
    decreases |joined|
  {
    if |joined| > 0 {
      SeatSumNoSeats(joined[..|joined| - 1], c);
    }
  }

  lemma {:induction false} NothingMatches(r: StoredRoute, aircraft: seq<AircraftRow>)
    ensures MatchesOf(r, aircraft, NothingOn) == []
    decreases |aircraft|
  {
    if |aircraft| > 0 {
      NothingMatches(r, aircraft[1..]);
    }
  }

  /** With `ON 1=0` no joined row has a seat capacity. */
  lemma {:induction false} NothingJoinsNoSeats(routes: seq<StoredRoute>, aircraft: seq<AircraftRow>)
    ensures forall k :: 0 <= k < |Join(routes, aircraft, NothingOn)| ==> Join(routes, aircraft, NothingOn)[k].seats.None?
    decreases |routes|
  {
    if |routes| > 0 {
      var last := routes[|routes| - 1];
      NothingJoinsNoSeats(routes[..|routes| - 1], aircraft);
      NothingMatches(last, aircraft);
    }
  }

  // ---------------------------------------------------------------------
  // The report

  datatype ReportRow = ReportRow(
    name: string,
    outOf: nat, into: nat, within: nat, total: nat,
    paxOut: Option<int>, paxIn: Option<int>, paxWithin: Option<int>, paxTotal: Option<int>)

  /** `asia_report` as the statement computes it: every count is a
      `COUNT(*)` over the joined rows of the group. */
  function Report(routes: seq<StoredRoute>, airlines: AirlineTable, aircraft: seq<AircraftRow>, on: (StoredRoute, AircraftRow) -> bool): (m: map<GroupKey, ReportRow>)
    ensures forall g :: g in m ==> m[g].name == JoinedName(airlines, g.airlineId).GetOr(Unknown)
    ensures forall g :: g in m ==> m[g].total > 0
  {
    var joined := Join(routes, aircraft, on);
    var rs := RoutesOf(joined);
    map g | g in Groups(routes) && Count(rs, And(InGroup(g), Touches)) > 0 ::
      ReportRow(JoinedName(airlines, g.airlineId).GetOr(Unknown),
        Count(rs, And(InGroup(g), OutOf)), Count(rs, And(InGroup(g), Into)),
        Count(rs, And(InGroup(g), Within)), Count(rs, And(InGroup(g), Touches)),
        Pax(joined, And(InGroup(g), OutOf)), Pax(joined, And(InGroup(g), Into)),
        Pax(joined, And(InGroup(g), Within)), Pax(joined, And(InGroup(g), Touches)))
  }

  /** A reported group's row: its name, counts and sums over the join. */
  lemma ReportRowOf(routes: seq<StoredRoute>, airlines: AirlineTable, aircraft: seq<AircraftRow>, on: (StoredRoute, AircraftRow) -> bool, g: GroupKey)
    requires g in Report(routes, airlines, aircraft, on)
    ensures var joined, h := Join(routes, aircraft, on), InGroup(g);
      var rs := RoutesOf(joined);
      Report(routes, airlines, aircraft, on)[g] ==
        ReportRow(JoinedName(airlines, g.airlineId).GetOr(Unknown),
          Count(rs, And(h, OutOf)), Count(rs, And(h, Into)), Count(rs, And(h, Within)), Count(rs, And(h, Touches)),
          Pax(joined, And(h, OutOf)), Pax(joined, And(h, Into)), Pax(joined, And(h, Within)), Pax(joined, And(h, Touches)))
  {
  }

  /** Which groups a route makes: one has a row exactly when one of its
      routes satisfies the condition. */
  lemma GroupHasRoute(routes: seq<StoredRoute>, g: GroupKey, c: Cond)
    ensures (g in Groups(routes) && Count(routes, And(InGroup(g), c)) > 0) <==>
      exists i :: 0 <= i < |routes| && KeyOf(routes[i]) == g && Holds(c, routes[i])
  {
    CountPositive(routes, And(InGroup(g), c));
    forall i | 0 <= i < |routes|
      ensures Holds(And(InGroup(g), c), routes[i]) <==> KeyOf(routes[i]) == g && Holds(c, routes[i])
    {
      assert Holds(InGroup(g), routes[i]) <==> KeyOf(routes[i]) == g;
    }
  }

  /** `HAVING total_flights_to_asia > 0`: a group is reported exactly when
      one of its routes has an end flagged in Asia. */
  lemma ReportHaving(routes: seq<StoredRoute>, airlines: AirlineTable, aircraft: seq<AircraftRow>, on: (StoredRoute, AircraftRow) -> bool, g: GroupKey)
    ensures g in Report(routes, airlines, aircraft, on) <==>
      exists i :: 0 <= i < |routes| && KeyOf(routes[i]) == g &&
        (routes[i].sourceInAsia == Some(true) || routes[i].destInAsia == Some(true))
  {
    var c := And(InGroup(g), Touches);
    JoinedCount(routes, aircraft, on, c);
    FanoutAtLeast(routes, aircraft, on, c);
    GroupHasRoute(routes, g, Touches);
    forall i | 0 <= i < |routes| {
      HoldsAsia(routes[i]);
    }
  }

  /** Once the flags are set, a reported group's total is its out-of, into
      and within counts together, and its passenger total is the sum of the
      other three sums (a NULL sum counting as 0) and never NULL. */
  lemma ReportTotals(routes: seq<StoredRoute>, airlines: AirlineTable, aircraft: seq<AircraftRow>, on: (StoredRoute, AircraftRow) -> bool, g: GroupKey)
    requires Flagged(routes)
    requires g in Report(routes, airlines, aircraft, on)
    ensures var row := Report(routes, airlines, aircraft, on)[g];
      && row.total == row.outOf + row.into + row.within
      && row.paxTotal.Some?
      && row.paxTotal.value == row.paxOut.GetOr(0) + row.paxIn.GetOr(0) + row.paxWithin.GetOr(0)
  {
    var joined := Join(routes, aircraft, on);
    var rs := RoutesOf(joined);
    JoinedFrom(routes, aircraft, on);
    assert Flagged(rs) by {
      forall k | 0 <= k < |rs| ensures rs[k].sourceInAsia.Some? && rs[k].destInAsia.Some? {
        assert rs[k] in routes;
      }
    }
    TouchesPartition(rs, InGroup(g));
    SeatSumPartition(joined, InGroup(g));
    var h := InGroup(g);
    ReportRowOf(routes, airlines, aircraft, on, g);
    forall c | c in {And(h, Within), And(h, OutOf), And(h, Into)}
      ensures Count(rs, c) == 0 ==> SeatSum(joined, c) == 0
    {
      if Count(rs, c) == 0 {
        SeatSumNone(joined, c);
      }
    }
  }

  /** A sum over no satisfying row is 0. */
  lemma {:induction false} SeatSumNone(joined: seq<JoinedRow>, c: Cond)
    requires Count(RoutesOf(joined), c) == 0
    ensures SeatSum(joined, c) == 0
    decreases |joined|
  {
    if |joined| > 0 {
      var init := joined[..|joined| - 1];
      assert RoutesOf(joined)[..|joined| - 1] == RoutesOf(init);
      SeatSumNone(init, c);
    }
  }

  /** Without a link column (`ON 1=0`) every passenger column of a reported
      group is 0 or NULL, and the passenger total is 0. */
  lemma ReportWithoutJoin(routes: seq<StoredRoute>, airlines: AirlineTable, aircraft: seq<AircraftRow>, g: GroupKey)
    requires g in Report(routes, airlines, aircraft, NothingOn)
    ensures var row := Report(routes, airlines, aircraft, NothingOn)[g];
      && row.paxTotal == Some(0)
      && row.paxOut.GetOr(0) == 0 && row.paxIn.GetOr(0) == 0 && row.paxWithin.GetOr(0) == 0
  {
    var joined := Join(routes, aircraft, NothingOn);
    NothingJoinsNoSeats(routes, aircraft);
    var h := InGroup(g);
    SeatSumNoSeats(joined, And(h, Touches));
    SeatSumNoSeats(joined, And(h, OutOf));
    SeatSumNoSeats(joined, And(h, Into));
    SeatSumNoSeats(joined, And(h, Within));
  }

  // ---------------------------------------------------------------------
  // One route, counted once

  /** The counts the report's column names promise: routes, each counted
      once whatever it joined; the passenger sums are those of the join. */
  function ReportByRoute(routes: seq<StoredRoute>, airlines: AirlineTable, aircraft: seq<AircraftRow>, on: (StoredRoute, AircraftRow) -> bool): (m: map<GroupKey, ReportRow>)
    ensures forall g :: g in m ==> m[g].name == JoinedName(airlines, g.airlineId).GetOr(Unknown)
    ensures forall g :: g in m ==> m[g].total > 0
  {
    var joined := Join(routes, aircraft, on);
    map g | g in Groups(routes) && Count(routes, And(InGroup(g), Touches)) > 0 ::
      ReportRow(JoinedName(airlines, g.airlineId).GetOr(Unknown),
        Count(routes, And(InGroup(g), OutOf)), Count(routes, And(InGroup(g), Into)),
        Count(routes, And(InGroup(g), Within)), Count(routes, And(InGroup(g), Touches)),
        Pax(joined, And(InGroup(g), OutOf)), Pax(joined, And(InGroup(g), Into)),
        Pax(joined, And(InGroup(g), Within)), Pax(joined, And(InGroup(g), Touches)))
  }

  /** Counted by route, the report reports the same groups and agrees with
      `report_asia_airline_frequencies` on every group both report; with the
      flags set its total is the sum of its parts. */
  lemma ReportByRouteAgrees(routes: seq<StoredRoute>, airlines: AirlineTable, aircraft: seq<AircraftRow>, on: (StoredRoute, AircraftRow) -> bool, g: GroupKey)
    ensures g in ReportByRoute(routes, airlines, aircraft, on) <==> g in Report(routes, airlines, aircraft, on)
    ensures g in ReportByRoute(routes, airlines, aircraft, on) && g in Frequencies(routes, airlines) ==>
      var row, f := ReportByRoute(routes, airlines, aircraft, on)[g], Frequencies(routes, airlines)[g];
      row.within == f.within && row.outOf == f.outOf && row.into == f.into && row.total == f.touches
    ensures g in ReportByRoute(routes, airlines, aircraft, on) && Flagged(routes) ==>
      var row := ReportByRoute(routes, airlines, aircraft, on)[g];
      row.total == row.outOf + row.into + row.within
  {
    var c := And(InGroup(g), Touches);
    JoinedCount(routes, aircraft, on, c);
    FanoutAtLeast(routes, aircraft, on, c);
    if Flagged(routes) {
      TouchesPartition(routes, InGroup(g));
    }
  }

  /** When no route joins more than one aircraft row, the report as written
      is the report counted by route. */
  lemma ReportSingleMatch(routes: seq<StoredRoute>, airlines: AirlineTable, aircraft: seq<AircraftRow>, on: (StoredRoute, AircraftRow) -> bool)
    requires forall i :: 0 <= i < |routes| ==> |MatchesOf(routes[i], aircraft, on)| <= 1
    ensures Report(routes, airlines, aircraft, on) == ReportByRoute(routes, airlines, aircraft, on)
  {
    var rs := RoutesOf(Join(routes, aircraft, on));
    forall c | true ensures Count(rs, c) == Count(routes, c) {
      JoinedCount(routes, aircraft, on, c);
      FanoutSingle(routes, aircraft, on, c);
    }
  }

  /** A route from a non-Asian airport into Asia flown with equipment `738`,
      and two aircraft rows that both carry IATA code `738`. */
  const ExampleRoute: StoredRoute :=
    StoredRoute(Route(Some("LH"), Some(3320), Some("FRA"), Some(340), Some("NRT"), Some(2279),
                      false, Some(0), Some("738")), Some(false), Some(true))
  const ExampleAircraft: seq<AircraftRow> := [
    AircraftRow(Some("Boeing 737-800"), Some("738"), "B738", Some(189), None, None),
    AircraftRow(Some("Boeing 737-800 (winglets)"), Some("738"), "B73W", Some(189), None, None)]
  const ExampleGroup: GroupKey := GroupKey(Some(3320), Some("LH"))

  /** The two aircraft rows have different ICAO codes, so they are what the
      aircraft loader stores: its de-duplication keeps both. */
  lemma ExampleAircraftStored()
    ensures Dedup(ExampleAircraft) == ExampleAircraft
  {
    var ac := ExampleAircraft;
    assert ac[..1][..0] == [];
    assert FindIcao([], ac[0].icao) == -1;
    assert Dedup(ac[..1]) == [ac[0]];
    assert ac[..|ac| - 1] == ac[..1];
    assert FindIcao([ac[0]], ac[1].icao) == -1;
    assert [ac[0]] + [ac[1]] == ac;
  }

  lemma ExampleJoinsTwice()
    ensures MatchesOf(ExampleRoute, ExampleAircraft, EquipmentOn) == ExampleAircraft
  {
    var ac := ExampleAircraft;
    assert ac[1..][1..] == [];
    assert MatchesOf(ExampleRoute, ac[1..], EquipmentOn) == [ac[1]];
  }

  lemma ExampleCounts(c: Cond)
    requires Holds(c, ExampleRoute)
    ensures Count([ExampleRoute], c) == 1
    ensures Count(RoutesOf(Join([ExampleRoute], ExampleAircraft, EquipmentOn)), c) == 2
  {
    assert [ExampleRoute][..0] == [];
    ExampleJoinsTwice();
    JoinedCount([ExampleRoute], ExampleAircraft, EquipmentOn, c);
  }

  /** One route into Asia whose equipment matches two aircraft rows: the
      report as written counts two flights into Asia; counted by route, one. */
  lemma ReportCountsJoinedRows()
    ensures ExampleGroup in Report([ExampleRoute], map[], ExampleAircraft, EquipmentOn)
    ensures Report([ExampleRoute], map[], ExampleAircraft, EquipmentOn)[ExampleGroup].into == 2
    ensures ExampleGroup in ReportByRoute([ExampleRoute], map[], ExampleAircraft, EquipmentOn)
    ensures ReportByRoute([ExampleRoute], map[], ExampleAircraft, EquipmentOn)[ExampleGroup].into == 1
  {
    var r, g := ExampleRoute, ExampleGroup;
    HoldsAsia(r);
    assert Holds(InGroup(g), r);
    ExampleCounts(And(InGroup(g), Into));
    ExampleCounts(And(InGroup(g), Touches));
    assert KeyOf([r][0]) == g;
    assert g in Groups([r]);
  }
}

=== FILE: base.dfy ===
/** Shared vocabulary of the model: optional values (SQL NULL / Python None),
    results that either carry a value or the reason a load was aborted. */
module Base {

  /** A nullable value: `None` stands for Python's `None` and SQL's NULL. */
  datatype Option<+T> = None | Some(value: T) {

    /** SQL `COALESCE(x, d)`. */
    function GetOr(d: T): T {
      match this
      case Some(v) => v
      case None => d
    }
  }

  /** Either a value or an error; usable with `:-`. */
  datatype Result<+T, +E> = Ok(value: T) | Err(error: E) {

    predicate IsFailure() {
      Err?
    }

    function PropagateFailure<U>(): Result<U, E>
      requires Err?
    {
      Err(error)
    }

    function Extract(): T
      requires Ok?
    {
      value
    }
  }

  /** Why a CSV load aborts.  `FieldCount` is the loaders' own `ValueError`
      (1-based record number and the number of fields found); `BadInteger`
      and `BadFloat` are the `ValueError`s raised by Python's `int()` and
      `float()` on the offending (stripped) text. */
  datatype LoadError =
    | FieldCount(line: nat, got: nat)
    | BadInteger(text: string)
    | BadFloat(text: string)

  /** Why the database rejects a whole batch (the transaction is rolled back). */
  datatype StoreError =
    | IntegerOutOfRange
    | ValueTooLong
    | KeyRepeatedInStatement
}

=== FILE: fields.dfy ===
/** Normalisation of one CSV field: the OpenFlights null marker, integer,
    float and codeshare coercions, and the range of a database INTEGER. */
module Fields {

  import opened Base
  import opened Text

  /** The OpenFlights null marker: a backslash followed by `N`. */
  const NullMarker: string := "\\N"

  /** `nullify`.  The four loaders each define it, with identical bodies
      (airline_routes.py:12, airports.py:9, aircraft.py:12, airlines.py:11);
      this is the single model of all four.  The text is stripped; an empty
      result or the null marker becomes `None`. */
  function Nullify(value: string): (r: Option<string>)
    ensures r.None? <==> Strip(value) == "" || Strip(value) == NullMarker
    ensures r.Some? ==> r.value == Strip(value)
  {
    var v := Strip(value);
    if v == NullMarker || v == "" then None else Some(v)
  }

  /** A non-null field is never empty, never the marker, and never carries
      leading or trailing whitespace; it is the input minus its padding. */
  lemma NullifyUnpadded(value: string)
    ensures Nullify(value).Some? ==>
      var v := Nullify(value).value;
      v != "" && v != NullMarker && Unpadded(v) && PaddingOf(value, v)
  {
  }

  /** Normalising an already normalised field changes nothing. */
  lemma NullifyIdempotent(value: string)
    ensures Nullify(value).Some? ==> Nullify(Nullify(value).value) == Nullify(value)
  {
    StripIdempotent(value);
  }

  /** Whitespace around a field never matters. */
  lemma NullifyIgnoresPadding(value: string, before: string, after: string)
    requires AllSpace(before) && AllSpace(after)
    ensures Nullify(before + value + after) == Nullify(value)
  {
    var v := Strip(value);
    var i, j :| PaddedAt(value, v, i, j);
    PaddedAtWider(before, value, after, v, i, j);
    StripUnique(before + value + after, v);
  }

  /** `to_int_or_none` (airline_routes.py:20, airports.py:21): `None` for a
      null field, `int()` of the stripped text otherwise; text that is not
      an integer raises, here `Err(BadInteger(text))`. */
  function ToIntOrNone(value: string): (r: Result<Option<int>, LoadError>)
    ensures r == Ok(None) <==> Nullify(value).None?
    ensures r.Err? <==> Nullify(value).Some? && !IntText(Strip(value))
    ensures r.Err? ==> r.error == BadInteger(Strip(value))
    ensures r.Ok? && r.value.Some? ==> ParseInt(Strip(value)) == Some(r.value.value)
  {
    match Nullify(value)
    case None => Ok(None)
    case Some(v) =>
      StripIdempotent(value);
      match ParseInt(v)
      case Some(n) => Ok(Some(n))
      case None => Err(BadInteger(v))
  }

  /** A printed integer, however padded, is read back unchanged. */
  lemma ToIntOrNoneShow(n: int, before: string, after: string)
    requires AllSpace(before) && AllSpace(after)
    ensures ToIntOrNone(before + Show(n) + after) == Ok(Some(n))
  {
    NullifyIgnoresPadding(Show(n), before, after);
    ShowUnpadded(n);
    StripUnpadded(Show(n));
    ParseShow(n);
    StripUnpadded(Show(n));
    assert Show(n)[0] != NullMarker[0];
  }

  /** Digits, however padded, are read as their decimal value: `" 007 "`
      gives 7 and `"1_000"` gives 1000. */
  lemma ToIntOrNoneDigits(value: string)
    requires DigitText(Strip(value))
    ensures ToIntOrNone(value) == Ok(Some(DigitsValue(Strip(value)) as int))
  {
    var t := Strip(value);
    assert t[0] != NullMarker[0];
    ParseIntDigits(t);
  }

  /** A sign in front of the digits: `"+5"` gives 5, `"-5"` gives -5. */
  lemma ToIntOrNoneSigned(value: string, sign: char, d: string)
    requires DigitText(d) && (sign == '+' || sign == '-') && Strip(value) == [sign] + d
    ensures ToIntOrNone(value) == Ok(Some(if sign == '-' then -(DigitsValue(d) as int) else DigitsValue(d) as int))
  {
    var t := Strip(value);
    assert t[0] == sign && t[0] != NullMarker[0] && t != "";
    assert Nullify(value) == Some(t);
    ParseIntSign(d);
    assert t == "+" + d || t == "-" + d;
    assert ParseInt(t) == Some(if sign == '-' then -(DigitsValue(d) as int) else DigitsValue(d) as int);
  }

  /** `nullify_int` (aircraft.py:20): like `ToIntOrNone`, but text that is not
      an integer gives `None` instead of raising. */
  function NullifyInt(value: string): (r: Option<int>)
    ensures Nullify(value).None? ==> r.None?
  {
    match Nullify(value)
    case None => None
    case Some(v) => ParseInt(v)
  }

  /** The two integer coercions agree wherever the strict one succeeds, and
      the strict one fails exactly on non-null text the lenient one maps to
      `None`. */
  lemma IntCoercionsAgree(value: string)
    ensures ToIntOrNone(value).Ok? ==> NullifyInt(value) == ToIntOrNone(value).value
    ensures ToIntOrNone(value).Err? <==> Nullify(value).Some? && NullifyInt(value).None?
  {
    if Nullify(value).Some? {
      StripIdempotent(value);
    }
  }

  /** `to_bool_codeshare` (airline_routes.py:25): true exactly when the
      stripped field is `Y`; empty, the null marker and `y` are all false. */
  function ToBoolCodeshare(value: string): (r: bool)
    ensures r <==> Strip(value) == "Y"
  {
    Nullify(value) == Some("Y")
  }

  /** Python's `float()` on stripped, non-null text; `None` means it raises.
      The decimal/float syntax and rounding are not part of this model, so
      every loader takes the parser as a parameter. */
  type FloatParser = string -> Option<real>

  /** `to_float_or_none` (airports.py:16): raising on bad text. */
  function ToFloatOrNone(floatOf: FloatParser, value: string): (r: Result<Option<real>, LoadError>)
    ensures r == Ok(None) <==> Nullify(value).None?
    ensures r.Err? <==> Nullify(value).Some? && floatOf(Strip(value)).None?
    ensures r.Err? ==> r.error == BadFloat(Strip(value))
  {
    match Nullify(value)
    case None => Ok(None)
    case Some(v) =>
      match floatOf(v)
      case Some(x) => Ok(Some(x))
      case None => Err(BadFloat(v))
  }

  /** `nullify_float` (aircraft.py:30): `None` instead of raising. */
  function NullifyFloat(floatOf: FloatParser, value: string): (r: Option<real>)
    ensures ToFloatOrNone(floatOf, value).Ok? ==> r == ToFloatOrNone(floatOf, value).value
    ensures ToFloatOrNone(floatOf, value).Err? ==> r.None?
  {
    match Nullify(value)
    case None => None
    case Some(v) =>
      assert ToFloatOrNone(floatOf, value) == (match floatOf(v) case Some(x) => Ok(Some(x)) case None => Err(BadFloat(v)));
      floatOf(v)
  }

  /** A PostgreSQL INTEGER column holds 32-bit two's-complement values. */
  const MinInteger: int := -0x8000_0000
  const MaxInteger: int := 0x7FFF_FFFF

  predicate FitsInteger(o: Option<int>) {
    o.None? || MinInteger <= o.value <= MaxInteger
  }
}

=== FILE: highlights.dfy ===
/** `Report.hex_to_argb` and `Report.apply_airline_highlights`: the exported
    workbook's `airline_name` cells of ten named airlines get a solid fill in
    that airline's colour.  The workbook is a grid of cells; reading and
    saving the file are not modelled. */
module Highlights {

  import opened Base
  import opened Text

  // ---------------------------------------------------------------------
  // Colours

  /** `hex_color.lstrip("#").upper()` behind an opaque alpha byte `FF`. */
  function HexToArgb(hex: string): (argb: string)
    ensures |argb| >= 2 && argb[..2] == "FF"
    ensures |argb| - 2 <= |hex|
    ensures forall k :: 2 <= k < |argb| ==> !('a' <= argb[k] <= 'z')
    ensures |argb| > 2 ==> argb[2] != '#'
    ensures var n := |hex| + 2 - |argb|;
      && (forall k :: 0 <= k < n ==> hex[k] == '#')
      && (n == |hex| || hex[n] != '#')
      && (forall k :: 2 <= k < |argb| ==> argb[k] == UpperChar(hex[n + k - 2]))
  {
    var digits := StripLeading(hex, '#');
    var u := Upper(digits);
    UpperIdempotent(digits);
    UpperedTail(hex, digits, u);
    "FF" + u
  }

  /** Prefixing `FF` to the upper-cased tail of `hex` puts each upper-cased
      character two places later. */
  lemma UpperedTail(hex: string, digits: string, u: string)
    requires |digits| <= |hex| && digits == hex[|hex| - |digits|..]
    requires |u| == |digits| && forall k :: 0 <= k < |digits| ==> u[k] == UpperChar(digits[k])
    ensures forall k :: 2 <= k < |u| + 2 ==> ("FF" + u)[k] == UpperChar(hex[|hex| - |digits| + k - 2])
  {
    forall k | 2 <= k < |u| + 2 ensures ("FF" + u)[k] == UpperChar(hex[|hex| - |digits| + k - 2]) {
      assert ("FF" + u)[k] == u[k - 2];
      assert digits[k - 2] == hex[|hex| - |digits| + k - 2];
    }
  }

  predicate LowerHexDigit(c: char) {
    '0' <= c <= '9' || 'a' <= c <= 'f'
  }

  predicate UpperHexDigit(c: char) {
    '0' <= c <= '9' || 'A' <= c <= 'F'
  }

  /** A colour as the palette writes it: `#` and six lower-case hex digits. */
  predicate IsHexColour(s: string) {
    |s| == 7 && s[0] == '#' && forall k :: 1 <= k < 7 ==> LowerHexDigit(s[k])
  }

  /** An opaque ARGB colour as openpyxl expects it. */
  predicate IsArgb(s: string) {
    |s| == 8 && s[..2] == "FF" && forall k :: 2 <= k < 8 ==> UpperHexDigit(s[k])
  }

  function LowerChar(c: char): char {
    if 'A' <= c <= 'Z' then (c as int - 'A' as int + 'a' as int) as char else c
  }

  /** The inverse direction: drop the alpha byte, lower-case, prefix `#`. */
  function ArgbToHex(argb: string): (hex: string)
    requires |argb| >= 2
    ensures |hex| == |argb| - 1 && hex[0] == '#'
    ensures forall k :: 1 <= k < |hex| ==> hex[k] == LowerChar(argb[k + 1])
  {
    "#" + seq(|argb| - 2, k requires 0 <= k < |argb| - 2 => LowerChar(argb[k + 2]))
  }

  /** A palette colour becomes a well-formed ARGB value, and converting it
      back gives the colour again. */
  lemma HexToArgbRoundTrip(hex: string)
    requires IsHexColour(hex)
    ensures IsArgb(HexToArgb(hex))
    ensures ArgbToHex(HexToArgb(hex)) == hex
  {
    var d := hex[1..];
    assert StripLeading(hex, '#') == StripLeading(d, '#');
    assert LowerHexDigit(hex[1]) && d[0] == hex[1];
    assert StripLeading(d, '#') == d;
    var u := Upper(d);
    var argb := HexToArgb(hex);
    assert argb == "FF" + u;
    forall k | 0 <= k < 6 ensures UpperHexDigit(u[k]) && LowerChar(u[k]) == d[k] {
      assert LowerHexDigit(hex[k + 1]);
      assert u[k] == UpperChar(d[k]);
    }
    assert ArgbToHex(argb) == "#" + d;
  }

  /** The ten airlines the workbooks highlight and their colours. */
  const AirlineColors: map<string, string> := map[
    "China Southern Airlines" := "#1f77b4",
    "China Eastern Airlines" := "#ff7f0e",
    "Air China" := "#2ca02c",
    "Shenzhen Airlines" := "#d62728",
    "Turkish Airlines" := "#9467bd",
    "All Nippon Airways" := "#8c564b",
    "Hainan Airlines" := "#e377c2",
    "Sichuan Airlines" := "#7f7f7f",
    "Air India Limited" := "#bcbd22",
    "Xiamen Airlines" := "#17becf"]

  /** Every fill the highlighter writes is a well-formed ARGB colour. */
  lemma PaletteIsArgb(name: string)
    requires name in AirlineColors
    ensures IsArgb(HexToArgb(AirlineColors[name]))
  {
    var c := AirlineColors[name];
    if name == "China Southern Airlines" {
      assert c == "#1f77b4";
    } else if name == "China Eastern Airlines" {
      assert c == "#ff7f0e";
    } else if name == "Air China" {
      assert c == "#2ca02c";
    } else if name == "Shenzhen Airlines" {
      assert c == "#d62728";
    } else if name == "Turkish Airlines" {
      assert c == "#9467bd";
    } else if name == "All Nippon Airways" {
      assert c == "#8c564b";
    } else if name == "Hainan Airlines" {
      assert c == "#e377c2";
    } else if name == "Sichuan Airlines" {
      assert c == "#7f7f7f";
    } else if name == "Air India Limited" {
      assert c == "#bcbd22";
    } else {
      assert c == "#17becf";
    }
    HexToArgbRoundTrip(c);
  }

  // ---------------------------------------------------------------------
  // The workbook

  /** A cell value as the export writes it; NULL becomes an empty cell. */
  datatype Value = Empty | Str(s: string) | Number(n: int)

  /** A cell and its solid fill colour, if any. */
  datatype Cell = Cell(value: Value, fill: Option<string>)

  /** Rows top to bottom, each a row of cells left to right; a cell past the
      end of its row is empty and unfilled. */
  type Sheet = seq<seq<Cell>>

  datatype SheetError = MissingColumn(name: string)

  const AirlineName: string := "airline_name"

  /** The key a header cell contributes to `headers`: its text with the
      blanks around it removed. */
  function Key(v: Value): Option<string> {
    if v.Str? then Some(Strip(v.s)) else None
  }

  /** The column `headers` maps `name` to: later columns overwrite earlier
      ones, so the last header cell naming it. */
  function HeaderColumn(header: seq<Cell>, name: string): (col: Option<nat>)
    ensures col.Some? ==> col.value < |header|
    decreases |header|
  {
    if |header| == 0 then None
    else if Key(header[|header| - 1].value) == Some(name) then Some(|header| - 1)
    else HeaderColumn(header[..|header| - 1], name)
  }

  /** The header keys of a row. */
  function Keys(header: seq<Cell>): (keys: seq<Option<string>>)
    ensures |keys| == |header|
    ensures forall k :: 0 <= k < |header| ==> keys[k] == Key(header[k].value)
  {
    seq(|header|, k requires 0 <= k < |header| => Key(header[k].value))
  }

  /** The last position holding `name`. */
  function LastIndex(keys: seq<Option<string>>, name: string): (col: Option<nat>)
    ensures col.Some? ==> col.value < |keys| && keys[col.value] == Some(name)
    ensures col.Some? ==> forall k :: col.value < k < |keys| ==> keys[k] != Some(name)
    ensures col.None? <==> forall k :: 0 <= k < |keys| ==> keys[k] != Some(name)
    decreases |keys|
  {
    if |keys| == 0 then None
    else if keys[|keys| - 1] == Some(name) then Some(|keys| - 1)
    else LastIndex(keys[..|keys| - 1], name)
  }

  /** The last position holding `name` is the one after which no key is
      `name`. */
  lemma LastIndexAt(keys: seq<Option<string>>, name: string, col: nat)
    requires col < |keys| && keys[col] == Some(name)
    requires forall k :: col < k < |keys| ==> keys[k] != Some(name)
    ensures LastIndex(keys, name) == Some(col)
  {
  }

  lemma {:induction false} HeaderColumnIsLast(header: seq<Cell>, name: string)
    ensures HeaderColumn(header, name) == LastIndex(Keys(header), name)
    decreases |header|
  {
    if |header| > 0 {
      var init := header[..|header| - 1];
      HeaderColumnIsLast(init, name);
      assert Keys(header)[..|header| - 1] == Keys(init);
    }
  }

  /** The header search finds the last header cell whose stripped text is
      `name`, and finds none exactly when no cell names it. */
  lemma HeaderColumnMeaning(header: seq<Cell>, name: string)
    ensures var col := HeaderColumn(header, name);
      && (col.Some? ==> Key(header[col.value].value) == Some(name))
      && (col.Some? ==> forall k :: col.value < k < |header| ==> Key(header[k].value) != Some(name))
      && (col.None? <==> forall k :: 0 <= k < |header| ==> Key(header[k].value) != Some(name))
  {
    HeaderColumnIsLast(header, name);
  }

  /** A data cell gets a fill when it holds exactly one of the ten names. */
  predicate Highlighted(v: Value) {
    v.Str? && v.s in AirlineColors
  }

  function FillCell(c: Cell): Cell {
    if Highlighted(c.value) then Cell(c.value, Some(HexToArgb(AirlineColors[c.value.s]))) else c
  }

  /** The row with its cell in column `col` filled; values are kept. */
  function FillRow(row: seq<Cell>, col: nat): (out: seq<Cell>)
    ensures |out| == |row|
    ensures forall j :: 0 <= j < |row| ==> out[j].value == row[j].value
  {
    if col < |row| then row[col := FillCell(row[col])] else row
  }

  /** `apply_airline_highlights` on the active sheet: a `KeyError` when row 1
      names no `airline_name` column; otherwise the data rows' cells in that
      column are filled, and nothing else changes. */
  function Highlight(sheet: Sheet): (r: Result<Sheet, SheetError>)
    ensures r.Err? <==> |sheet| == 0 || HeaderColumn(sheet[0], AirlineName).None?
    ensures r.Ok? ==> |r.value| == |sheet| && r.value[0] == sheet[0]
    ensures r.Ok? ==> forall i :: 0 <= i < |sheet| ==> |r.value[i]| == |sheet[i]|
    ensures r.Ok? ==> forall i, j :: 0 <= i < |sheet| && 0 <= j < |sheet[i]| ==> r.value[i][j].value == sheet[i][j].value
  {
    if |sheet| == 0 then Err(MissingColumn(AirlineName))
    else match HeaderColumn(sheet[0], AirlineName)
      case None => Err(MissingColumn(AirlineName))
      case Some(col) =>
        var out := seq(|sheet|, i requires 0 <= i < |sheet| => if i == 0 then sheet[0] else FillRow(sheet[i], col));
        assert forall i :: 0 <= i < |sheet| ==> |out[i]| == |sheet[i]|;
        Ok(out)
  }

  /** Which fills change: a data-row cell in the `airline_name` column
      holding one of the ten names gets that airline's colour, a well-formed
      ARGB value; every other cell keeps its fill. */
  lemma HighlightFills(sheet: Sheet, i: int, j: int)
    requires Highlight(sheet).Ok? && 0 <= i < |sheet| && 0 <= j < |sheet[i]|
    ensures var out := Highlight(sheet).value;
      if 1 <= i && HeaderColumn(sheet[0], AirlineName) == Some(j) && Highlighted(sheet[i][j].value)
      then out[i][j].fill == Some(HexToArgb(AirlineColors[sheet[i][j].value.s]))
      else out[i][j].fill == sheet[i][j].fill
    ensures Highlighted(sheet[i][j].value) ==> IsArgb(HexToArgb(AirlineColors[sheet[i][j].value.s]))
  {
    var col := HeaderColumn(sheet[0], AirlineName).value;
    if i > 0 {
      assert Highlight(sheet).value[i] == FillRow(sheet[i], col);
    }
    if Highlighted(sheet[i][j].value) {
      PaletteIsArgb(sheet[i][j].value.s);
    }
  }

  /** Highlighting an already highlighted sheet changes nothing. */
  lemma HighlightIdempotent(sheet: Sheet)
    requires Highlight(sheet).Ok?
    ensures Highlight(Highlight(sheet).value) == Highlight(sheet)
  {
    var out := Highlight(sheet).value;
    var col := HeaderColumn(sheet[0], AirlineName).value;
    assert out[0] == sheet[0];
    forall i | 0 < i < |out| ensures FillRow(out[i], col) == out[i] {
      assert out[i] == FillRow(sheet[i], col);
    }
    assert Highlight(out).value == out;
  }

  // ---------------------------------------------------------------------
  // The exported workbooks

  /** `df.to_excel(path, index=False)`: a header row of the column names,
      then one row per result row, all unfilled. */
  function Export(columns: seq<string>, rows: seq<seq<Value>>): (sheet: Sheet)
    ensures |sheet| == |rows| + 1 && |sheet[0]| == |columns|
    ensures forall i :: 0 <= i < |rows| ==> |sheet[i + 1]| == |rows[i]|
    ensures forall k :: 0 <= k < |columns| ==> sheet[0][k] == Cell(Str(columns[k]), None)
    ensures forall i, j :: 0 <= i < |rows| && 0 <= j < |rows[i]| ==> sheet[i + 1][j] == Cell(rows[i][j], None)
  {
    [seq(|columns|, k requires 0 <= k < |columns| => Cell(Str(columns[k]), None))]
      + seq(|rows|, i requires 0 <= i < |rows| => seq(|rows[i]|, j requires 0 <= j < |rows[i]| => Cell(rows[i][j], None)))
  }

  /** The result columns of `get_airlines_using_top10_airports`. */
  const TopAirportColumns: seq<string> := [
    "airport_id", "airport_iata", "airport_name", "total_in_out", "airline_id",
    AirlineName, "airline_iata", "airline_icao", "route_records_touching_airport"]

  /** The result columns of `get_airlines_unique_airport_counts`. */
  const UniqueAirportColumns: seq<string> := [
    "airline_id", AirlineName, "airline_iata", "airline_icao", "unique_airports_touched"]

  /** The header keys of an export whose column names carry no blanks at
      their ends are the names themselves. */
  lemma ExportKeys(columns: seq<string>, rows: seq<seq<Value>>)
    requires forall k :: 0 <= k < |columns| ==> Unpadded(columns[k])
    ensures Keys(Export(columns, rows)[0]) == seq(|columns|, k requires 0 <= k < |columns| => Some(columns[k]))
  {
    forall k | 0 <= k < |columns| ensures Strip(columns[k]) == columns[k] {
      StripUnpadded(columns[k]);
    }
  }

  /** An export highlights the last column named `airline_name`. */
  lemma ExportHighlights(columns: seq<string>, rows: seq<seq<Value>>, col: nat)
    requires forall k :: 0 <= k < |columns| ==> Unpadded(columns[k])
    requires col < |columns| && columns[col] == AirlineName
    requires forall k :: col < k < |columns| ==> columns[k] != AirlineName
    ensures HeaderColumn(Export(columns, rows)[0], AirlineName) == Some(col)
    ensures Highlight(Export(columns, rows)).Ok?
  {
    var header := Export(columns, rows)[0];
    ExportKeys(columns, rows);
    HeaderColumnIsLast(header, AirlineName);
    LastIndexAt(Keys(header), AirlineName, col);
  }

  /** The result columns of the top-ten report carry no blanks, and
      `airline_name` is the sixth and appears once. */
  lemma TopAirportColumnsShape()
    ensures forall k :: 0 <= k < |TopAirportColumns| ==> Unpadded(TopAirportColumns[k])
    ensures TopAirportColumns[5] == AirlineName
    ensures forall k :: 5 < k < |TopAirportColumns| ==> TopAirportColumns[k] != AirlineName
  {
  }

  /** The result columns of the unique-airports report carry no blanks, and
      `airline_name` is the second and appears once. */
  lemma UniqueAirportColumnsShape()
    ensures forall k :: 0 <= k < |UniqueAirportColumns| ==> Unpadded(UniqueAirportColumns[k])
    ensures UniqueAirportColumns[1] == AirlineName
    ensures forall k :: 1 < k < |UniqueAirportColumns| ==> UniqueAirportColumns[k] != AirlineName
  {
  }

  /** The top-ten workbook has the column, so highlighting it never raises
      and colours the sixth column. */
  lemma TopAirportsHighlight(rows: seq<seq<Value>>)
    ensures Highlight(Export(TopAirportColumns, rows)).Ok?
    ensures HeaderColumn(Export(TopAirportColumns, rows)[0], AirlineName) == Some(5)
  {
    TopAirportColumnsShape();
    ExportHighlights(TopAirportColumns, rows, 5);
  }

  /** The unique-airports workbook has the column, so highlighting it never
      raises and colours the second column. */
  lemma UniqueAirportsHighlight(rows: seq<seq<Value>>)
    ensures Highlight(Export(UniqueAirportColumns, rows)).Ok?
    ensures HeaderColumn(Export(UniqueAirportColumns, rows)[0], AirlineName) == Some(1)
  {
    UniqueAirportColumnsShape();
    ExportHighlights(UniqueAirportColumns, rows, 1);
  }
}

=== FILE: loader.dfy ===
/** The record loop every OpenFlights loader shares: records arrive as the
    CSV reader produces them and are numbered from 1; an empty record is
    skipped; every other record is handed to the loader's own conversion,
    which keeps a row, drops the record, or aborts the whole load. */
module Loader {

  import opened Base

  /** One record as Python's `csv.reader` yields it. */
  type Record = seq<string>

  /** What a loader's conversion does with one non-empty record. */
  datatype Step<T> =
    | Keep(value: T)           // append a row
    | Skip                     // `continue`: e.g. a null key
    | WrongArity               // the field-count check raises
    | Fail(error: LoadError)   // a coercion raises

  /** `if not row: continue` */
  predicate Blank(rec: Record) {
    |rec| == 0
  }

  predicate Accepted<T>(s: Step<T>) {
    s.Keep? || s.Skip?
  }

  /** The exception a rejected record raises; `line` is its 1-based number. */
  function Rejection<T>(line: nat, rec: Record, s: Step<T>): LoadError
    requires !Accepted(s)
  {
    if s.WrongArity? then FieldCount(line, |rec|) else s.error
  }

  /** Every non-empty record from index `i` on is accepted. */
  ghost predicate AcceptedFrom<T>(records: seq<Record>, convert: Record -> Step<T>, i: nat) {
    forall j :: i <= j < |records| && !Blank(records[j]) ==> Accepted(convert(records[j]))
  }

  /** Record `j` is the first non-empty record at or after `i` that is rejected. */
  ghost predicate FirstRejected<T>(records: seq<Record>, convert: Record -> Step<T>, i: nat, j: nat) {
    && i <= j < |records|
    && !Blank(records[j])
    && !Accepted(convert(records[j]))
    && forall k :: i <= k < j && !Blank(records[k]) ==> Accepted(convert(records[k]))
  }

  /** The rows the kept records produce, in record order. */
  function Kept<T>(records: seq<Record>, convert: Record -> Step<T>): seq<T> {
    if |records| == 0 then []
    else
      var s := convert(records[0]);
      (if !Blank(records[0]) && s.Keep? then [s.value] else []) + Kept(records[1..], convert)
  }

  /** The non-empty records, in order. */
  function NonBlank(records: seq<Record>): seq<Record> {
    if |records| == 0 then []
    else (if Blank(records[0]) then [] else [records[0]]) + NonBlank(records[1..])
  }

  /** The loop of the loaders from record `i` on (`for line_num, row in
      enumerate(reader, start=1)`). */
  function LoadFrom<T>(records: seq<Record>, convert: Record -> Step<T>, i: nat): Result<seq<T>, LoadError>
    requires i <= |records|
    decreases |records| - i
  {
    if i == |records| then Ok([])
    else if Blank(records[i]) then LoadFrom(records, convert, i + 1)
    else
      var s := convert(records[i]);
      if !Accepted(s) then Err(Rejection(i + 1, records[i], s))
      else
        var rest := LoadFrom(records, convert, i + 1);
        if rest.Err? || s.Skip? then rest
        else Ok([s.value] + rest.value)
  }

  /** The loop succeeds exactly when every non-empty record is accepted, and
      then its rows are those of the kept records, in order. */
  lemma {:induction false} LoadFromOk<T>(records: seq<Record>, convert: Record -> Step<T>, i: nat)
    requires i <= |records|
    ensures LoadFrom(records, convert, i).Ok? <==> AcceptedFrom(records, convert, i)
    ensures LoadFrom(records, convert, i).Ok? ==> LoadFrom(records, convert, i).value == Kept(records[i..], convert)
    decreases |records| - i
  {
    if i < |records| {
      assert records[i..][1..] == records[i + 1..];
      assert records[i..][0] == records[i];
      LoadFromOk(records, convert, i + 1);
    }
  }

  /** A failed loop reports the exception of the first rejected record. */
  lemma {:induction false} LoadFromErr<T>(records: seq<Record>, convert: Record -> Step<T>, i: nat)
    requires i <= |records|
    ensures LoadFrom(records, convert, i).Err? ==>
      exists j: nat :: FirstRejected(records, convert, i, j) &&
        LoadFrom(records, convert, i).error == Rejection(j + 1, records[j], convert(records[j]))
    decreases |records| - i
  {
    if i < |records| && LoadFrom(records, convert, i).Err? {
      var s := convert(records[i]);
      if !Blank(records[i]) && !Accepted(s) {
        assert FirstRejected(records, convert, i, i);
      } else {
        LoadFromErr(records, convert, i + 1);
        var j: nat :| FirstRejected(records, convert, i + 1, j) &&
          LoadFrom(records, convert, i + 1).error == Rejection(j + 1, records[j], convert(records[j]));
        assert FirstRejected(records, convert, i, j);
      }
    }
  }

  /** For a conversion whose own errors are never field-count errors, a
      field-count error names the first rejected record: a non-empty record
      the conversion finds of the wrong arity, every earlier one accepted. */
  lemma LoadFieldCount<T>(records: seq<Record>, convert: Record -> Step<T>, arity: nat)
    requires forall rec :: convert(rec).Fail? ==> !convert(rec).error.FieldCount?
    requires forall rec :: convert(rec).WrongArity? ==> |rec| != arity
    ensures Load(records, convert).Err? && Load(records, convert).error.FieldCount? ==>
      var line := Load(records, convert).error.line;
      && 1 <= line <= |records|
      && Load(records, convert).error.got == |records[line - 1]|
      && !Blank(records[line - 1]) && convert(records[line - 1]).WrongArity?
      && |records[line - 1]| != arity
      && forall k :: 0 <= k < line - 1 && !Blank(records[k]) ==> Accepted(convert(records[k]))
  {
    LoadFromErr(records, convert, 0);
    if Load(records, convert).Err? && Load(records, convert).error.FieldCount? {
      var j: nat :| FirstRejected(records, convert, 0, j) &&
        Load(records, convert).error == Rejection(j + 1, records[j], convert(records[j]));
      assert convert(records[j]).WrongArity?;
    }
  }

  /** The same, stated without the conversion for a load result `r`: the
      line and field count of a record of the wrong length. */
  lemma LoadFieldCountArity<T>(records: seq<Record>, convert: Record -> Step<T>, arity: nat, r: Result<seq<T>, LoadError>)
    requires r == Load(records, convert)
    requires forall rec :: convert(rec).Fail? ==> !convert(rec).error.FieldCount?
    requires forall rec :: convert(rec).WrongArity? ==> |rec| != arity
    ensures r.Err? && r.error.FieldCount? ==>
      && 1 <= r.error.line <= |records|
      && r.error.got == |records[r.error.line - 1]|
      && |records[r.error.line - 1]| != 0 && |records[r.error.line - 1]| != arity
  {
    LoadFieldCount(records, convert, arity);
  }

  /** A whole load. */
  function Load<T>(records: seq<Record>, convert: Record -> Step<T>): Result<seq<T>, LoadError> {
    LoadFrom(records, convert, 0)
  }

  /** A loader whose conversion never drops a record produces one row per
      non-empty record, in order. */
  lemma {:induction false} KeptOnePerRecord<T>(records: seq<Record>, convert: Record -> Step<T>)
    requires forall j :: 0 <= j < |records| && !Blank(records[j]) ==> convert(records[j]).Keep?
    ensures |Kept(records, convert)| == |NonBlank(records)|
    ensures forall k :: 0 <= k < |NonBlank(records)| ==>
      convert(NonBlank(records)[k]) == Keep(Kept(records, convert)[k])
  {
    if |records| > 0 {
      assert forall j :: 0 <= j < |records| - 1 ==> records[1..][j] == records[j + 1];
      KeptOnePerRecord(records[1..], convert);
    }
  }

  /** Every row comes from some non-empty record, and every kept record's
      row is there. */
  lemma {:induction false} KeptMembers<T>(records: seq<Record>, convert: Record -> Step<T>, v: T)
    ensures v in Kept(records, convert) <==>
      exists j :: 0 <= j < |records| && !Blank(records[j]) && convert(records[j]) == Keep(v)
  {
    if |records| > 0 {
      KeptMembers(records[1..], convert, v);
      if exists j :: 0 <= j < |records| && !Blank(records[j]) && convert(records[j]) == Keep(v) {
        var j :| 0 <= j < |records| && !Blank(records[j]) && convert(records[j]) == Keep(v);
        if j > 0 {
          assert records[1..][j - 1] == records[j];
        }
      }
      if v in Kept(records[1..], convert) {
        var j :| 0 <= j < |records| - 1 && !Blank(records[1..][j]) && convert(records[1..][j]) == Keep(v);
        assert records[j + 1] == records[1..][j];
      }
    }
  }
}

=== FILE: route_query.dfy ===
/** The conditions the aggregate SQL statements put on `airline_routes`
    (`WHERE`, `FILTER (WHERE …)`, `GROUP BY` keys) and `COUNT(*)` over them.
    A condition holds of a row only when SQL evaluates it to TRUE: a NULL
    flag or id satisfies neither `= TRUE` nor `= FALSE` nor `= id`. */
module RouteQuery {

  import opened Base
  import opened Routes

  datatype Cond =
    | SourceAsia(b: bool)           // source_in_asia = b
    | DestAsia(b: bool)             // dest_in_asia = b
    | SourceIs(airport: int)        // source_airport_id = airport
    | DestIs(airport: int)          // dest_airport_id = airport
    | AirlineIs(id: Option<int>)    // member of the airline_id group (NULLs group together)
    | CodeIs(code: Option<string>)  // member of the airline_code group
    | And(left: Cond, right: Cond)
    | Or(left: Cond, right: Cond)

  predicate Holds(c: Cond, r: StoredRoute) {
    match c
    case SourceAsia(b) => r.sourceInAsia == Some(b)
    case DestAsia(b) => r.destInAsia == Some(b)
    case SourceIs(a) => r.route.sourceId == Some(a)
    case DestIs(a) => r.route.destId == Some(a)
    case AirlineIs(id) => r.route.airlineId == id
    case CodeIs(code) => r.route.airlineCode == code
    case And(x, y) => Holds(x, r) && Holds(y, r)
    case Or(x, y) => Holds(x, r) || Holds(y, r)
  }

  /** The rows a condition selects, as a set of positions. */
  ghost function Selected(routes: seq<StoredRoute>, c: Cond): set<int> {
    set i | 0 <= i < |routes| && Holds(c, routes[i])
  }

  /** `COUNT(*) FILTER (WHERE c)`: the number of rows for which `c` is TRUE. */
  function Count(routes: seq<StoredRoute>, c: Cond): (n: nat)
    ensures n <= |routes|
    ensures n == |Selected(routes, c)|
    decreases |routes|
  {
    if |routes| == 0 then 0
    else
      var init := routes[..|routes| - 1];
      var last := |routes| - 1;
      assert Selected(routes, c) == Selected(init, c) + (if Holds(c, routes[last]) then {last} else {}) by {
        assert forall i :: 0 <= i < last ==> routes[i] == init[i];
      }
      Count(init, c) + (if Holds(c, routes[last]) then 1 else 0)
  }

  /** A one-row table counts its row when the condition holds for it. */
  lemma CountOne(r: StoredRoute, c: Cond)
    ensures Count([r], c) == if Holds(c, r) then 1 else 0
  {
    assert [r][..0] == [];
  }

  /** Counting the concatenation of two tables. */
  lemma {:induction false} CountAppend(a: seq<StoredRoute>, b: seq<StoredRoute>, c: Cond)
    ensures Count(a + b, c) == Count(a, c) + Count(b, c)
    decreases |b|
  {
    if |b| > 0 {
      assert (a + b)[..|a + b| - 1] == a + b[..|b| - 1];
      CountAppend(a, b[..|b| - 1], c);
    } else {
      assert a + b == a;
    }
  }

  /** Inclusion–exclusion: `COUNT(a OR b) + COUNT(a AND b) = COUNT(a) + COUNT(b)`. */
  lemma {:induction false} CountInclusionExclusion(routes: seq<StoredRoute>, a: Cond, b: Cond)
    ensures Count(routes, Or(a, b)) + Count(routes, And(a, b)) == Count(routes, a) + Count(routes, b)
    decreases |routes|
  {
    if |routes| > 0 {
      CountInclusionExclusion(routes[..|routes| - 1], a, b);
    }
  }

  /** A stronger condition selects no more rows. */
  lemma {:induction false} CountMonotone(routes: seq<StoredRoute>, a: Cond, b: Cond)
    requires forall i :: 0 <= i < |routes| && Holds(a, routes[i]) ==> Holds(b, routes[i])
    ensures Count(routes, a) <= Count(routes, b)
    decreases |routes|
  {
    if |routes| > 0 {
      CountMonotone(routes[..|routes| - 1], a, b);
    }
  }

  /** Conditions that agree on every row count the same. */
  lemma CountSame(routes: seq<StoredRoute>, a: Cond, b: Cond)
    requires forall i :: 0 <= i < |routes| ==> (Holds(a, routes[i]) <==> Holds(b, routes[i]))
    ensures Count(routes, a) == Count(routes, b)
  {
    CountMonotone(routes, a, b);
    CountMonotone(routes, b, a);
  }

  /** Conditions that never hold together add up. */
  lemma CountDisjoint(routes: seq<StoredRoute>, a: Cond, b: Cond)
    requires forall i :: 0 <= i < |routes| ==> !(Holds(a, routes[i]) && Holds(b, routes[i]))
    ensures Count(routes, Or(a, b)) == Count(routes, a) + Count(routes, b)
  {
    CountInclusionExclusion(routes, a, b);
    assert Selected(routes, And(a, b)) == {};
  }

  /** A condition no row satisfies counts zero. */
  lemma CountNone(routes: seq<StoredRoute>, c: Cond)
    requires forall i :: 0 <= i < |routes| ==> !Holds(c, routes[i])
    ensures Count(routes, c) == 0
  {
    assert Selected(routes, c) == {};
  }

  /** A count is positive exactly when some row satisfies the condition. */
  lemma CountPositive(routes: seq<StoredRoute>, c: Cond)
    ensures Count(routes, c) > 0 <==> exists i :: 0 <= i < |routes| && Holds(c, routes[i])
  {
    if exists i :: 0 <= i < |routes| && Holds(c, routes[i]) {
      var i :| 0 <= i < |routes| && Holds(c, routes[i]);
      assert i in Selected(routes, c);
    } else {
      assert Selected(routes, c) == {};
    }
  }
}

=== FILE: routes.dfy ===
/** `AirlineRoutes.load_routes_to_db`: OpenFlights `routes.dat` records
    become 9-field route rows, inserted into `airline_routes` with
    `ON CONFLICT ON CONSTRAINT airline_routes_uk DO NOTHING`. */
module Routes {

  import opened Base
  import opened Text
  import opened Fields
  import opened Loader

  /** One row of `airline_routes` as the loader builds it (the nine columns
      of the natural key, in file order). */
  datatype Route = Route(
    airlineCode: Option<string>,
    airlineId: Option<int>,
    sourceCode: Option<string>,
    sourceId: Option<int>,
    destCode: Option<string>,
    destId: Option<int>,
    codeshare: bool,
    stops: Option<int>,
    equipment: Option<string>)

  /** A stored route: its row plus the two flags `map_asia_flags` adds
      (NULL until that job has run over the row). */
  datatype StoredRoute = StoredRoute(route: Route, sourceInAsia: Option<bool>, destInAsia: Option<bool>)

  const RouteFields: nat := 9

  /** The field conversions of one 9-field record, evaluated left to right;
      the first integer field that is not an integer raises. */
  function RouteOf(rec: Record): Result<Route, LoadError>
    requires |rec| == RouteFields
  {
    var airlineId :- ToIntOrNone(rec[1]);
    var sourceId :- ToIntOrNone(rec[3]);
    var destId :- ToIntOrNone(rec[5]);
    var stops :- ToIntOrNone(rec[7]);
    Ok(Route(Nullify(rec[0]), airlineId, Nullify(rec[2]), sourceId, Nullify(rec[4]), destId,
             ToBoolCodeshare(rec[6]), stops, Nullify(rec[8])))
  }

  /** The loop body: field-count check, then the conversions. */
  function ConvertRoute(rec: Record): Step<Route> {
    if |rec| != RouteFields then WrongArity
    else match RouteOf(rec)
      case Ok(r) => Keep(r)
      case Err(e) => Fail(e)
  }

  function LoadRoutes(records: seq<Record>): Result<seq<Route>, LoadError> {
    Load(records, ConvertRoute)
  }

  /** The four integer columns of a record are null or integer text. */
  predicate IntegerFieldsOk(rec: Record)
    requires |rec| == RouteFields
  {
    ToIntOrNone(rec[1]).Ok? && ToIntOrNone(rec[3]).Ok? && ToIntOrNone(rec[5]).Ok? && ToIntOrNone(rec[7]).Ok?
  }

  /** The route a well-formed record denotes, column by column. */
  predicate Denotes(rec: Record, r: Route)
    requires |rec| == RouteFields && IntegerFieldsOk(rec)
  {
    && r.airlineCode == Nullify(rec[0])
    && r.airlineId == ToIntOrNone(rec[1]).value
    && r.sourceCode == Nullify(rec[2])
    && r.sourceId == ToIntOrNone(rec[3]).value
    && r.destCode == Nullify(rec[4])
    && r.destId == ToIntOrNone(rec[5]).value
    && r.codeshare == ToBoolCodeshare(rec[6])
    && r.stops == ToIntOrNone(rec[7]).value
    && r.equipment == Nullify(rec[8])
  }

  lemma ConvertRouteMeaning(rec: Record)
    ensures Accepted(ConvertRoute(rec)) <==> |rec| == RouteFields && IntegerFieldsOk(rec)
    ensures Accepted(ConvertRoute(rec)) ==> ConvertRoute(rec).Keep? && Denotes(rec, ConvertRoute(rec).value)
  {
  }

  /** The routes load succeeds exactly when every non-empty record has nine
      fields whose integer columns parse; it then yields one route per
      non-empty record, in order, each denoted by its record. */
  lemma LoadRoutesOk(records: seq<Record>)
    ensures LoadRoutes(records).Ok? <==>
      forall j :: 0 <= j < |records| && !Blank(records[j]) ==> |records[j]| == RouteFields && IntegerFieldsOk(records[j])
    ensures LoadRoutes(records).Ok? ==>
      var rows := LoadRoutes(records).value;
      var nb := NonBlank(records);
      |rows| == |nb| &&
      forall k :: 0 <= k < |nb| ==> |nb[k]| == RouteFields && IntegerFieldsOk(nb[k]) && Denotes(nb[k], rows[k])
  {
    LoadFromOk(records, ConvertRoute, 0);
    forall j | 0 <= j < |records| {
      ConvertRouteMeaning(records[j]);
    }
    if LoadRoutes(records).Ok? {
      assert records[0..] == records;
      KeptOnePerRecord(records, ConvertRoute);
      forall k | 0 <= k < |NonBlank(records)| {
        ConvertRouteMeaning(NonBlank(records)[k]);
      }
    }
  }

  /** A field-count error names the first offending record: it is non-empty,
      it does not have nine fields, and every earlier record loaded. */
  lemma LoadRoutesFieldCount(records: seq<Record>)
    ensures LoadRoutes(records).Err? && LoadRoutes(records).error.FieldCount? ==>
      var line := LoadRoutes(records).error.line;
      && 1 <= line <= |records|
      && LoadRoutes(records).error.got == |records[line - 1]|
      && |records[line - 1]| != 0 && |records[line - 1]| != RouteFields
      && forall k :: 0 <= k < line - 1 && !Blank(records[k]) ==> Accepted(ConvertRoute(records[k]))
  {
    forall rec | ConvertRoute(rec).Fail? ensures !ConvertRoute(rec).error.FieldCount? {
      RouteOfError(rec);
    }
    LoadFieldCount(records, ConvertRoute, RouteFields);
  }

  /** The conversions raise only `int()`'s error. */
  lemma RouteOfError(rec: Record)
    ensures ConvertRoute(rec).Fail? ==> ConvertRoute(rec).error.BadInteger?
  {
    if |rec| == RouteFields && RouteOf(rec).Err? {
      var e := RouteOf(rec).error;
      if ToIntOrNone(rec[1]).Err? {
        assert e == ToIntOrNone(rec[1]).error;
      } else if ToIntOrNone(rec[3]).Err? {
        assert e == ToIntOrNone(rec[3]).error;
      } else if ToIntOrNone(rec[5]).Err? {
        assert e == ToIntOrNone(rec[5]).error;
      } else {
        assert e == ToIntOrNone(rec[7]).error;
      }
    }
  }

  // ---------------------------------------------------------------------
  // INSERT … ON CONFLICT ON CONSTRAINT airline_routes_uk DO NOTHING

  /** How the unique constraint treats NULL.  PostgreSQL's default (and the
      constraint as declared) is `NullsDistinct`: a NULL never equals
      anything, so a key with a NULL column never conflicts. */
  datatype NullsMode = NullsDistinct | NullsNotDistinct

  /** No column of the natural key is NULL (`codeshare` never is). */
  predicate KeyComplete(r: Route) {
    r.airlineCode.Some? && r.airlineId.Some? && r.sourceCode.Some? && r.sourceId.Some? &&
    r.destCode.Some? && r.destId.Some? && r.stops.Some? && r.equipment.Some?
  }

  /** Would inserting `r` violate the unique constraint because of `s`? */
  predicate Conflicts(mode: NullsMode, r: Route, s: Route) {
    r == s && (mode == NullsNotDistinct || KeyComplete(r))
  }

  predicate Present(mode: NullsMode, table: seq<StoredRoute>, r: Route) {
    exists i :: 0 <= i < |table| && Conflicts(mode, r, table[i].route)
  }

  /** The rows inserted one after another; a conflicting row is ignored, any
      other is appended with both flags NULL. */
  function InsertRoutes(mode: NullsMode, table: seq<StoredRoute>, rows: seq<Route>): (t: seq<StoredRoute>)
    ensures |table| <= |t| <= |table| + |rows|
    ensures t[..|table|] == table
    ensures forall i :: |table| <= i < |t| ==> t[i].route in rows && t[i].sourceInAsia.None? && t[i].destInAsia.None?
    decreases |rows|
  {
    if |rows| == 0 then table
    else
      var r := rows[0];
      var t := if Present(mode, table, r) then table else table + [StoredRoute(r, None, None)];
      var u := InsertRoutes(mode, t, rows[1..]);
      assert u[..|table|] == u[..|t|][..|table|];
      u
  }

  /** No two stored rows violate the constraint. */
  predicate Unique(mode: NullsMode, table: seq<StoredRoute>) {
    forall a, b :: 0 <= a < b < |table| ==> !Conflicts(mode, table[b].route, table[a].route)
  }

  /** The insert keeps the constraint. */
  lemma {:induction false} InsertRoutesUnique(mode: NullsMode, table: seq<StoredRoute>, rows: seq<Route>)
    requires Unique(mode, table)
    ensures Unique(mode, InsertRoutes(mode, table, rows))
    decreases |rows|
  {
    if |rows| > 0 {
      var r := rows[0];
      if !Present(mode, table, r) {
        var t := table + [StoredRoute(r, None, None)];
        forall a, b | 0 <= a < b < |t| ensures !Conflicts(mode, t[b].route, t[a].route) {
          if b == |table| {
            assert t[a] == table[a];
          }
        }
        InsertRoutesUnique(mode, t, rows[1..]);
      } else {
        InsertRoutesUnique(mode, table, rows[1..]);
      }
    }
  }

  /** A row already present leaves the table unchanged. */
  lemma InsertPresent(mode: NullsMode, table: seq<StoredRoute>, r: Route)
    requires Present(mode, table, r)
    ensures InsertRoutes(mode, table, [r]) == table
  {
  }

  /** A row with a NULL key column is always appended under the declared
      constraint, even when an identical row is stored. */
  lemma InsertIncompleteAppends(table: seq<StoredRoute>, r: Route)
    requires !KeyComplete(r)
    ensures InsertRoutes(NullsDistinct, table, [r]) == table + [StoredRoute(r, None, None)]
  {
    assert !Present(NullsDistinct, table, r);
  }

  lemma PresentGrows(mode: NullsMode, table: seq<StoredRoute>, rows: seq<Route>, r: Route)
    requires Present(mode, table, r)
    ensures Present(mode, InsertRoutes(mode, table, rows), r)
  {
    var i :| 0 <= i < |table| && Conflicts(mode, r, table[i].route);
    assert InsertRoutes(mode, table, rows)[..|table|][i] == table[i];
  }

  /** After the insert every row that conflicts with itself is present. */
  lemma {:induction false} InsertRoutesCovers(mode: NullsMode, table: seq<StoredRoute>, rows: seq<Route>, r: Route)
    requires r in rows && Conflicts(mode, r, r)
    ensures Present(mode, InsertRoutes(mode, table, rows), r)
    decreases |rows|
  {
    var r0 := rows[0];
    var t := if Present(mode, table, r0) then table else table + [StoredRoute(r0, None, None)];
    if r == r0 {
      if !Present(mode, table, r0) {
        assert Conflicts(mode, r, t[|table|].route);
      }
      PresentGrows(mode, t, rows[1..], r);
    } else {
      InsertRoutesCovers(mode, t, rows[1..], r);
    }
  }

  /** Inserting rows that are all present changes nothing. */
  lemma {:induction false} InsertAllPresent(mode: NullsMode, table: seq<StoredRoute>, rows: seq<Route>)
    requires forall r :: r in rows ==> Present(mode, table, r)
    ensures InsertRoutes(mode, table, rows) == table
    decreases |rows|
  {
    if |rows| > 0 {
      InsertAllPresent(mode, table, rows[1..]);
    }
  }

  /** Re-running the insert with the same rows is a no-op as long as every
      row can conflict with its own copy. */
  lemma InsertRoutesIdempotent(mode: NullsMode, table: seq<StoredRoute>, rows: seq<Route>)
    requires forall r :: r in rows ==> Conflicts(mode, r, r)
    ensures InsertRoutes(mode, InsertRoutes(mode, table, rows), rows) == InsertRoutes(mode, table, rows)
  {
    var t := InsertRoutes(mode, table, rows);
    forall r | r in rows ensures Present(mode, t, r) {
      InsertRoutesCovers(mode, table, rows, r);
    }
    InsertAllPresent(mode, t, rows);
  }

  /** With `NULLS NOT DISTINCT` the insert is idempotent for every batch. */
  lemma InsertIdempotentNullsNotDistinct(table: seq<StoredRoute>, rows: seq<Route>)
    ensures InsertRoutes(NullsNotDistinct, InsertRoutes(NullsNotDistinct, table, rows), rows) ==
            InsertRoutes(NullsNotDistinct, table, rows)
  {
    InsertRoutesIdempotent(NullsNotDistinct, table, rows);
  }

  /** Under the constraint as declared, loading the same file twice stores a
      route whose airline id is `\N` twice. */
  lemma ReloadDuplicatesNullKey()
    ensures var r := Route(Some("AA"), None, Some("JFK"), Some(3797), Some("LAX"), Some(3484), false, Some(0), Some("321"));
      var once := InsertRoutes(NullsDistinct, [], [r]);
      |once| == 1 && |InsertRoutes(NullsDistinct, once, [r])| == 2
  {
    var r := Route(Some("AA"), None, Some("JFK"), Some(3797), Some("LAX"), Some(3484), false, Some(0), Some("321"));
    InsertIncompleteAppends([], r);
    InsertIncompleteAppends([StoredRoute(r, None, None)], r);
  }

  /** The INTEGER columns of a row fit 32 bits. */
  predicate RouteFits(r: Route) {
    FitsInteger(r.airlineId) && FitsInteger(r.sourceId) && FitsInteger(r.destId) && FitsInteger(r.stops)
  }

  /** The database step of the loader: the batch is rejected (and the
      transaction rolled back) when a value does not fit its INTEGER column;
      otherwise rows are inserted under the declared constraint.  An empty
      batch never reaches the database. */
  function StoreRoutes(table: seq<StoredRoute>, rows: seq<Route>): (r: Result<seq<StoredRoute>, StoreError>)
    ensures r.Err? <==> exists i :: 0 <= i < |rows| && !RouteFits(rows[i])
    ensures r.Err? ==> r.error == IntegerOutOfRange
    ensures r.Ok? ==> r.value == InsertRoutes(NullsDistinct, table, rows)
    ensures r.Ok? ==> |table| <= |r.value| && r.value[..|table|] == table
  {
    if exists i :: 0 <= i < |rows| && !RouteFits(rows[i]) then Err(IntegerOutOfRange)
    else Ok(InsertRoutes(NullsDistinct, table, rows))
  }

  /** After a successful store every row with a complete key is in the
      table, and every row the store added is one of the batch's rows with
      both Asia flags NULL. */
  lemma StoreRoutesCovers(table: seq<StoredRoute>, rows: seq<Route>, x: Route)
    requires StoreRoutes(table, rows).Ok?
    ensures x in rows && KeyComplete(x) ==> Present(NullsDistinct, StoreRoutes(table, rows).value, x)
    ensures var t := StoreRoutes(table, rows).value;
      forall i :: |table| <= i < |t| ==> t[i].route in rows && t[i].sourceInAsia.None? && t[i].destInAsia.None?
  {
    if x in rows && KeyComplete(x) {
      InsertRoutesCovers(NullsDistinct, table, rows, x);
    }
  }

  /** Loading the same routes again stores nothing new when every route has
      a complete key. */
  lemma StoreRoutesReload(table: seq<StoredRoute>, rows: seq<Route>)
    requires StoreRoutes(table, rows).Ok?
    requires forall x :: x in rows ==> KeyComplete(x)
    ensures StoreRoutes(StoreRoutes(table, rows).value, rows) == StoreRoutes(table, rows)
  {
    InsertRoutesIdempotent(NullsDistinct, table, rows);
  }

  /** The same file loaded twice through the store: the route with airline
      id `\N` is stored twice. */
  lemma StoreRoutesReloadNullKey()
    ensures var r := Route(Some("AA"), None, Some("JFK"), Some(3797), Some("LAX"), Some(3484), false, Some(0), Some("321"));
      && StoreRoutes([], [r]).Ok?
      && |StoreRoutes([], [r]).value| == 1
      && StoreRoutes(StoreRoutes([], [r]).value, [r]).Ok?
      && |StoreRoutes(StoreRoutes([], [r]).value, [r]).value| == 2
  {
    var r := Route(Some("AA"), None, Some("JFK"), Some(3797), Some("LAX"), Some(3484), false, Some(0), Some("321"));
    assert RouteFits(r);
    ReloadDuplicatesNullKey();
  }
}

=== FILE: text.dfy ===
/** The pieces of Python's `str` behaviour the loaders rely on:
    `strip()` with no argument, `lstrip(c)`, ASCII `upper()` and `int()`
    on decimal text. */
module Text {

  import opened Base

  /** Python's `str.isspace()` on one character: the ASCII whitespace
      characters, the separators U+001C..U+001F, and the Unicode spaces. */
  predicate IsSpace(c: char) {
    var n := c as int;
    || n == 0x20
    || (0x09 <= n <= 0x0D)
    || (0x1C <= n <= 0x1F)
    || n == 0x85 || n == 0xA0 || n == 0x1680
    || (0x2000 <= n <= 0x200A)
    || n == 0x2028 || n == 0x2029 || n == 0x202F || n == 0x205F || n == 0x3000
  }

  predicate AllSpace(s: string) {
    forall i :: 0 <= i < |s| ==> IsSpace(s[i])
  }

  /** Neither the first nor the last character is whitespace. */
  predicate Unpadded(s: string) {
    |s| == 0 || (!IsSpace(s[0]) && !IsSpace(s[|s| - 1]))
  }

  /** `core` is `s` with some whitespace removed from each end. */
  ghost predicate PaddingOf(s: string, core: string) {
    exists i, j :: PaddedAt(s, core, i, j)
  }

  /** `core` is `s[i..j]` and everything outside it is whitespace. */
  predicate PaddedAt(s: string, core: string, i: int, j: int) {
    0 <= i <= j <= |s| && s[i..j] == core && AllSpace(s[..i]) && AllSpace(s[j..])
  }

  /** `s.lstrip()` */
  function TrimStart(s: string): (r: string)
    ensures |r| <= |s| && r == s[|s| - |r|..]
    ensures AllSpace(s[..|s| - |r|])
    ensures |r| == 0 || !IsSpace(r[0])
  {
    if |s| > 0 && IsSpace(s[0]) then
      var r := TrimStart(s[1..]);
      assert s[..|s| - |r|] == [s[0]] + s[1..][..|s| - 1 - |r|];
      r
    else s
  }

  /** `s.rstrip()` */
  function TrimEnd(s: string): (r: string)
    ensures |r| <= |s| && r == s[..|r|]
    ensures AllSpace(s[|r|..])
    ensures |r| == 0 || !IsSpace(r[|r| - 1])
  {
    if |s| > 0 && IsSpace(s[|s| - 1]) then TrimEnd(s[..|s| - 1]) else s
  }

  /** `s.strip()`: whitespace removed from both ends, nothing else. */
  function Strip(s: string): (r: string)
    ensures Unpadded(r)
    ensures PaddingOf(s, r)
  {
    StripPadded(s);
    TrimEnd(TrimStart(s))
  }

  lemma StripPadded(s: string)
    ensures Unpadded(TrimEnd(TrimStart(s)))
    ensures PaddedAt(s, TrimEnd(TrimStart(s)), |s| - |TrimStart(s)|, |s| - |TrimStart(s)| + |TrimEnd(TrimStart(s))|)
  {
    TrimmedBothEnds(s, TrimStart(s), TrimEnd(TrimStart(s)));
  }

  /** What `lstrip` then `rstrip` leave: `t` is `s` less leading whitespace,
      `r` is `t` less trailing whitespace. */
  lemma TrimmedBothEnds(s: string, t: string, r: string)
    requires |t| <= |s| && t == s[|s| - |t|..] && AllSpace(s[..|s| - |t|]) && (|t| == 0 || !IsSpace(t[0]))
    requires |r| <= |t| && r == t[..|r|] && AllSpace(t[|r|..]) && (|r| == 0 || !IsSpace(r[|r| - 1]))
    ensures Unpadded(r)
    ensures PaddedAt(s, r, |s| - |t|, |s| - |t| + |r|)
  {
    var i := |s| - |t|;
    if |r| > 0 {
      assert r[0] == t[0];
    }
    assert s[i..i + |r|] == r;
    assert s[i + |r|..] == t[|r|..];
  }

  lemma AllSpaceTrimStart(s: string)
    requires AllSpace(s)
    ensures TrimStart(s) == []
  {
  }

  lemma {:induction false} TrimStartAt(s: string, i: nat)
    requires i < |s| && AllSpace(s[..i]) && !IsSpace(s[i])
    ensures TrimStart(s) == s[i..]
    decreases i
  {
    if i > 0 {
      assert IsSpace(s[..i][0]);
      assert s[1..][..i - 1] == s[1..i];
      TrimStartAt(s[1..], i - 1);
      assert s[1..][i - 1..] == s[i..];
    }
  }

  lemma {:induction false} TrimEndAfter(c: string, w: string)
    requires |c| > 0 && !IsSpace(c[|c| - 1]) && AllSpace(w)
    ensures TrimEnd(c + w) == c
    decreases |w|
  {
    if |w| == 0 {
      assert c + w == c;
    } else {
      assert IsSpace(w[|w| - 1]);
      assert (c + w)[..|c + w| - 1] == c + w[..|w| - 1];
      TrimEndAfter(c, w[..|w| - 1]);
    }
  }

  /** `strip()` is characterised by its contract: the only unpadded string
      obtained from `s` by removing whitespace at the ends is `Strip(s)`. */
  lemma StripUnique(s: string, core: string)
    requires PaddingOf(s, core) && Unpadded(core)
    ensures core == Strip(s)
  {
    var i, j :| PaddedAt(s, core, i, j);
    TrimBothAt(s, core, i, j);
  }

  lemma TrimBothAt(s: string, core: string, i: int, j: int)
    requires PaddedAt(s, core, i, j) && Unpadded(core)
    ensures TrimEnd(TrimStart(s)) == core
  {
    if i == j {
      AllSpaceJoin(s, i);
      AllSpaceTrimStart(s);
    } else {
      TrimCoreAt(s, core, i, j);
    }
  }

  lemma TrimCoreAt(s: string, core: string, i: int, j: int)
    requires PaddedAt(s, core, i, j) && Unpadded(core) && i < j
    ensures TrimEnd(TrimStart(s)) == core
  {
    var w := s[j..];
    assert core[0] == s[i];
    TrimStartAt(s, i);
    SliceSplit(s, i, j);
    TrimEndAfter(core, w);
  }

  lemma SliceSplit<T>(s: seq<T>, i: int, j: int)
    requires 0 <= i <= j <= |s|
    ensures s[i..] == s[i..j] + s[j..]
  {
  }

  lemma EmptyStrip(s: string)
    requires TrimStart(s) == []
    ensures Strip(s) == []
  {
  }

  lemma AllSpaceConcat(a: string, b: string)
    requires AllSpace(a) && AllSpace(b)
    ensures AllSpace(a + b)
  {
    forall k | 0 <= k < |a + b| ensures IsSpace((a + b)[k]) {
      if k < |a| { assert (a + b)[k] == a[k]; } else { assert (a + b)[k] == b[k - |a|]; }
    }
  }

  /** Adding whitespace on both sides keeps a core padded. */
  lemma PaddedAtWider(before: string, s: string, after: string, core: string, i: int, j: int)
    requires PaddedAt(s, core, i, j) && AllSpace(before) && AllSpace(after)
    ensures PaddedAt(before + s + after, core, |before| + i, |before| + j)
  {
    var w := before + s + after;
    var i', j' := |before| + i, |before| + j;
    assert w[i'..j'] == s[i..j];
    assert w[..i'] == before + s[..i];
    assert w[j'..] == s[j..] + after;
    AllSpaceConcat(before, s[..i]);
    AllSpaceConcat(s[j..], after);
  }

  lemma AllSpaceJoin(s: string, i: nat)
    requires i <= |s| && AllSpace(s[..i]) && AllSpace(s[i..])
    ensures AllSpace(s)
  {
    forall k | 0 <= k < |s| ensures IsSpace(s[k]) {
      if k < i { assert s[..i][k] == s[k]; } else { assert s[i..][k - i] == s[k]; }
    }
  }

  /** Stripping twice is stripping once. */
  lemma StripIdempotent(s: string)
    ensures Strip(Strip(s)) == Strip(s)
  {
    var r := Strip(s);
    assert r[0..|r|] == r && r[..0] == [] && r[|r|..] == [];
    assert PaddedAt(r, r, 0, |r|);
    StripUnique(r, r);
  }

  /** A string without surrounding whitespace is left alone. */
  lemma StripUnpadded(s: string)
    requires Unpadded(s)
    ensures Strip(s) == s
  {
    assert s[0..|s|] == s && s[..0] == [] && s[|s|..] == [];
    assert PaddedAt(s, s, 0, |s|);
    StripUnique(s, s);
  }

  /** `s.lstrip(c)`: every leading `c` removed. */
  function StripLeading(s: string, c: char): (r: string)
    ensures |r| <= |s| && r == s[|s| - |r|..]
    ensures forall k :: 0 <= k < |s| - |r| ==> s[k] == c
    ensures |r| == 0 || r[0] != c
  {
    if |s| > 0 && s[0] == c then StripLeading(s[1..], c) else s
  }

  function UpperChar(c: char): char {
    if 'a' <= c <= 'z' then (c as int - 'a' as int + 'A' as int) as char else c
  }

  /** `s.upper()` on ASCII letters; other characters are kept. */
  function Upper(s: string): (r: string)
    ensures |r| == |s|
    ensures forall k :: 0 <= k < |s| ==> r[k] == UpperChar(s[k])
  {
    if |s| == 0 then [] else [UpperChar(s[0])] + Upper(s[1..])
  }

  /** Upper-casing leaves no lower-case ASCII letter and is idempotent. */
  lemma UpperIdempotent(s: string)
    ensures forall k :: 0 <= k < |s| ==> !('a' <= Upper(s)[k] <= 'z')
    ensures Upper(Upper(s)) == Upper(s)
  {
  }

  predicate IsDigit(c: char) {
    '0' <= c <= '9'
  }

  /** The body of a decimal literal as `int()` accepts it: digits, with single
      underscores allowed between two digits. */
  predicate DigitText(s: string) {
    && |s| > 0
    && IsDigit(s[0])
    && forall k :: 0 <= k < |s| ==> DigitOrSeparator(s, k)
  }

  /** Position `k` holds a digit, or an underscore with a digit after it. */
  predicate DigitOrSeparator(s: string, k: nat)
    requires k < |s|
  {
    IsDigit(s[k]) || (s[k] == '_' && k + 1 < |s| && IsDigit(s[k + 1]))
  }

  /** A decimal integer literal: an optional sign and a digit text. */
  predicate IntText(t: string) {
    DigitText(t) || (|t| > 0 && (t[0] == '+' || t[0] == '-') && DigitText(t[1..]))
  }

  /** The value of a digit text, underscores ignored. */
  function DigitsValue(s: string): nat {
    if |s| == 0 then 0
    else if IsDigit(s[|s| - 1]) then DigitsValue(s[..|s| - 1]) * 10 + (s[|s| - 1] as int - '0' as int)
    else DigitsValue(s[..|s| - 1])
  }

  /** Python's `int(s)` for base 10: surrounding whitespace is ignored, one
      optional sign, then a digit text.  `None` is the `ValueError` case. */
  function ParseInt(s: string): (r: Option<int>)
    ensures r.Some? <==> IntText(Strip(s))
  {
    var t := Strip(s);
    if |t| > 0 && (t[0] == '+' || t[0] == '-') then
      if DigitText(t[1..]) then
        var v: int := DigitsValue(t[1..]);
        Some(if t[0] == '-' then -v else v)
      else None
    else if DigitText(t) then Some(DigitsValue(t))
    else None
  }

  /** A digit text ends with a digit: an underscore needs a digit after it. */
  lemma DigitTextEnds(d: string)
    requires DigitText(d)
    ensures IsDigit(d[|d| - 1])
  {
    assert DigitOrSeparator(d, |d| - 1);
  }

  /** A digit text, signed or not, has no whitespace to strip. */
  lemma DigitTextUnpadded(d: string, t: string)
    requires DigitText(d) && (t == d || t == "+" + d || t == "-" + d)
    ensures Strip(t) == t
  {
    DigitTextEnds(d);
    assert t[|t| - 1] == d[|d| - 1];
    assert !IsSpace(t[0]) && !IsSpace(t[|t| - 1]);
    StripUnpadded(t);
  }

  /** The value of an unsigned digit text. */
  lemma ParseIntDigits(d: string)
    requires DigitText(d)
    ensures ParseInt(d) == Some(DigitsValue(d) as int)
  {
    DigitTextUnpadded(d, d);
    assert !(d[0] == '+' || d[0] == '-');
  }

  /** The value of a digit text behind a sign character. */
  lemma ParseIntSigned(d: string, sign: char)
    requires DigitText(d) && (sign == '+' || sign == '-')
    ensures ParseInt([sign] + d) == Some(if sign == '-' then -(DigitsValue(d) as int) else DigitsValue(d) as int)
  {
    var t := [sign] + d;
    assert t[0] == sign && t[1..] == d;
    assert t == "+" + d || t == "-" + d;
    DigitTextUnpadded(d, t);
    assert Strip(t) == t;
    assert DigitText(t[1..]);
  }

  /** A sign before the digits: `+` changes nothing and `-` negates, so
      `int("-0") == 0`. */
  lemma ParseIntSign(d: string)
    requires DigitText(d)
    ensures ParseInt(d) == Some(DigitsValue(d) as int)
    ensures ParseInt("+" + d) == ParseInt(d)
    ensures ParseInt("-" + d) == Some(-(DigitsValue(d) as int))
  {
    ParseIntDigits(d);
    ParseIntSigned(d, '+');
    ParseIntSigned(d, '-');
  }

  /** A leading zero adds nothing to the value of a digit text. */
  lemma {:induction false} DigitsValueZero(d: string)
    ensures DigitsValue("0" + d) == DigitsValue(d)
    decreases |d|
  {
    var z := "0" + d;
    if |d| == 0 {
      assert z[..0] == [];
    } else {
      assert z[..|z| - 1] == "0" + d[..|d| - 1];
      assert z[|z| - 1] == d[|d| - 1];
      DigitsValueZero(d[..|d| - 1]);
    }
  }

  /** A zero in front of a digit text is still a digit text. */
  lemma DigitTextZero(d: string)
    requires DigitText(d)
    ensures DigitText("0" + d)
  {
    var z := "0" + d;
    assert z[0] == '0' && IsDigit(z[0]);
    forall k | 0 <= k < |z| ensures DigitOrSeparator(z, k) {
      if k == 0 {
        assert IsDigit(z[0]);
      } else if k == 1 {
        assert z[1] == d[0] && IsDigit(d[0]);
      } else {
        assert z[k] == d[k - 1];
        assert DigitOrSeparator(d, k - 1);
        if k + 1 < |z| {
          assert z[k + 1] == d[k];
        }
      }
    }
  }

  /** `int("007") == int("7")`: leading zeros are allowed and ignored. */
  lemma ParseIntLeadingZero(d: string)
    requires DigitText(d)
    ensures DigitText("0" + d)
    ensures ParseInt("0" + d) == ParseInt(d)
  {
    DigitTextZero(d);
    DigitsValueZero(d);
    ParseIntDigits(d);
    ParseIntDigits("0" + d);
  }

  /** Any character that is not a digit adds nothing to the value. */
  lemma {:induction false} DigitsValueDrop(s: string, k: nat)
    requires k < |s| && !IsDigit(s[k])
    ensures DigitsValue(s[..k] + s[k + 1..]) == DigitsValue(s)
    decreases |s|
  {
    var t := s[..k] + s[k + 1..];
    var init := s[..|s| - 1];
    if k == |s| - 1 {
      assert t == init;
    } else {
      assert t[|t| - 1] == s[|s| - 1];
      assert t[..|t| - 1] == init[..k] + init[k + 1..];
      DigitsValueDrop(init, k);
    }
  }

  /** `int("1_000") == int("1000")`: removing an underscore separator
      leaves a digit text with the same value. */
  lemma ParseIntUnderscore(d: string, k: nat)
    requires DigitText(d) && k < |d| && d[k] == '_'
    ensures DigitText(d[..k] + d[k + 1..])
    ensures ParseInt(d[..k] + d[k + 1..]) == ParseInt(d)
  {
    var t := d[..k] + d[k + 1..];
    assert DigitOrSeparator(d, k);
    assert k > 0 && k + 1 < |d| && IsDigit(d[k + 1]);
    assert DigitOrSeparator(d, k - 1);
    forall j | 0 <= j < |t| ensures DigitOrSeparator(t, j) {
      if j < k {
        assert DigitOrSeparator(d, j);
        assert t[j] == d[j];
        if j + 1 < k { assert t[j + 1] == d[j + 1]; } else { assert t[j + 1] == d[k + 1]; }
      } else {
        assert DigitOrSeparator(d, j + 1);
        assert t[j] == d[j + 1];
        if j + 1 < |t| { assert t[j + 1] == d[j + 2]; }
      }
    }
    DigitsValueDrop(d, k);
    ParseIntSign(d);
    ParseIntSign(t);
  }

  function DigitChar(d: nat): char
    requires d < 10
  {
    ('0' as int + d) as char
  }

  /** `str(n)` for a natural number. */
  function ShowNat(n: nat): (r: string)
    ensures |r| > 0 && IsDigit(r[0]) && IsDigit(r[|r| - 1])
    ensures forall k :: 0 <= k < |r| ==> IsDigit(r[k])
  {
    if n < 10 then [DigitChar(n)] else ShowNat(n / 10) + [DigitChar(n % 10)]
  }

  /** `str(n)` */
  function Show(n: int): string {
    if n < 0 then "-" + ShowNat(-n) else ShowNat(n)
  }

  lemma {:induction false} ShowNatValue(n: nat)
    ensures DigitText(ShowNat(n))
    ensures DigitsValue(ShowNat(n)) == n
  {
    var s := ShowNat(n);
    if n >= 10 {
      ShowNatValue(n / 10);
      assert s[..|s| - 1] == ShowNat(n / 10);
    }
  }

  lemma ShowUnpadded(n: int)
    ensures Unpadded(Show(n))
  {
    var s := Show(n);
    if n < 0 {
      assert s[0] == '-';
      assert s[|s| - 1] == ShowNat(-n)[|ShowNat(-n)| - 1];
    }
  }

  /** `int(str(n)) == n`: reading back a printed integer gives it back. */
  lemma ParseShow(n: int)
    ensures ParseInt(Show(n)) == Some(n)
  {
    if n < 0 {
      var d := ShowNat(-n);
      ShowNatValue(-n);
      assert DigitsValue(d) == -n;
      ParseIntSign(d);
      assert ParseInt("-" + d) == Some(-(DigitsValue(d) as int));
      assert Show(n) == "-" + d;
    } else {
      ShowNatValue(n);
      ParseIntDigits(ShowNat(n));
    }
  }
}

=== FILE: upsert.dfy ===
/** `INSERT … ON CONFLICT (key) DO UPDATE` sent through psycopg2's
    `execute_values`: the rows are cut into pages of `page_size`, each page is
    one INSERT statement, and all pages run in one transaction.  Within one
    statement PostgreSQL refuses to update the same row twice, so a key that
    repeats inside a page aborts the transaction; across pages a later row
    overwrites an earlier one. */
module Upsert {

  import opened Base

  /** The statements `execute_values` issues: consecutive pages of at most
      `size` rows each. */
  function Pages<R>(rows: seq<R>, size: nat): (ps: seq<seq<R>>)
    requires size > 0
    ensures forall p :: p in ps ==> 0 < |p| <= size
    ensures Flatten(ps) == rows
    decreases |rows|
  {
    if |rows| == 0 then []
    else if |rows| <= size then [rows]
    else
      assert rows == rows[..size] + rows[size..];
      [rows[..size]] + Pages(rows[size..], size)
  }

  function Flatten<R>(ps: seq<seq<R>>): seq<R> {
    if |ps| == 0 then [] else ps[0] + Flatten(ps[1..])
  }

  /** The keys the rows carry. */
  ghost function KeysOf<K, R>(rows: seq<R>, key: R -> K): set<K> {
    set r | r in rows :: key(r)
  }

  /** One more row adds its key. */
  lemma KeysOfSnoc<K, R>(rows: seq<R>, r: R, key: R -> K)
    ensures KeysOf(rows + [r], key) == KeysOf(rows, key) + {key(r)}
  {
    assert forall x :: x in rows + [r] <==> x in rows || x == r;
  }

  /** No two rows share a key. */
  predicate DistinctKeys<R, K(==)>(rows: seq<R>, key: R -> K) {
    forall a, b :: 0 <= a < b < |rows| ==> key(rows[a]) != key(rows[b])
  }

  /** Rows applied one after another: a new key is inserted with `create`, an
      existing one is rewritten with `update` (the `DO UPDATE SET` list). */
  function Apply<K(==), V, R>(table: map<K, V>, rows: seq<R>, key: R -> K, create: R -> V, update: (V, R) -> V): map<K, V>
    decreases |rows|
  {
    if |rows| == 0 then table
    else
      var k := key(rows[0]);
      var v := if k in table then update(table[k], rows[0]) else create(rows[0]);
      Apply(table[k := v], rows[1..], key, create, update)
  }

  /** The page that row `a` is sent in: pages are numbered from 0 and each
      holds `size` consecutive rows. */
  function PageOf(a: nat, size: nat): nat
    requires size > 0
    decreases a
  {
    if a < size then 0 else PageOf(a - size, size) + 1
  }

  /** Page `p` holds the rows from `p * size` up to, not including,
      `(p + 1) * size`: `PageOf` is `a / size`. */
  lemma {:induction false} PageOfBounds(a: nat, size: nat)
    requires size > 0
    ensures PageOf(a, size) * size <= a < PageOf(a, size) * size + size
    decreases a
  {
    var p := PageOf(a, size);
    if a >= size {
      PageOfBounds(a - size, size);
      assert p * size == PageOf(a - size, size) * size + size;
    }
  }

  /** Two rows at positions `a < b` share a key and fall in the same page. */
  predicate RepeatsInPage<R, K(==)>(rows: seq<R>, size: nat, key: R -> K)
    requires size > 0
  {
    exists a, b :: 0 <= a < b < |rows| && PageOf(a, size) == PageOf(b, size) && key(rows[a]) == key(rows[b])
  }

  /** One of the statements names a key twice. */
  predicate SomePageRepeats<R, K(==)>(pages: seq<seq<R>>, key: R -> K) {
    exists i :: 0 <= i < |pages| && !DistinctKeys(pages[i], key)
  }

  /** The error of the first row, in order, whose values do not fit their
      columns: PostgreSQL coerces the `VALUES` list of a statement row by
      row and column by column while planning it, before any row is
      written. */
  function FirstFault<R>(rows: seq<R>, fault: R -> Option<StoreError>): (e: Option<StoreError>)
    ensures e.None? <==> forall i :: 0 <= i < |rows| ==> fault(rows[i]).None?
    ensures e.Some? ==>
      exists i :: 0 <= i < |rows| && fault(rows[i]) == e && forall j :: 0 <= j < i ==> fault(rows[j]).None?
    decreases |rows|
  {
    if |rows| == 0 then None
    else if fault(rows[0]).Some? then fault(rows[0])
    else
      var e := FirstFault(rows[1..], fault);
      assert forall j :: 0 < j < |rows| ==> rows[j] == rows[1..][j - 1];
      if e.Some? then
        ghost var i :| 0 <= i < |rows| - 1 && fault(rows[1..][i]) == e && forall j :: 0 <= j < i ==> fault(rows[1..][j]).None?;
        assert fault(rows[i + 1]) == e;
        e
      else e
  }

  /** How one statement ends: a value that does not fit fails it while it is
      planned, a key named twice fails it while it runs. */
  function PageError<R, K(==)>(page: seq<R>, key: R -> K, fault: R -> Option<StoreError>): Option<StoreError> {
    if FirstFault(page, fault).Some? then FirstFault(page, fault)
    else if !DistinctKeys(page, key) then Some(KeyRepeatedInStatement)
    else None
  }

  /** The statements run in order in one transaction: the first one that
      fails aborts the batch with its error, and the changes of the earlier
      ones are never committed. */
  function RunPages<K(==), V, R>(table: map<K, V>, pages: seq<seq<R>>, key: R -> K, fault: R -> Option<StoreError>,
                                 create: R -> V, update: (V, R) -> V): (r: Result<map<K, V>, StoreError>)
    ensures r.Ok? <==> forall i :: 0 <= i < |pages| ==> PageError(pages[i], key, fault).None?
    ensures r.Ok? ==> r.value == Apply(table, Flatten(pages), key, create, update)
    decreases |pages|
  {
    if |pages| == 0 then Ok(table)
    else
      match PageError(pages[0], key, fault)
      case Some(e) => Err(e)
      case None =>
        ApplyConcat(table, pages[0], Flatten(pages[1..]), key, create, update);
        assert forall i :: 0 < i < |pages| ==> pages[i] == pages[1..][i - 1];
        RunPages(Apply(table, pages[0], key, create, update), pages[1..], key, fault, create, update)
  }

  /** Rows applied in two stretches are the rows applied at once. */
  lemma {:induction false} ApplyConcat<K, V, R>(table: map<K, V>, a: seq<R>, b: seq<R>, key: R -> K, create: R -> V, update: (V, R) -> V)
    ensures Apply(Apply(table, a, key, create, update), b, key, create, update) == Apply(table, a + b, key, create, update)
    decreases |a|
  {
    if |a| == 0 {
      assert a + b == b;
    } else {
      var k := key(a[0]);
      var v := if k in table then update(table[k], a[0]) else create(a[0]);
      assert (a + b)[0] == a[0] && (a + b)[1..] == a[1..] + b;
      ApplyConcat(table[k := v], a[1..], b, key, create, update);
    }
  }

  /** The batch fails with the error of the first statement that fails. */
  lemma {:induction false} RunPagesFirstFailure<K, V, R>(table: map<K, V>, pages: seq<seq<R>>, key: R -> K, fault: R -> Option<StoreError>,
                                                       create: R -> V, update: (V, R) -> V)
    ensures RunPages(table, pages, key, fault, create, update).Err? ==>
      exists p :: 0 <= p < |pages| && (forall q :: 0 <= q < p ==> PageError(pages[q], key, fault).None?) &&
        PageError(pages[p], key, fault) == Some(RunPages(table, pages, key, fault, create, update).error)
    decreases |pages|
  {
    var r := RunPages(table, pages, key, fault, create, update);
    if r.Err? && PageError(pages[0], key, fault).None? {
      var rest := pages[1..];
      var t := Apply(table, pages[0], key, create, update);
      assert r == RunPages(t, rest, key, fault, create, update);
      RunPagesFirstFailure(t, rest, key, fault, create, update);
      var p :| 0 <= p < |rest| && (forall q :: 0 <= q < p ==> PageError(rest[q], key, fault).None?) &&
        PageError(rest[p], key, fault) == Some(r.error);
      assert forall q :: 0 < q <= p + 1 ==> pages[q] == rest[q - 1];
    }
  }

  /** The first faulty row of rows joined end to end lies in the first part
      that has one. */
  lemma {:induction false} FirstFaultConcat<R>(a: seq<R>, b: seq<R>, fault: R -> Option<StoreError>)
    ensures FirstFault(a + b, fault) == if FirstFault(a, fault).Some? then FirstFault(a, fault) else FirstFault(b, fault)
    decreases |a|
  {
    if |a| == 0 {
      assert a + b == b;
    } else {
      assert (a + b)[0] == a[0] && (a + b)[1..] == a[1..] + b;
      FirstFaultConcat(a[1..], b, fault);
    }
  }

  /** When no statement names a key twice, the batch fails exactly when some
      row does not fit, with the error of the first such row. */
  lemma {:induction false} RunPagesDistinct<K, V, R>(table: map<K, V>, pages: seq<seq<R>>, key: R -> K, fault: R -> Option<StoreError>,
                                                   create: R -> V, update: (V, R) -> V)
    requires forall i :: 0 <= i < |pages| ==> DistinctKeys(pages[i], key)
    ensures FirstFault(Flatten(pages), fault).Some? ==>
      RunPages(table, pages, key, fault, create, update) == Err(FirstFault(Flatten(pages), fault).value)
    decreases |pages|
  {
    if |pages| > 0 {
      FirstFaultConcat(pages[0], Flatten(pages[1..]), fault);
      if FirstFault(pages[0], fault).None? {
        assert forall i :: 0 < i < |pages| ==> pages[i] == pages[1..][i - 1];
        RunPagesDistinct(Apply(table, pages[0], key, create, update), pages[1..], key, fault, create, update);
      }
    }
  }

  /** No statement hits a faulty row exactly when no row is faulty. */
  lemma {:induction false} FlattenFaultFree<R>(pages: seq<seq<R>>, fault: R -> Option<StoreError>)
    ensures FirstFault(Flatten(pages), fault).None? <==> forall i :: 0 <= i < |pages| ==> FirstFault(pages[i], fault).None?
    decreases |pages|
  {
    if |pages| > 0 {
      FirstFaultConcat(pages[0], Flatten(pages[1..]), fault);
      FlattenFaultFree(pages[1..], fault);
      assert forall i :: 0 < i < |pages| ==> pages[i] == pages[1..][i - 1];
    }
  }

  /** Every row of every statement is a row of the batch. */
  lemma {:induction false} FlattenHas<R>(pages: seq<seq<R>>, p: nat, x: R)
    requires p < |pages| && x in pages[p]
    ensures x in Flatten(pages)
    decreases |pages|
  {
    if p > 0 {
      assert pages[p] == pages[1..][p - 1];
      FlattenHas(pages[1..], p - 1, x);
    }
  }

  /** The whole batch, one statement per page of `size` rows.  It succeeds
      exactly when every row fits and no page names a key twice, and then
      every row is applied in order: rows sharing a key in different pages
      are not an error, the later one wins.  A failure carries either the
      repeated-key error or the error of some row; when no page repeats a
      key it is the error of the first row that does not fit, whatever
      page that row is in. */
  function Batch<K(==), V, R>(table: map<K, V>, rows: seq<R>, size: nat, key: R -> K, fault: R -> Option<StoreError>,
                              create: R -> V, update: (V, R) -> V): (r: Result<map<K, V>, StoreError>)
    requires size > 0
    ensures r.Ok? <==> (forall i :: 0 <= i < |rows| ==> fault(rows[i]).None?) && !RepeatsInPage(rows, size, key)
    ensures r.Ok? ==> r.value == Apply(table, rows, key, create, update)
    ensures r.Err? ==> r.error == KeyRepeatedInStatement || exists i :: 0 <= i < |rows| && fault(rows[i]) == Some(r.error)
    ensures !RepeatsInPage(rows, size, key) && FirstFault(rows, fault).Some? ==> r == Err(FirstFault(rows, fault).value)
  {
    var pages := Pages(rows, size);
    PagesRepeat(rows, size, key);
    FlattenFaultFree(pages, fault);
    RunPagesFirstFailure(table, pages, key, fault, create, update);
    BatchFailure(table, rows, size, key, fault, create, update);
    if !RepeatsInPage(rows, size, key) then
      RunPagesDistinct(table, pages, key, fault, create, update);
      RunPages(table, pages, key, fault, create, update)
    else
      RunPages(table, pages, key, fault, create, update)
  }

  /** A failed statement's error is the repeated-key error or the error of
      one of the batch's rows. */
  lemma BatchFailure<K, V, R>(table: map<K, V>, rows: seq<R>, size: nat, key: R -> K, fault: R -> Option<StoreError>,
                              create: R -> V, update: (V, R) -> V)
    requires size > 0
    ensures var r := RunPages(table, Pages(rows, size), key, fault, create, update);
      r.Err? ==> r.error == KeyRepeatedInStatement || exists i :: 0 <= i < |rows| && fault(rows[i]) == Some(r.error)
  {
    var pages := Pages(rows, size);
    var r := RunPages(table, pages, key, fault, create, update);
    RunPagesFirstFailure(table, pages, key, fault, create, update);
    if r.Err? {
      var p :| 0 <= p < |pages| && PageError(pages[p], key, fault) == Some(r.error);
      if FirstFault(pages[p], fault).Some? {
        var j :| 0 <= j < |pages[p]| && fault(pages[p][j]) == Some(r.error);
        FlattenHas(pages, p, pages[p][j]);
        assert pages[p][j] in rows;
      }
    }
  }

  /** The first page is rows `0 .. size`, the others are the pages of the
      rest. */
  lemma PagesSplit<R>(rows: seq<R>, size: nat)
    requires size > 0 && |rows| > size
    ensures Pages(rows, size) == [rows[..size]] + Pages(rows[size..], size)
  {
  }

  /** Rows of the first page share a page number. */
  lemma HeadRepeats<K, R>(rows: seq<R>, size: nat, key: R -> K, n: nat)
    requires size > 0 && n <= size && n <= |rows| && !DistinctKeys(rows[..n], key)
    ensures RepeatsInPage(rows, size, key)
  {
    var head := rows[..n];
    var a, b :| 0 <= a < b < |head| && key(head[a]) == key(head[b]);
    assert head[a] == rows[a] && head[b] == rows[b];
    assert PageOf(a, size) == 0 == PageOf(b, size);
  }

  /** Two rows of one page after the first are two rows of one page of the
      whole batch. */
  lemma TailRepeats<K, R>(rows: seq<R>, size: nat, key: R -> K)
    requires size > 0 && |rows| > size && RepeatsInPage(rows[size..], size, key)
    ensures RepeatsInPage(rows, size, key)
  {
    var tail := rows[size..];
    var a, b :| 0 <= a < b < |tail| && PageOf(a, size) == PageOf(b, size) && key(tail[a]) == key(tail[b]);
    assert tail[a] == rows[a + size] && tail[b] == rows[b + size];
    assert PageOf(a + size, size) == PageOf(a, size) + 1;
    assert PageOf(b + size, size) == PageOf(b, size) + 1;
  }

  /** A page that repeats a key yields two rows of one page with that key. */
  lemma {:induction false} PageRepeatFound<K, R>(rows: seq<R>, size: nat, key: R -> K, i: nat)
    requires size > 0 && i < |Pages(rows, size)| && !DistinctKeys(Pages(rows, size)[i], key)
    ensures RepeatsInPage(rows, size, key)
    decreases |rows|
  {
    if |rows| <= size {
      assert Pages(rows, size) == [rows];
      assert rows[..|rows|] == rows;
      HeadRepeats(rows, size, key, |rows|);
    } else {
      PagesSplit(rows, size);
      if i == 0 {
        HeadRepeats(rows, size, key, size);
      } else {
        assert Pages(rows, size)[i] == Pages(rows[size..], size)[i - 1];
        PageRepeatFound(rows[size..], size, key, i - 1);
        TailRepeats(rows, size, key);
      }
    }
  }

  /** Two rows of one page with the same key make that page repeat a key. */
  lemma {:induction false} PageRepeatPlaced<K, R>(rows: seq<R>, size: nat, key: R -> K, a: nat, b: nat)
    requires size > 0 && a < b < |rows| && PageOf(a, size) == PageOf(b, size) && key(rows[a]) == key(rows[b])
    ensures PageOf(a, size) < |Pages(rows, size)| && !DistinctKeys(Pages(rows, size)[PageOf(a, size)], key)
    decreases |rows|
  {
    if |rows| <= size {
      assert Pages(rows, size) == [rows];
    } else if b < size {
      PagesSplit(rows, size);
      var head := rows[..size];
      assert head[a] == rows[a] && head[b] == rows[b];
    } else if a < size {
      assert false;
    } else {
      var tail := rows[size..];
      var p := PageOf(a - size, size);
      PageOfShift(a, b, size);
      assert tail[a - size] == rows[a] && tail[b - size] == rows[b];
      PageRepeatPlaced(tail, size, key, a - size, b - size);
      PagesSplit(rows, size);
      assert Pages(rows, size)[p + 1] == Pages(tail, size)[p];
    }
  }

  /** Page numbers of rows after the first page, counted within the rest. */
  lemma PageOfShift(a: nat, b: nat, size: nat)
    requires size > 0 && size <= a && size <= b && PageOf(a, size) == PageOf(b, size)
    ensures PageOf(a, size) == PageOf(a - size, size) + 1
    ensures PageOf(a - size, size) == PageOf(b - size, size)
  {
  }

  /** Some page of `execute_values` repeats a key exactly when two rows with
      that key fall in the same page. */
  lemma PagesRepeat<K, R>(rows: seq<R>, size: nat, key: R -> K)
    requires size > 0
    ensures SomePageRepeats(Pages(rows, size), key) <==> RepeatsInPage(rows, size, key)
  {
    if SomePageRepeats(Pages(rows, size), key) {
      var i :| 0 <= i < |Pages(rows, size)| && !DistinctKeys(Pages(rows, size)[i], key);
      PageRepeatFound(rows, size, key, i);
    }
    if RepeatsInPage(rows, size, key) {
      var a, b :| 0 <= a < b < |rows| && PageOf(a, size) == PageOf(b, size) && key(rows[a]) == key(rows[b]);
      PageRepeatPlaced(rows, size, key, a, b);
    }
  }
  /** Two rows with one key are an error in one statement but not in two:
      with pages of one row the later row simply overwrites. */
  lemma RepeatAcrossPages<K, V, R>(table: map<K, V>, r1: R, r2: R, key: R -> K, fault: R -> Option<StoreError>,
                                   create: R -> V, update: (V, R) -> V)
    requires key(r1) == key(r2) && fault(r1).None? && fault(r2).None?
    ensures Batch(table, [r1, r2], 2, key, fault, create, update) == Err(KeyRepeatedInStatement)
    ensures Batch(table, [r1, r2], 1, key, fault, create, update) == Ok(Apply(table, [r1, r2], key, create, update))
  {
    assert PageOf(0, 2) == PageOf(1, 2);
    assert PageOf(1, 1) == PageOf(0, 1) + 1;
  }

  /** The statements fail in order: a page that repeats a key stops the
      batch before a later page with a value that does not fit is sent. */
  lemma EarlierPageDecides<K, V, R>(table: map<K, V>, a: R, b: R, c: R, key: R -> K, fault: R -> Option<StoreError>,
                                    create: R -> V, update: (V, R) -> V)
    requires key(a) == key(b) && fault(a).None? && fault(b).None? && fault(c).Some?
    ensures Batch(table, [a, b, c], 2, key, fault, create, update) == Err(KeyRepeatedInStatement)
  {
    var rows := [a, b, c];
    assert Pages(rows, 2) == [[a, b], [c]] by {
      assert rows[..2] == [a, b] && rows[2..] == [c];
    }
    assert PageError([a, b], key, fault) == Some(KeyRepeatedInStatement) by {
      assert key([a, b][0]) == key([a, b][1]);
    }
    assert Batch(table, rows, 2, key, fault, create, update) == RunPages(table, [[a, b], [c]], key, fault, create, update);
  }

  /** And the other way round: a page with a value that does not fit stops
      the batch before a later page that repeats a key is sent. */
  lemma EarlierFaultDecides<K, V, R>(table: map<K, V>, a: R, b: R, c: R, d: R, key: R -> K, fault: R -> Option<StoreError>,
                                     create: R -> V, update: (V, R) -> V)
    requires key(a) == key(b) && fault(c).Some?
    ensures Batch(table, [c, d, a, b], 2, key, fault, create, update) == Err(fault(c).value)
  {
    var rows := [c, d, a, b];
    assert Pages(rows, 2) == [[c, d], [a, b]] by {
      assert rows[..2] == [c, d] && rows[2..] == [a, b];
    }
    assert PageError([c, d], key, fault) == fault(c) by {
      assert FirstFault([c, d], fault) == fault(c);
    }
    assert Batch(table, rows, 2, key, fault, create, update) == RunPages(table, [[c, d], [a, b]], key, fault, create, update);
  }

  /** Within one statement the first row that does not fit decides the
      error, even when a later row fails differently or repeats its key. */
  lemma EarlierRowDecides<K, V, R>(table: map<K, V>, a: R, b: R, key: R -> K, fault: R -> Option<StoreError>,
                                   create: R -> V, update: (V, R) -> V)
    requires fault(a).Some?
    ensures Batch(table, [a, b], 2, key, fault, create, update) == Err(fault(a).value)
  {
    assert Pages([a, b], 2) == [[a, b]];
    assert FirstFault([a, b], fault) == fault(a);
  }

  /** The last row with key `k`, if any. */
  function LastWith<K(==), R>(rows: seq<R>, key: R -> K, k: K): (r: Option<R>)
    ensures r.None? <==> forall i :: 0 <= i < |rows| ==> key(rows[i]) != k
    ensures r.Some? ==>
      exists i :: 0 <= i < |rows| && rows[i] == r.value && key(rows[i]) == k &&
        forall j :: i < j < |rows| ==> key(rows[j]) != k
    decreases |rows|
  {
    if |rows| == 0 then None
    else
      var later := LastWith(rows[1..], key, k);
      if later.Some? then
        ghost var i :| 0 <= i < |rows| - 1 && rows[1..][i] == later.value && key(rows[1..][i]) == k &&
          forall j :: i < j < |rows| - 1 ==> key(rows[1..][j]) != k;
        assert forall j :: i + 1 < j < |rows| ==> rows[j] == rows[1..][j - 1];
        later
      else if key(rows[0]) == k then
        assert forall j :: 0 < j < |rows| ==> rows[j] == rows[1..][j - 1];
        Some(rows[0])
      else
        assert forall j :: 0 < j < |rows| ==> rows[j] == rows[1..][j - 1];
        None
  }

  /** The upsert adds exactly the keys of the rows; keys no row mentions
      keep their value. */
  lemma {:induction false} ApplyFrame<K, V, R>(table: map<K, V>, rows: seq<R>, key: R -> K, create: R -> V, update: (V, R) -> V)
    ensures Apply(table, rows, key, create, update).Keys == table.Keys + KeysOf(rows, key)
    ensures forall k :: k in table && LastWith(rows, key, k).None? ==> Apply(table, rows, key, create, update)[k] == table[k]
    decreases |rows|
  {
    if |rows| > 0 {
      var k0 := key(rows[0]);
      var v := if k0 in table then update(table[k0], rows[0]) else create(rows[0]);
      ApplyFrame(table[k0 := v], rows[1..], key, create, update);
      assert KeysOf(rows, key) == {k0} + KeysOf(rows[1..], key) by {
        assert forall r :: r in rows <==> r == rows[0] || r in rows[1..];
      }
      forall k | k in table && LastWith(rows, key, k).None?
        ensures Apply(table, rows, key, create, update)[k] == table[k]
      {
        assert key(rows[0]) != k;
        assert LastWith(rows[1..], key, k).None? by {
          forall i | 0 <= i < |rows| - 1 ensures key(rows[1..][i]) != k {
            assert rows[1..][i] == rows[i + 1];
          }
        }
      }
    }
  }

  /** When an update overwrites everything a previous row wrote (as every
      `DO UPDATE SET` of this program does), the value stored under a key is
      determined by the last row with that key: an update of the old value
      when the key was already present, a newly created one otherwise. */
  lemma {:induction false} ApplyLastWins<K, V, R>(table: map<K, V>, rows: seq<R>, key: R -> K, create: R -> V, update: (V, R) -> V, k: K)
    requires forall v, r1, r2 :: update(update(v, r1), r2) == update(v, r2)
    requires forall r1, r2 :: update(create(r1), r2) == create(r2)
    requires LastWith(rows, key, k).Some?
    ensures k in Apply(table, rows, key, create, update)
    ensures Apply(table, rows, key, create, update)[k] ==
      if k in table then update(table[k], LastWith(rows, key, k).value) else create(LastWith(rows, key, k).value)
    decreases |rows|
  {
    var k0 := key(rows[0]);
    var v := if k0 in table then update(table[k0], rows[0]) else create(rows[0]);
    var t' := table[k0 := v];
    ApplyFrame(t', rows[1..], key, create, update);
    if LastWith(rows[1..], key, k).Some? {
      ApplyLastWins(t', rows[1..], key, create, update, k);
    }
  }

  /** Rows with pairwise distinct keys never make a page repeat a key. */
  lemma {:induction false} DistinctPages<K, R>(rows: seq<R>, size: nat, key: R -> K)
    requires size > 0 && DistinctKeys(rows, key)
    ensures forall i :: 0 <= i < |Pages(rows, size)| ==> DistinctKeys(Pages(rows, size)[i], key)
    decreases |rows|
  {
    if |rows| > size {
      var head, tail := rows[..size], rows[size..];
      assert DistinctKeys(head, key) by {
        forall a, b | 0 <= a < b < |head| ensures key(head[a]) != key(head[b]) {
          assert head[a] == rows[a] && head[b] == rows[b];
        }
      }
      assert DistinctKeys(tail, key) by {
        forall a, b | 0 <= a < b < |tail| ensures key(tail[a]) != key(tail[b]) {
          assert tail[a] == rows[a + size] && tail[b] == rows[b + size];
        }
      }
      DistinctPages(tail, size, key);
    }
  }

  /** A batch whose rows fit and have distinct keys is never rejected. */
  lemma BatchDistinctOk<K, V, R>(table: map<K, V>, rows: seq<R>, size: nat, key: R -> K, fault: R -> Option<StoreError>,
                                 create: R -> V, update: (V, R) -> V)
    requires size > 0 && DistinctKeys(rows, key)
    requires forall i :: 0 <= i < |rows| ==> fault(rows[i]).None?
    ensures Batch(table, rows, size, key, fault, create, update) == Ok(Apply(table, rows, key, create, update))
  {
    DistinctPages(rows, size, key);
    PagesRepeat(rows, size, key);
  }

  /** A key occurs among the rows exactly when it has a last row. */
  lemma KeysByLast<K, R>(rows: seq<R>, key: R -> K, k: K)
    ensures k in KeysOf(rows, key) <==> LastWith(rows, key, k).Some?
  {
    if LastWith(rows, key, k).Some? {
      var i :| 0 <= i < |rows| && key(rows[i]) == k;
      assert rows[i] in rows;
    }
  }

  /** Under overwriting updates the outcome of an upsert depends only on the
      last row for each key: two row sequences that agree on those give the
      same table. */
  lemma ApplyDependsOnLast<K, V, R>(table: map<K, V>, a: seq<R>, b: seq<R>, key: R -> K, create: R -> V, update: (V, R) -> V)
    requires forall v, r1, r2 :: update(update(v, r1), r2) == update(v, r2)
    requires forall r1, r2 :: update(create(r1), r2) == create(r2)
    requires forall k :: LastWith(a, key, k) == LastWith(b, key, k)
    ensures Apply(table, a, key, create, update) == Apply(table, b, key, create, update)
  {
    var left := Apply(table, a, key, create, update);
    var right := Apply(table, b, key, create, update);
    ApplyFrame(table, a, key, create, update);
    ApplyFrame(table, b, key, create, update);
    forall k | k in KeysOf(a, key) ensures k in KeysOf(b, key) {
      assert LastWith(a, key, k) == LastWith(b, key, k);
      KeysByLast(a, key, k);
      KeysByLast(b, key, k);
    }
    forall k | k in KeysOf(b, key) ensures k in KeysOf(a, key) {
      assert LastWith(a, key, k) == LastWith(b, key, k);
      KeysByLast(a, key, k);
      KeysByLast(b, key, k);
    }
    forall k | k in left ensures left[k] == right[k] {
      if LastWith(a, key, k).Some? {
        ApplyLastWins(table, a, key, create, update, k);
        ApplyLastWins(table, b, key, create, update, k);
      }
    }
  }
}

=== FILE: usage.dfy ===
/** The two airline-usage reports: `get_airlines_using_top10_airports`
    (route records touching one of the ten busiest airports, per airport and
    airline) and `get_airlines_unique_airport_counts` (distinct airports per
    airline).  Both join `airlines` for the names; the sheets they write are
    highlighted as in `Highlights`. */
module Usage {

  import opened Base
  import opened Routes
  import opened RouteQuery
  import opened Airports
  import opened Airlines

  /** `LEFT JOIN airlines al ON al.airline_id = …`. */
  function AirlineOf(airlines: AirlineTable, id: int): (a: Option<Airline>)
    ensures a.Some? <==> id in airlines
    ensures a.Some? ==> a.value == airlines[id]
  {
    if id in airlines then Some(airlines[id]) else None
  }

  /** The airline ids the routes name (NULL excluded). */
  function AirlineIds(routes: seq<StoredRoute>): set<int> {
    set i | 0 <= i < |routes| && routes[i].route.airlineId.Some? :: routes[i].route.airlineId.value
  }

  // ---------------------------------------------------------------------
  // Top-ten airports

  /** `top_airports` (`ORDER BY total_in_out DESC LIMIT 10`) is taken as a
      parameter `top`: ties at the cut are broken by the database in no
      stated order, so the reports are stated for whichever set it picks. */

  /** `route_records_touching_airport`: the `UNION ALL` of the routes leaving
      and the routes reaching `a` with airline `l`, counted; a route that
      leaves and reaches `a` appears in both halves. */
  function UsageCount(routes: seq<StoredRoute>, a: int, l: int): nat {
    Count(routes, And(SourceIs(a), AirlineIs(Some(l)))) + Count(routes, And(DestIs(a), AirlineIs(Some(l))))
  }

  datatype UsageRow = UsageRow(airport: AirportEntry, airline: Option<Airline>, records: nat)

  /** The result rows before `ORDER BY`, keyed by (airport, airline). */
  function TopUsage(routes: seq<StoredRoute>, airports: AirportTable, airlines: AirlineTable, top: set<int>): (m: map<(int, int), UsageRow>)
    ensures forall k :: k in m ==> k.0 in top && k.0 in airports && k.1 in AirlineIds(routes)
    ensures forall k :: k in m ==> m[k].airport == airports[k.0] && m[k].airline == AirlineOf(airlines, k.1)
    ensures forall k :: k in m ==> 0 < m[k].records <= 2 * |routes|
  {
    map a, l | a in top && a in airports && l in AirlineIds(routes) && UsageCount(routes, a, l) > 0 ::
      (a, l) := UsageRow(airports[a], AirlineOf(airlines, l), UsageCount(routes, a, l))
  }

  /** A reported pair's `records` is the `UNION ALL` count: the airline's
      routes leaving the airport plus its routes reaching it. */
  lemma TopUsageRecords(routes: seq<StoredRoute>, airports: AirportTable, airlines: AirlineTable, top: set<int>, a: int, l: int)
    requires (a, l) in TopUsage(routes, airports, airlines, top)
    ensures TopUsage(routes, airports, airlines, top)[(a, l)].records ==
      Count(routes, And(SourceIs(a), AirlineIs(Some(l)))) + Count(routes, And(DestIs(a), AirlineIs(Some(l))))
  {
  }

  /** Which pairs are reported: a top airport and a non-null airline with a
      route leaving or reaching that airport. */
  lemma TopUsageKeys(routes: seq<StoredRoute>, airports: AirportTable, airlines: AirlineTable, top: set<int>, a: int, l: int)
    ensures (a, l) in TopUsage(routes, airports, airlines, top) <==>
      a in top && a in airports &&
      exists i :: 0 <= i < |routes| && routes[i].route.airlineId == Some(l) &&
        (routes[i].route.sourceId == Some(a) || routes[i].route.destId == Some(a))
  {
    var out, into := And(SourceIs(a), AirlineIs(Some(l))), And(DestIs(a), AirlineIs(Some(l)));
    CountPositive(routes, out);
    CountPositive(routes, into);
    if exists i :: 0 <= i < |routes| && routes[i].route.airlineId == Some(l) &&
        (routes[i].route.sourceId == Some(a) || routes[i].route.destId == Some(a)) {
      var i :| 0 <= i < |routes| && routes[i].route.airlineId == Some(l) &&
        (routes[i].route.sourceId == Some(a) || routes[i].route.destId == Some(a));
      assert l in AirlineIds(routes);
      assert Holds(out, routes[i]) || Holds(into, routes[i]);
    }
  }

  /** Adding one route adds one record for each of its ends at `a` when it
      is flown by `l`: a route from `a` back to `a` adds two, a route with a
      null airline adds none. */
  lemma {:induction false} UsageCountAppend(routes: seq<StoredRoute>, r: StoredRoute, a: int, l: int)
    ensures UsageCount(routes + [r], a, l) == UsageCount(routes, a, l) +
      (if r.route.airlineId == Some(l) && r.route.sourceId == Some(a) then 1 else 0) +
      (if r.route.airlineId == Some(l) && r.route.destId == Some(a) then 1 else 0)
  {
    var out, into := And(SourceIs(a), AirlineIs(Some(l))), And(DestIs(a), AirlineIs(Some(l)));
    CountAppend(routes, [r], out);
    CountAppend(routes, [r], into);
    assert [r][..0] == [];
    assert Holds(out, r) <==> r.route.airlineId == Some(l) && r.route.sourceId == Some(a);
    assert Holds(into, r) <==> r.route.airlineId == Some(l) && r.route.destId == Some(a);
    assert Count([r], out) == if r.route.airlineId == Some(l) && r.route.sourceId == Some(a) then 1 else 0;
    assert Count([r], into) == if r.route.airlineId == Some(l) && r.route.destId == Some(a) then 1 else 0;
  }

  /** The records of a pair are at most twice the routes of its airline. */
  lemma UsageCountBound(routes: seq<StoredRoute>, a: int, l: int)
    ensures UsageCount(routes, a, l) <= 2 * Count(routes, AirlineIs(Some(l)))
  {
    CountMonotone(routes, And(SourceIs(a), AirlineIs(Some(l))), AirlineIs(Some(l)));
    CountMonotone(routes, And(DestIs(a), AirlineIs(Some(l))), AirlineIs(Some(l)));
  }

  // ---------------------------------------------------------------------
  // Distinct airports per airline

  /** The airports of a route's ends that are not NULL. */
  function Ends(r: StoredRoute): (e: set<int>)
    ensures |e| <= 2
  {
    (if r.route.sourceId.Some? then {r.route.sourceId.value} else {})
      + (if r.route.destId.Some? then {r.route.destId.value} else {})
  }

  /** `airline_airports` for airline `l`, NULL airports dropped as
      `COUNT(DISTINCT airport_id)` drops them. */
  function Touched(routes: seq<StoredRoute>, l: int): set<int>
    decreases |routes|
  {
    if |routes| == 0 then {}
    else
      var last := routes[|routes| - 1];
      Touched(routes[..|routes| - 1], l) + (if last.route.airlineId == Some(l) then Ends(last) else {})
  }

  datatype UniqueRow = UniqueRow(airline: Option<Airline>, airports: nat)

  /** The result rows before `ORDER BY`: one per airline id some route names,
      even one whose routes all have NULL airports (count 0). */
  function UniqueAirports(routes: seq<StoredRoute>, airlines: AirlineTable): (m: map<int, UniqueRow>)
    ensures m.Keys == AirlineIds(routes)
    ensures forall l :: l in m ==> m[l].airline == AirlineOf(airlines, l)
  {
    map l | l in AirlineIds(routes) :: UniqueRow(AirlineOf(airlines, l), |Touched(routes, l)|)
  }

  /** `airline_airports` as the query writes it: the source ids of the
      airline's routes `UNION` their destination ids, NULLs dropped. */
  function AirportUnion(routes: seq<StoredRoute>, l: int): set<int> {
    (set i | 0 <= i < |routes| && routes[i].route.airlineId == Some(l) && routes[i].route.sourceId.Some? :: routes[i].route.sourceId.value)
      + (set i | 0 <= i < |routes| && routes[i].route.airlineId == Some(l) && routes[i].route.destId.Some? :: routes[i].route.destId.value)
  }

  /** An airline's `airports` is `COUNT(DISTINCT airport_id)` over the union
      of its routes' source and destination ids. */
  lemma UniqueAirportsCount(routes: seq<StoredRoute>, airlines: AirlineTable, l: int)
    requires l in UniqueAirports(routes, airlines)
    ensures UniqueAirports(routes, airlines)[l].airports == |AirportUnion(routes, l)|
  {
    forall a | a in Touched(routes, l) ensures a in AirportUnion(routes, l) {
      TouchedInUnion(routes, l, a);
    }
    forall a | a in AirportUnion(routes, l) ensures a in Touched(routes, l) {
      UnionInTouched(routes, l, a);
    }
    assert Touched(routes, l) == AirportUnion(routes, l);
  }

  /** The two directions of the equality, one airport at a time. */
  lemma TouchedInUnion(routes: seq<StoredRoute>, l: int, a: int)
    requires a in Touched(routes, l)
    ensures a in AirportUnion(routes, l)
  {
    TouchedMeaning(routes, l, a);
    var i :| 0 <= i < |routes| && routes[i].route.airlineId == Some(l) &&
      (routes[i].route.sourceId == Some(a) || routes[i].route.destId == Some(a));
  }

  lemma UnionInTouched(routes: seq<StoredRoute>, l: int, a: int)
    requires a in AirportUnion(routes, l)
    ensures a in Touched(routes, l)
  {
    var i :| 0 <= i < |routes| && routes[i].route.airlineId == Some(l) &&
      ((routes[i].route.sourceId.Some? && routes[i].route.sourceId.value == a) ||
       (routes[i].route.destId.Some? && routes[i].route.destId.value == a));
    TouchedMeaning(routes, l, a);
  }

  /** An airport is counted for an airline exactly when one of the
      airline's routes leaves or reaches it. */
  lemma {:induction false} TouchedMeaning(routes: seq<StoredRoute>, l: int, a: int)
    ensures a in Touched(routes, l) <==>
      exists i :: 0 <= i < |routes| && routes[i].route.airlineId == Some(l) &&
        (routes[i].route.sourceId == Some(a) || routes[i].route.destId == Some(a))
    decreases |routes|
  {
    if |routes| > 0 {
      var init := routes[..|routes| - 1];
      TouchedMeaning(init, l, a);
      assert forall i :: 0 <= i < |init| ==> init[i] == routes[i];
      if a in Touched(routes, l) && a !in Touched(init, l) {
        var last := |routes| - 1;
        assert routes[last].route.airlineId == Some(l) &&
          (routes[last].route.sourceId == Some(a) || routes[last].route.destId == Some(a));
      }
    }
  }

  /** `UNION` removes duplicates: a route flown again adds no airport. */
  lemma RepeatedRouteAddsNothing(routes: seq<StoredRoute>, r: StoredRoute, l: int)
    requires r in routes
    ensures Touched(routes + [r], l) == Touched(routes, l)
  {
    assert (routes + [r])[..|routes|] == routes;
    if r.route.airlineId == Some(l) {
      var i :| 0 <= i < |routes| && routes[i] == r;
      forall a | a in Ends(r) ensures a in Touched(routes, l) {
        TouchedMeaning(routes, l, a);
      }
    }
  }

  /** An airline's distinct airports are at most two per route it flies. */
  lemma {:induction false} TouchedBound(routes: seq<StoredRoute>, l: int)
    ensures |Touched(routes, l)| <= 2 * Count(routes, AirlineIs(Some(l)))
    decreases |routes|
  {
    if |routes| > 0 {
      var init, last := routes[..|routes| - 1], routes[|routes| - 1];
      TouchedBound(init, l);
      if last.route.airlineId == Some(l) {
        assert |Touched(init, l) + Ends(last)| <= |Touched(init, l)| + |Ends(last)|;
      }
    }
  }

  /** A pair in the top-ten report names an airport the airline's unique
      count includes, so that airline's count is at least one. */
  lemma TopUsageCounted(routes: seq<StoredRoute>, airports: AirportTable, airlines: AirlineTable, top: set<int>, a: int, l: int)
    requires (a, l) in TopUsage(routes, airports, airlines, top)
    ensures l in UniqueAirports(routes, airlines)
    ensures a in Touched(routes, l)
    ensures UniqueAirports(routes, airlines)[l].airports >= 1
  {
    TopUsageKeys(routes, airports, airlines, top, a, l);
    TouchedMeaning(routes, l, a);
  }
}
